=== FILE: README.md ===
# MIRA chat assistant — a Dafny model of its text handling and request logic

MIRA is a browser chat assistant for students (`chat.js`) that talks to a
language model through a small serverless proxy
(`netlify/functions/chat.js`). This project models, as pure functions over
immutable values, the parts of both that decide what happens to text and to
the conversation:

- the client's text utilities: `normalizeES` and the "who are you" pattern
  `WHOAMI_RE` (module `Normalize`), `cleanVariablesLatex` (module
  `LatexClean`), `escapeHtml` (module `HtmlEscape`), `plainTextForVoice` and
  the empty-text guard of `speak` (module `Voice`);
- one turn of the conversation, `sendMessage`, together with `callAI` and
  `wikiFallback`, as a step function from the history before the turn and
  the outcomes of the network requests to the history after it, what is
  shown, what is sent and what is spoken (module `Turn`);
- the proxy's `handler` and its `json` helper: method gate, request
  validation, key check, the upstream call and its single retry with the
  leading system message rewritten, and the choice of status and body
  (module `Proxy`).

Supporting modules give the JavaScript semantics the code relies on:
`JsText` (the `\s` class, `trim`, `split`, `join`, `includes`), `Json` (JSON
values, truthiness, optional-chaining property access, `||`,
`JSON.stringify`, `String(x)`, thrown errors), `Pattern` (the regular
expressions that are only used with `test`: alternations of literals and
`\s+`, with or without the `i` flag) and `Wrappers` (`Option`).

Every regular-expression replacement is written as a scanner over the
string that either substitutes a match and resumes after it, or copies one
character, which is how a global `replace` proceeds. The network, the page
and the speech engine are replaced by inputs (outcome datatypes) and
outputs (the `Shown` list, the requests made, the utterance).

Where the code behaves differently from what its comments or its intent
suggest, the model follows the code:

- `plainTextForVoice` is not idempotent: `*```*` is spoken as the text
  ```` ``` ````, and speaking that again gives the empty string
  (`Voice.NotIdempotent`).
- The last rewrite of `plainTextForVoice` turns `". ."` into `". "`, so the
  result may end with a space (`Voice.TrailingSpace`).
- `cleanVariablesLatex` consumes one whitespace character after the closing
  `$` and does not put it back: `$vm$ es la velocidad` becomes
  `**vm**es la velocidad` (`LatexClean.CleanVelocity`).
- The history cut keeps eight entries (the first and the last seven), not
  nine (`Turn.BoundShape`). The fast path for "who are you" never cuts, so
  the stored history is not bounded; only what is sent is
  (`Turn.RequestBounded`, `Turn.HistoryAfterRequest`).
- The reply is spoken after LaTeX cleaning, not as the model wrote it
  (`Turn.ModelReplyUsed`).
- After a punctuation mark, the spacing rule looks only at the next
  character and resumes after it, so `",,a"` becomes `", ,a"`.

## Model

| member | source | states |
|---|---|---|
| `JsText.Trim` | chat.js:237 | `trim` never lengthens the text, and its result neither starts nor ends with whitespace |
| `JsText.TrimIsSlice` | chat.js:237 | the trimmed text is a slice of the input with only whitespace before and after it |
| `JsText.TrimKeeps` | chat.js:134 | a character that is not whitespace survives trimming |
| `JsText.TrimEmptyIff` | chat.js:237-238 | the trimmed input is empty exactly when the input is all whitespace |
| `JsText.Split` | chat.js:132 | `split("\n")` yields at least one piece and no piece contains the separator |
| `JsText.JoinSplit` | chat.js:132-140 | splitting on a character and joining with it again restores the text |
| `JsText.ContainsIff` | chat.js:137 | `includes` holds exactly when the text occurs at some index |
| `Json.Lookup` | chat.js:271 | a property is found exactly when some member has that key, and the value found belongs to such a member |
| `Json.LookupDistinct` | chat.js:271 | on an object with distinct keys, as `JSON.parse` builds one, a property read finds the value stored under that key |
| `Json.Or` | chat.js:271 | the `or` operator's result is truthy exactly when one of its operands is, and it is always one of its two operands |
| `Json.NatToString` | chat.js:204 | the spelling of the status is a non-empty string of decimal digits whose value is the status, with no leading zero |
| `Json.EscapeString` | chat.js:205 | the string body `JSON.stringify` writes contains no control characters |
| `Json.UnescapeEscape` | chat.js:205 | reading back what `JSON.stringify` wrote for a string gives the string |
| `Json.StringifyOneMember` | netlify/functions/chat.js:99 | a one-member object is written as `{"key":value}` |
| `Json.ErrorText` | chat.js:285 | the text of a caught error is its message or its name, and it is empty only when both are |
| `Pattern.SearchFromIff` | chat.js:246 | `test` succeeds exactly when some alternative matches at some index |
| `Pattern.LiteralTestIff` | chat.js:69-70 | a flagless pattern of literal alternatives matches exactly when one alternative is a substring |
| `Pattern.LitsMatchFoldedIff` | chat.js:273 | under the `i` flag a literal alternative matches exactly where its text occurs up to case |
| `Pattern.FoldedTestIff` | chat.js:273 | an `i`-flagged pattern of literal alternatives matches exactly when one occurs up to case |
| `HtmlEscape.Entity` | chat.js:107-113 | each of the five special characters becomes its entity, free of markup characters; every other character is kept |
| `HtmlEscape.Escape` | chat.js:106-114 | the escaped text contains none of `< > " '`, never shrinks, and text without special characters is returned as it is |
| `HtmlEscape.UnescapeEscape` | chat.js:106-114 | decoding the five entities in the escaped text gives back exactly what the user typed |
| `HtmlEscape.EscapeConcat` | chat.js:106-114 | escaping works character by character, so it distributes over concatenation |
| `Normalize.Lower` | chat.js:66 | lower-casing maps each character to one character, so it keeps the length (for the modelled table) |
| `Normalize.Decompose` | chat.js:66 | after canonical decomposition no precomposed accented letter is left |
| `Normalize.StripMarks` | chat.js:66 | deleting U+0300..U+036F leaves none of them and only characters of the input |
| `Normalize.NormalizeES` | chat.js:65-67 | the normalized text contains no combining mark and no precomposed accented letter |
| `Normalize.NormalizeIsFold` | chat.js:65-67 | the three passes fold the text character by character: drop marks, lower-case, replace an accented letter by its base letter |
| `Normalize.WhoAmINormalized` | chat.js:69-70 | on normalized text the fast path fires exactly when an alternative written without diacritics occurs; the accented alternatives can never match |
| `Normalize.FoldAllConcat` | chat.js:65-67 | folding works character by character, so it distributes over concatenation |
| `Normalize.WhoAmIUpToAccents` | chat.js:65-70 | the fast path fires whenever the question contains an alternative written without diacritics up to case and accents, as "¿Quién eres?" does with "quien eres" |
| `LatexClean.WordRunMaximal` | chat.js:75 | `[a-zA-Z_0-9]+` is matched greedily: the run is word characters and is followed by a non-word character or the end |
| `LatexClean.SpaceRunMaximal` | chat.js:75 | the leading `\s*` is matched greedily: the run is whitespace and is followed by a non-whitespace character or the end |
| `LatexClean.MatchAt` | chat.js:75 | a match at a line start ends after its start and within the text |
| `LatexClean.ChainIsLookup` | chat.js:77-86 | the chain of ten whole-token replacements yields the glyph of the first name the token spells (with an optional backslash, in any case), or leaves it unchanged |
| `LatexClean.GreekLookup` | chat.js:77-86 | the same for the ten Greek names of the source in their order |
| `LatexClean.ChainKeepsGlyph` | chat.js:77-86 | once a token is a glyph, the later replacements leave it alone |
| `LatexClean.GreekDelta` | chat.js:77 | `\Delta` becomes Δ |
| `LatexClean.GreekPlain` | chat.js:77-86 | any token that names none of the ten Greek letters keeps its text |
| `LatexClean.NoDollarUnchanged` | chat.js:74-90 | text without `$` is returned unchanged |
| `LatexClean.OtherLineUnchanged` | chat.js:74-90 | a single line that is no legend line (no leading whitespace, `$`, optional `?`, symbol, `$` decomposition) is returned unchanged |
| `LatexClean.MatchIsLegend` | chat.js:75 | conversely, whatever the pattern matches is a legend line, and the match captures its leading whitespace and symbol and ends after one optional whitespace character |
| `LatexClean.NotLegendNoMatch` | chat.js:75 | text that is no legend line gives no match |
| `LatexClean.MatchLegend` | chat.js:75 | a line of leading whitespace, `$`, optional `?`, optional backslash, a word and `$` is matched, up to and including one optional whitespace character |
| `LatexClean.CleanLegendLine` | chat.js:72-91 | a text that is one legend line whose rest has no `$` becomes its leading whitespace, then `**`, the token (Greek names replaced by their glyph), `**`, and the rest after one optional whitespace character |
| `LatexClean.LegendStep` | chat.js:74-90 | at a line start where a legend line begins, the replace emits its leading whitespace and the bold rendered token and resumes after one optional whitespace character, whatever follows |
| `LatexClean.CleanLegendFrom` | chat.js:72-91 | a legend line at a line start after legend-free text: the text before it, then the bold rendered token, then the cleaning of whatever follows |
| `LatexClean.CleanTwoLegends` | chat.js:72-91 | the text `$w1$`, a line break and `$w2$`, for any two words, becomes `**` `w1` `**` `**` `w2` `**` with Greek names replaced: both legends are replaced and the line break is taken by `\s?` |
| `LatexClean.CleanVelocity` | chat.js:75-88 | `$vm$ es la velocidad` becomes `**vm**es la velocidad`: the space after the closing `$` is lost |
| `LatexClean.CleanDelta` | chat.js:77-88 | `$\Delta$` becomes `**Δ**` |
| `LatexClean.CleanLegendAt` | chat.js:72-91 | a legend line starting at any line start, after text in which no legend starts and with no `$` after it, becomes the text before it, the leading whitespace, `**`, the rendered token, `**` and the rest after one optional whitespace character |
| `LatexClean.CleanLegendAtStart` | chat.js:72-91 | a text that is one legend line with no leading whitespace, no `?` and no `$` in its rest becomes `**`, the rendered symbol, `**` and the tail after one optional whitespace character |
| `LatexClean.RenderCopies` | chat.js:74-90 | copying each character renders the text itself |
| `LatexClean.CopyRun` | chat.js:74-90 | where no legend starts, the scan copies the text character by character |
| `Voice.KeepLines` | chat.js:131-139 | the kept lines are lines of the input that pass the filter; all lines are kept when all pass, none when none pass |
| `Voice.KeepLinesExactly` | chat.js:131-139 | the filter of a concatenation is the concatenation of the filters, and a single line is kept exactly when it passes: the kept lines are all passing lines, in order |
| `Voice.KeptLineNoDollar` | chat.js:133-138 | a kept line contains no `$` |
| `Voice.SentencesNoDollar` | chat.js:131-140 | the joined sentences contain no `$` |
| `Voice.SentencesOneLine` | chat.js:131-140 | a single kept line is its own sentence text |
| `Voice.StripPairChars` | chat.js:141-144 | every character of an emphasis pass's result occurs in its input |
| `Voice.StripPairOnlyDropsMarker` | chat.js:141-144 | an emphasis pass only takes out its marker: with the marker removed from both, result and input are equal |
| `Voice.StripPairNoMarker` | chat.js:141-144 | text without the marker is unchanged by the emphasis pass |
| `Voice.StripPairUnwraps` | chat.js:141-144 | a marker-free word between a pair of markers is unwrapped and the scan continues after the closing marker |
| `Voice.StripDoubleNoop` | chat.js:141 | text with no two adjacent markers is unchanged by the double-marker pass |
| `Voice.UnemphasizeChars` | chat.js:141-144 | every character after the four emphasis passes occurs in their input |
| `Voice.UnemphasizeOnlyDropsMarkers` | chat.js:141-144 | the four passes only take out `*` and `_`: every other character is kept, in order |
| `Voice.UnemphasizePlain` | chat.js:141-144 | text without `*` and `_` is unchanged by the emphasis passes |
| `Voice.SpaceAfterPunct` | chat.js:145 | the punctuation pass only inserts spaces and keeps the first character |
| `Voice.SpaceAfterPunctOnlyAddsSpaces` | chat.js:145 | removing spaces from the result gives the input with spaces removed |
| `Voice.SpaceAfterPunctNoop` | chat.js:145 | text where every punctuation mark is followed by whitespace or a period is unchanged |
| `Voice.CollapseSpace` | chat.js:146 | whitespace runs become single spaces: no whitespace other than space, no two adjacent spaces, other characters kept in place |
| `Voice.CollapseKeepsText` | chat.js:146 | collapsing whitespace keeps every non-whitespace character in order |
| `Voice.CollapseSpaceNoop` | chat.js:146 | text with only single spaces is unchanged |
| `Voice.CollapseSpaceIdempotent` | chat.js:146 | collapsing twice is collapsing once |
| `Voice.TrimChars` | chat.js:147 | every character of the trimmed text occurs in the input |
| `Voice.TrimOnlyDropsWhite` | chat.js:147 | trimming only takes out whitespace: every other character is kept, in order |
| `Voice.SquashDots` | chat.js:149 | after squashing no two adjacent periods remain, every character occurs in the input and the first character is kept |
| `Voice.SquashDotsOnlyDropsDots` | chat.js:149 | squashing only takes out periods: every other character is kept, in order |
| `Voice.SquashDotsNoop` | chat.js:149 | text with no two adjacent periods is unchanged |
| `Voice.DotSpaceDot` | chat.js:149 | every character after the `". ."` rewrite occurs in its input, and the rewrite cannot create adjacent periods |
| `Voice.DotSpaceDotOnlyDropsDots` | chat.js:149 | the `". ."` rewrite only takes out periods: every other character is kept, in order |
| `Voice.DotSpaceDotNoDot` | chat.js:149 | text without periods is unchanged |
| `Voice.SpokenShape` | chat.js:131-147 | the trimmed text has no `$`, only single spaces as whitespace, and no leading whitespace |
| `Voice.PlainTextShape` | chat.js:130-151 | the spoken text has no `$`, no newline, no two adjacent periods and no leading whitespace |
| `Voice.Speak` | chat.js:154-157 | an utterance is never empty, holds no `$` and no line break, and has no two adjacent periods |
| `Voice.AllLinesDropped` | chat.js:131-157 | when every line is filtered out nothing is spoken |
| `Voice.MathAndCodeAreSilent` | chat.js:133-157 | a reply made only of lines with math or code fences is not spoken |
| `Voice.WordsPassThrough` | chat.js:145-149 | a line of letters without whitespace or punctuation passes the last five steps unchanged |
| `Voice.OneLineOfWords` | chat.js:130-151 | a kept single line whose emphasis-free text is such a word is spoken as that word |
| `Voice.VoiceStarFence` | chat.js:130-151 | `*```*` is spoken as ```` ``` ```` |
| `Voice.VoiceFence` | chat.js:135 | a code fence alone is not spoken |
| `Voice.NotIdempotent` | chat.js:130-151 | applying `plainTextForVoice` twice differs from applying it once |
| `Voice.SettledLine` | chat.js:141-149 | on a settled line only the `". ."` rewrite acts |
| `Voice.TrailingSpace` | chat.js:149 | `a. .` is spoken as `a. `, ending in a space |
| `Turn.Splice` | chat.js:261 | `splice(start, count)` removes `count` entries at `start` and keeps the rest in order |
| `Turn.BoundShape` | chat.js:260-262 | a history longer than nine becomes exactly eight entries, the first and the last seven in order; a shorter one is untouched |
| `Turn.BoundIdempotent` | chat.js:260-262 | cutting an already cut history changes nothing |
| `Turn.HttpErrorMessage` | chat.js:204-205 | a failed answer's message is the body's string `error`, the JSON text of a non-string `error`, or `HTTP <status>` when there is none |
| `Turn.CallAI` | chat.js:194-208 | `callAI` fails exactly when the request threw or the answer was not ok; a non-ok answer fails with an `Error` |
| `Turn.UnparsableFailure` | chat.js:200-204 | a failed answer whose body is not JSON is reported with its status |
| `Turn.WikiFallback` | chat.js:173-186 | the encyclopedia text is `""` when the request throws, fails, the body is not JSON or has no truthy `extract`, and that `extract` otherwise |
| `Turn.ModelReply` | chat.js:271 | the reply read from the data is either `""` or truthy |
| `Turn.ModelReplyContent` | chat.js:271 | the reply of `{choices: [{message: {content: c}}, ...]}` with a truthy `c` is `c` |
| `Turn.ModelReplyMissing` | chat.js:271 | data without choices gives the reply `""` |
| `Turn.NoAnswerIff` | chat.js:273 | the reply is replaced exactly when one of the phrases occurs in it in any case |
| `Turn.ChooseReply` | chat.js:273-276 | a usable reply is kept; otherwise the encyclopedia text when it is truthy, else the apology |
| `Turn.FailureShowsError` | chat.js:283-290 | the error line of the `catch` is the fixed prefix and then the error text escaped: it holds no markup and reads back as exactly the error text |
| `Turn.BlankInputIgnored` | chat.js:237-238 | whitespace-only input leaves the history unchanged and shows, sends and speaks nothing |
| `Turn.UserMessageStored` | chat.js:237-257 | other input is echoed escaped and its trimmed text is stored as a user message |
| `Turn.SentIsPrefix` | chat.js:257-282 | off the fast path the new history begins with what was sent and adds at most one entry |
| `Turn.OffFastPath` | chat.js:237-257 | input that is neither blank nor a "who are you" question is pushed, cut and sent to the model, echoed escaped |
| `Turn.AskModelShape` | chat.js:257-290 | whatever `callAI` yields, the request carries the history as sent, the echo is shown first with one more line, and at most the assistant's message is added |
| `Turn.SentEndsWithUser` | chat.js:257-262 | the user's message is the last entry sent, after any cut |
| `Turn.WhoAmIFastPath` | chat.js:245-254 | on the fast path the history grows by exactly the user message and the introduction, with no cut, no request and no encyclopedia query |
| `Turn.RequestBounded` | chat.js:257-269 | every request carries at most nine messages and starts with the first message of the history |
| `Turn.FirstMessageKept` | chat.js:251-262 | the first message of the history survives every turn |
| `Turn.HistoryAfterRequest` | chat.js:257-279 | after a turn that made a request the history has at most ten entries |
| `Turn.ErrorPath` | chat.js:283-290 | when the request throws, the user message stays, no assistant message is added, the error is shown escaped and nothing is spoken |
| `Turn.FailedCall` | chat.js:264-290 | any failing `callAI` ends the turn that way without asking the encyclopedia |
| `Turn.ModelReplyUsed` | chat.js:271-282 | a usable string reply is cleaned, appended as exactly one assistant message, shown and spoken; the encyclopedia is not asked |
| `Turn.FallbackUsed` | chat.js:273-282 | an empty or no-answer reply is replaced by the encyclopedia text for the user's question or by the apology, cleaned and appended once |
| `Turn.ApologyUnchanged` | chat.js:275-278 | the apology has no math and is stored as written |
| `Proxy.JsonResponse` | netlify/functions/chat.js:92-101 | the helper answers with the given status, the JSON and CORS-origin headers, and an object body that begins with `{` |
| `Proxy.ErrorBody` | netlify/functions/chat.js:20 | the error body carries the message under `error` |
| `Proxy.ErrorResponseReadable` | netlify/functions/chat.js:92-101 | an error response body is `{"error":` followed by the quoted message and `}`, and the message reads back exactly |
| `Proxy.Thrown` | netlify/functions/chat.js:86-88 | a thrown error is answered with 500, the JSON headers and the body `{"error":` followed by the quoted error text and `}` |
| `Proxy.Destructure` | netlify/functions/chat.js:24 | an absent body reads as `{}`; malformed JSON and `null` throw; otherwise `model` and `messages` are read, and `temperature` defaults to 0.7 only when absent |
| `Proxy.AsUser` | netlify/functions/chat.js:63-67 | the rewritten message is an object with role `user`, the same content, and no other member (a system message's `name` and the like are dropped) |
| `Proxy.AsUserText` | netlify/functions/chat.js:63-67 | what `JSON.stringify` sends for it: `{"role":"user","content":` + the content's JSON + `}`, or `{"role":"user"}` when the content is absent |
| `Proxy.RewriteSystem` | netlify/functions/chat.js:63-67 | the rewrite keeps the length and every entry after the first; the first changes exactly when its role is `system`, to a user message with the same content and no other member |
| `Proxy.RewriteIdempotent` | netlify/functions/chat.js:63-67 | rewriting twice is rewriting once |
| `Proxy.Upstream` | netlify/functions/chat.js:36-48 | the upstream request carries the bearer key, the messages, the temperature, and the model or the default model when it is not truthy |
| `Proxy.Data` | netlify/functions/chat.js:49-52 | a JSON answer is its value; any other text is wrapped as `{raw: text}` |
| `Proxy.ComplaintMatches` | netlify/functions/chat.js:62 | "property 'system' is unsupported" with single spaces, in any case, anywhere in a text, matches the retry pattern |
| `Proxy.ComplaintTriggersRetry` | netlify/functions/chat.js:60-62 | that complaint anywhere in the JSON text of the data triggers the retry |
| `Proxy.Final` | netlify/functions/chat.js:72-85 | an ok answer is relayed with 200 and its data as JSON; a failed one with the upstream status (500 for 0) and its truthy `error` or else the whole data under `error` |
| `Proxy.Preflight` | netlify/functions/chat.js:7-17 | OPTIONS is answered 204 with an empty body and the preflight headers, whatever the request carries, with no upstream call |
| `Proxy.OtherMethods` | netlify/functions/chat.js:19-21 | a method other than OPTIONS and POST gets 405 `{"error":"Method Not Allowed"}` and no upstream call |
| `Proxy.InvalidMessages` | netlify/functions/chat.js:26-28 | missing, non-array or empty messages get 400 before the key is checked, and no upstream call |
| `Proxy.AbsentBodyRefused` | netlify/functions/chat.js:24-28 | a POST without a body is refused with 400 |
| `Proxy.KeyMissing` | netlify/functions/chat.js:30-33 | valid messages without a key get 500 and no upstream call |
| `Proxy.UnreadableBody` | netlify/functions/chat.js:86-88 | a body that is not JSON, or is `null`, gets 500 with the error text and no upstream call |
| `Proxy.RetryBound` | netlify/functions/chat.js:56-70 | at most two upstream calls; the first carries the messages unchanged; a second happens exactly when the first failed with the complaint, and it differs from the first only by the rewritten messages |
| `Proxy.CallsBound` | netlify/functions/chat.js:5-70 | the handler makes at most two upstream calls, and only for POST |
| `Proxy.RelaysLastAnswer` | netlify/functions/chat.js:56-85 | the response is decided by the last call: a thrown call gives 500, an answer goes through the final status selection |
| `Proxy.StatusOrigin` | netlify/functions/chat.js:5-88 | every status is 200, 204, 400, 405, 500 or an upstream status |
| `Proxy.JsonHeadersEverywhere` | netlify/functions/chat.js:19-101 | every response except the preflight carries the JSON and CORS-origin headers |
| `Proxy.NonJsonWrapped` | netlify/functions/chat.js:49-51 | a non-JSON answer is relayed as `{raw: text}`, inside `error` when it failed |
| `Proxy.Defaults` | netlify/functions/chat.js:24-47 | a request without model or temperature is sent upstream with the default model and temperature 0.7 |

## Left out

- DOM work: `showThinking`, the `innerHTML` of `addUserMessage` and `addAssistantMessage`, scrolling, `setAvatarTalking`, the start-up greeting and the iOS speech unlock. A turn reports what it shows as a list of `Shown` values instead.
- Speech synthesis: only the empty-text guard of `speak` is modelled; voice, rate, pitch and the callbacks are not.
- Markdown and MathJax rendering are foreign libraries: a shown reply is its Markdown text.
- `fetch`, the endpoints, `encodeURIComponent` and `process.env`: requests are replaced by their outcomes, the key by an optional string.
- `JSON.parse` of text: bodies arrive already read (`Option<Json>`, `AnswerBody`, `RequestBody`), so no JSON parser is modelled.
- Numbers are kept as their canonical spelling (what `JSON.stringify` prints), so `0` is the only falsy number text; the temperature 0.7 is the text `0.7`, and no floating point is modelled.
- The wording of engine errors (destructuring `null`, `text.replace is not a function`) is approximated by constants.
- The contents of the system prompt: it is an opaque string, the first message of the history.
- Overlapping `sendMessage` calls that share the history are a concurrency matter and are not modelled.
- Normalize.NormalizeES: lower-casing and canonical decomposition are modelled for ASCII and the Spanish letters á é í ó ú ü ñ and their capitals only; every other character is left as it is, where the full Unicode tables might change it.
- Pattern.LitsMatchFoldedIff: the case folding of the `i` flag is exact for ASCII letters and é, the only letters in the patterns; for other characters the model folds nothing.
- The class `[ée]` of the no-answer pattern is written as two alternatives.
- Strings are sequences of Unicode scalar values, where JavaScript strings are UTF-16 code units: a lone surrogate (which `JSON.stringify` writes as a `\u` escape) cannot be represented. Every character the code treats specially is in the Basic Multilingual Plane.
- Normalize.Lower: keeping the length holds for the modelled table only; JavaScript's `toLowerCase` maps U+0130 (İ) to two code units.
- Json.Lookup: returns the first member with the key, while `JSON.parse` keeps the last of repeated keys; parsed objects are taken to have distinct keys (`Json.DistinctKeys`), on which the two agree (`Json.LookupDistinct`).

=== FILE: escape.dfy ===
/** `escapeHtml` (chat.js): the user's own text is echoed into the page with
    the five HTML-significant characters replaced by entities, so it is shown
    literally and never interpreted as markup. */
module HtmlEscape {
  import JsText
  import Seqs

  /** The five characters the escaper's character class lists. */
  predicate Special(c: char) {
    c == '&' || c == '<' || c == '>' || c == '"' || c == '\''
  }

  /** Characters that may not appear in escaped output: everything the
      escaper replaces except `&`, which each entity itself begins with. */
  predicate Markup(c: char) {
    c == '<' || c == '>' || c == '"' || c == '\''
  }

  /** The replacement of one character. */
  function Entity(c: char): (r: string)
    ensures forall i :: 0 <= i < |r| ==> !Markup(r[i])
    ensures !Special(c) ==> r == [c]
  {
    if c == '&' then "&amp;"
    else if c == '<' then "&lt;"
    else if c == '>' then "&gt;"
    else if c == '"' then "&quot;"
    else if c == '\'' then "&#39;"
    else [c]
  }

  /** `escapeHtml(text)`. */
  function Escape(s: string): (r: string)
    ensures forall i :: 0 <= i < |r| ==> !Markup(r[i])
    ensures (forall i :: 0 <= i < |s| ==> !Special(s[i])) ==> r == s
    ensures |r| >= |s|
  {
    if |s| == 0 then []
    else Entity(s[0]) + Escape(s[1..])
  }

  /** The reading a browser gives the escaped text: each of the five entities
      stands for its character, everything else for itself. */
  function Unescape(t: string): string
    decreases |t|
  {
    if |t| == 0 then []
    else if t[0] != '&' then [t[0]] + Unescape(t[1..])
    else if JsText.StartsWith(t, "&amp;") then "&" + Unescape(t[5..])
    else if JsText.StartsWith(t, "&lt;") then "<" + Unescape(t[4..])
    else if JsText.StartsWith(t, "&gt;") then ">" + Unescape(t[4..])
    else if JsText.StartsWith(t, "&quot;") then "\"" + Unescape(t[6..])
    else if JsText.StartsWith(t, "&#39;") then "'" + Unescape(t[5..])
    else [t[0]] + Unescape(t[1..])
  }

  /** Decoding one escaped character in front of any rest. */
  lemma UnescapeEntity(c: char, rest: string)
    ensures Unescape(Entity(c) + rest) == [c] + Unescape(rest)
  {
    if c == '&' {
      UnescapeAmp(rest);
    } else if c == '<' {
      UnescapeLt(rest);
    } else if c == '>' {
      UnescapeGt(rest);
    } else if c == '"' {
      UnescapeQuot(rest);
    } else if c == '\'' {
      UnescapeApos(rest);
    } else {
      var t := [c] + rest;
      assert t[0] == c && t[1..] == rest;
    }
  }

  lemma UnescapeAmp(rest: string)
    ensures Unescape("&amp;" + rest) == "&" + Unescape(rest)
  {
    var t := "&amp;" + rest;
    Seqs.ConcatParts("&amp;", rest);
  }

  lemma UnescapeLt(rest: string)
    ensures Unescape("&lt;" + rest) == "<" + Unescape(rest)
  {
    var t := "&lt;" + rest;
    Seqs.ConcatParts("&lt;", rest);
    assert t[1] == 'l';
  }

  lemma UnescapeGt(rest: string)
    ensures Unescape("&gt;" + rest) == ">" + Unescape(rest)
  {
    var t := "&gt;" + rest;
    Seqs.ConcatParts("&gt;", rest);
    assert t[1] == 'g';
  }

  lemma UnescapeQuot(rest: string)
    ensures Unescape("&quot;" + rest) == "\"" + Unescape(rest)
  {
    var t := "&quot;" + rest;
    Seqs.ConcatParts("&quot;", rest);
    assert t[1] == 'q';
  }

  lemma UnescapeApos(rest: string)
    ensures Unescape("&#39;" + rest) == "'" + Unescape(rest)
  {
    var t := "&#39;" + rest;
    Seqs.ConcatParts("&#39;", rest);
    assert t[1] == '#';
  }

  /** What the user typed is exactly what the page shows. */
  lemma {:induction false} UnescapeEscape(s: string)
    ensures Unescape(Escape(s)) == s
  {
    if |s| > 0 {
      UnescapeEscape(s[1..]);
      UnescapeEntity(s[0], Escape(s[1..]));
      assert [s[0]] + s[1..] == s;
    }
  }

  /** Escaping works character by character, so it distributes over
      concatenation. */
  lemma {:induction false} EscapeConcat(a: string, b: string)
    ensures Escape(a + b) == Escape(a) + Escape(b)
  {
    if |a| > 0 {
      EscapeConcat(a[1..], b);
      Seqs.ConsParts(a, b);
      var e := Entity(a[0]);
      assert Escape(a + b) == e + Escape(a[1..] + b);
      assert Escape(a) == e + Escape(a[1..]);
      Seqs.Assoc(e, Escape(a[1..]), Escape(b));
    } else {
      assert a + b == b;
    }
  }
}

=== FILE: json.dfy ===
/** JSON values as the chat client and the proxy see them after `JSON.parse`,
    together with the JavaScript operations the code applies to them:
    truthiness, optional property access (`x?.key`), `||`, `JSON.stringify`,
    `String(x)`, and the text of a caught `Error`. */
module Json {
  import opened Wrappers
  import JsText

  /** A parsed JSON value. A number is carried as its canonical decimal
      spelling (what `Number.prototype.toString` prints, which is also what
      `JSON.stringify` prints); no arithmetic is done on numbers here. An
      object's members are listed in the object's own-property order, with
      distinct keys, as `JSON.parse` builds them. */
  datatype Json =
    | Null
    | Bool(b: bool)
    | Num(text: string)
    | Str(str: string)
    | Arr(items: seq<Json>)
    | Obj(members: seq<(string, Json)>)

  /** JavaScript truthiness of a JSON value (`undefined` is `None` and falsy). */
  predicate Truthy(j: Json) {
    match j
    case Null => false
    case Bool(b) => b
    case Num(t) => t != "0"
    case Str(s) => s != ""
    case Arr(_) => true
    case Obj(_) => true
  }

  predicate TruthyOpt(o: Option<Json>) {
    o.Some? && Truthy(o.value)
  }

  /** The first member of `ms` whose key is `key` (on the distinct keys
      `JSON.parse` produces, the only one: see `LookupDistinct`). */
  function Lookup(ms: seq<(string, Json)>, key: string): (r: Option<Json>)
    ensures r.Some? <==> exists k :: 0 <= k < |ms| && ms[k].0 == key
    ensures r.Some? ==> exists k :: 0 <= k < |ms| && ms[k] == (key, r.value)
  {
    if |ms| == 0 then None
    else if ms[0].0 == key then Some(ms[0].1)
    else
      var r := Lookup(ms[1..], key);
      assert forall k :: 1 <= k < |ms| ==> ms[k] == ms[1..][k - 1];
      r
  }

  /** No key occurs twice among the members. */
  predicate DistinctKeys(ms: seq<(string, Json)>) {
    forall k, m :: 0 <= k < m < |ms| ==> ms[k].0 != ms[m].0
  }

  /** On distinct keys, a lookup finds the member with that key. */
  lemma {:induction false} LookupDistinct(ms: seq<(string, Json)>, k: nat)
    requires DistinctKeys(ms) && k < |ms|
    ensures Lookup(ms, ms[k].0) == Some(ms[k].1)
  {
    if k > 0 {
      assert ms[0].0 != ms[k].0;
      assert ms[1..][k - 1] == ms[k];
      LookupDistinct(ms[1..], k - 1);
    }
  }

  /** `j?.[key]` for a JSON value: only objects have the properties this code
      reads (`error`, `extract`, `choices`, `message`, `content`, `role`,
      `model`, `messages`, `temperature`); on anything else they are
      `undefined`. */
  function Prop(j: Json, key: string): Option<Json> {
    match j
    case Obj(ms) => Lookup(ms, key)
    case _ => None
  }

  /** `o?.[key]` where `o` may itself be `undefined`. */
  function PropOpt(o: Option<Json>, key: string): Option<Json> {
    if o.None? then None else Prop(o.value, key)
  }

  /** `o?.[0]`: the first element of an array, or the member named "0" of an
      object. (On a string it is a one-character string, which has none of
      the properties read afterwards; it is `undefined` here.) */
  function Index0(o: Option<Json>): Option<Json> {
    match o
    case Some(Arr(items)) => if |items| > 0 then Some(items[0]) else None
    case Some(Obj(ms)) => Lookup(ms, "0")
    case _ => None
  }

  /** `a || b`. */
  function Or(a: Option<Json>, b: Json): (r: Json)
    ensures Truthy(r) <==> TruthyOpt(a) || Truthy(b)
    ensures r == b || (a.Some? && r == a.value)
    ensures TruthyOpt(a) ==> r == a.value
    ensures !TruthyOpt(a) ==> r == b
  {
    if TruthyOpt(a) then a.value else b
  }

  predicate AllDigits(r: string) {
    forall i :: 0 <= i < |r| ==> '0' <= r[i] <= '9'
  }

  /** The number a string of decimal digits spells. */
  function DigitsValue(r: string): nat
    requires AllDigits(r)
  {
    if |r| == 0 then 0
    else DigitsValue(r[..|r| - 1]) * 10 + (r[|r| - 1] as int - '0' as int)
  }

  /** The decimal spelling of a natural number, as template literals print it:
      digits that spell `n`, with no leading zero. */
  function NatToString(n: nat): (r: string)
    ensures |r| >= 1 && AllDigits(r)
    ensures DigitsValue(r) == n
    ensures r[0] == '0' ==> n == 0
  {
    var d := [(('0' as int) + n % 10) as char];
    if n < 10 then d
    else
      var r := NatToString(n / 10) + d;
      assert r[..|r| - 1] == NatToString(n / 10);
      r
  }

  /** Four lower-case hex digits of a code unit below 0x20, as `JSON.stringify`
      writes control characters. */
  function Hex4(c: char): (r: string)
    requires c < ' '
    ensures |r| == 4 && forall i :: 0 <= i < 4 ==> r[i] >= '0'
  {
    var n := c as int;
    var hex := "0123456789abcdef";
    ['0', '0', hex[n / 16], hex[n % 16]]
  }

  /** How `JSON.stringify` writes one character inside a string literal. */
  function EscapeChar(c: char): (r: string)
    ensures |r| >= 1
    ensures c != '"' && c != '\\' && c >= ' ' ==> r == [c]
    ensures forall i :: 0 <= i < |r| ==> r[i] >= ' '
  {
    if c == '"' then "\\\""
    else if c == '\\' then "\\\\"
    else if c == '\U{8}' then "\\b"
    else if c == '\U{C}' then "\\f"
    else if c == '\n' then "\\n"
    else if c == '\r' then "\\r"
    else if c == '\t' then "\\t"
    else if c < ' ' then "\\u" + Hex4(c)
    else [c]
  }

  /** The body of a JSON string literal for `s` (without the quotes). */
  function EscapeString(s: string): (r: string)
    ensures forall i :: 0 <= i < |r| ==> r[i] >= ' '
  {
    if |s| == 0 then []
    else
      var e := EscapeChar(s[0]);
      var rest := EscapeString(s[1..]);
      assert forall i :: |e| <= i < |e| + |rest| ==> (e + rest)[i] == rest[i - |e|];
      e + rest
  }

  /** The value of a hex digit (for decoding `\u` escapes). */
  function HexValue(c: char): int {
    if '0' <= c <= '9' then c as int - '0' as int
    else if 'a' <= c <= 'f' then c as int - 'a' as int + 10
    else if 'A' <= c <= 'F' then c as int - 'A' as int + 10
    else -1
  }

  /** Reads back the body of a JSON string literal written by
      `EscapeString`: the two-character escapes and `\u00XX` below 0x20
      (a `\u` escape of any other code unit is rejected, although
      `JSON.parse` accepts it). `None` on a malformed escape. */
  function UnescapeString(t: string): Option<string>
    decreases |t|
  {
    if |t| == 0 then Some([])
    else if t[0] != '\\' then
      match UnescapeString(t[1..])
      case Some(rest) => Some([t[0]] + rest)
      case None => None
    else if |t| < 2 then None
    else
      var e := t[1];
      var c: Option<char> :=
        if e == '"' then Some('"') else if e == '\\' then Some('\\')
        else if e == '/' then Some('/') else if e == 'b' then Some('\U{8}')
        else if e == 'f' then Some('\U{C}') else if e == 'n' then Some('\n')
        else if e == 'r' then Some('\r') else if e == 't' then Some('\t')
        else None;
      if c.Some? then
        match UnescapeString(t[2..])
        case Some(rest) => Some([c.value] + rest)
        case None => None
      else if e == 'u' && |t| >= 6 && t[2] == '0' && t[3] == '0'
              && 0 <= HexValue(t[4]) < 2 && 0 <= HexValue(t[5]) then
        var code := HexValue(t[4]) * 16 + HexValue(t[5]);
        match UnescapeString(t[6..])
        case Some(rest) => Some([code as char] + rest)
        case None => None
      else None
  }

  /** Decoding one escaped character in front of a decodable rest. */
  lemma UnescapeCharStep(c: char, r: string, x: string)
    requires UnescapeString(r) == Some(x)
    ensures UnescapeString(EscapeChar(c) + r) == Some([c] + x)
  {
    var t := EscapeChar(c) + r;
    if c == '"' || c == '\\' || c == '\U{8}' || c == '\U{C}' || c == '\n' || c == '\r' || c == '\t' {
      assert t[0] == '\\' && |t| >= 2 && t[2..] == r;
    } else if c < ' ' {
      UnescapeControlStep(c, r, x);
    } else {
      assert t[0] == c && t[1..] == r;
    }
  }

  lemma UnescapeControlStep(c: char, r: string, x: string)
    requires c < ' ' && c != '\U{8}' && c != '\U{C}' && c != '\n' && c != '\r' && c != '\t'
    requires UnescapeString(r) == Some(x)
    ensures UnescapeString(EscapeChar(c) + r) == Some([c] + x)
  {
    var t := EscapeChar(c) + r;
    var n := c as int;
    assert t[0] == '\\' && t[1] == 'u' && t[2] == '0' && t[3] == '0';
    assert t[4] == "0123456789abcdef"[n / 16] && t[5] == "0123456789abcdef"[n % 16];
    assert HexValue(t[4]) == n / 16;
    assert HexValue(t[5]) == n % 16;
    assert t[6..] == r;
  }

  /** Reading back what `JSON.stringify` wrote for a string gives the
      string. */
  lemma {:induction false} UnescapeEscape(s: string)
    ensures UnescapeString(EscapeString(s)) == Some(s)
  {
    if |s| > 0 {
      UnescapeEscape(s[1..]);
      UnescapeCharStep(s[0], EscapeString(s[1..]), s[1..]);
      assert [s[0]] + s[1..] == s;
    }
  }

  /** A JSON string literal. */
  function Quote(s: string): string {
    "\"" + EscapeString(s) + "\""
  }

  /** `JSON.stringify(j)` (no indentation). */
  function Stringify(j: Json): string
    decreases j
  {
    match j
    case Null => "null"
    case Bool(b) => if b then "true" else "false"
    case Num(t) => t
    case Str(s) => Quote(s)
    case Arr(items) =>
      "[" + JsText.Join(seq(|items|, i requires 0 <= i < |items| => Stringify(items[i])), ",") + "]"
    case Obj(ms) =>
      "{" + JsText.Join(seq(|ms|, i requires 0 <= i < |ms| => Quote(ms[i].0) + ":" + Stringify(ms[i].1)), ",") + "}"
  }

  /** A one-member object is written as `{"key":value}`. */
  lemma StringifyOneMember(k: string, v: Json)
    ensures Stringify(Obj([(k, v)])) == "{" + Quote(k) + ":" + Stringify(v) + "}"
  {
    var ms := [(k, v)];
    var items := seq(|ms|, i requires 0 <= i < |ms| => Quote(ms[i].0) + ":" + Stringify(ms[i].1));
    assert JsText.Join(items, ",") == items[0];
  }

  /** A two-member object is written as `{"k1":v1,"k2":v2}`. */
  lemma StringifyTwoMembers(k1: string, v1: Json, k2: string, v2: Json)
    ensures Stringify(Obj([(k1, v1), (k2, v2)])) ==
              "{" + Quote(k1) + ":" + Stringify(v1) + "," + Quote(k2) + ":" + Stringify(v2) + "}"
  {
    var a, b := Quote(k1) + ":" + Stringify(v1), Quote(k2) + ":" + Stringify(v2);
    StringifyTwoItems(k1, v1, k2, v2, a, b);
    JsText.JoinTwo(a, b, ",");
    Braced(Quote(k1), Stringify(v1), Quote(k2), Stringify(v2));
  }

  lemma StringifyTwoItems(k1: string, v1: Json, k2: string, v2: Json, a: string, b: string)
    requires a == Quote(k1) + ":" + Stringify(v1) && b == Quote(k2) + ":" + Stringify(v2)
    ensures Stringify(Obj([(k1, v1), (k2, v2)])) == "{" + JsText.Join([a, b], ",") + "}"
  {
    var ms := [(k1, v1), (k2, v2)];
    var items := seq(|ms|, i requires 0 <= i < |ms| => Quote(ms[i].0) + ":" + Stringify(ms[i].1));
    assert items == [a, b];
  }

  lemma Braced(q1: string, s1: string, q2: string, s2: string)
    ensures "{" + ((q1 + ":" + s1) + "," + (q2 + ":" + s2)) + "}" == "{" + q1 + ":" + s1 + "," + q2 + ":" + s2 + "}"
  {
  }

  /** A key of lower-case letters is quoted as it is. */
  lemma QuoteLower(k: string)
    requires forall i :: 0 <= i < |k| ==> 'a' <= k[i] <= 'z'
    ensures Quote(k) == "\"" + k + "\""
  {
    EscapePlain(k);
  }

  /** Text without quotes, backslashes or control characters is written as
      it is. */
  lemma {:induction false} EscapePlain(s: string)
    requires forall i :: 0 <= i < |s| ==> s[i] != '"' && s[i] != '\\' && s[i] >= ' '
    ensures EscapeString(s) == s
  {
    if |s| > 0 {
      EscapePlain(s[1..]);
      assert [s[0]] + s[1..] == s;
    }
  }

  lemma QuotePlain(k: string)
    requires k == "error"
    ensures Quote(k) == "\"" + k + "\""
  {
    EscapePlain(k);
  }

  /** `String(j)`: the conversion a regex `test` applies to a non-string.
      Arrays join their elements with commas, writing `null` as nothing. */
  function ToStr(j: Json): string
    decreases j
  {
    match j
    case Null => "null"
    case Bool(b) => if b then "true" else "false"
    case Num(t) => t
    case Str(s) => s
    case Arr(items) =>
      JsText.Join(seq(|items|, i requires 0 <= i < |items| => if items[i].Null? then "" else ToStr(items[i])), ",")
    case Obj(_) => "[object Object]"
  }

  /** A thrown JavaScript `Error`: its `name` and `message`. */
  datatype JsError = JsError(name: string, message: string)

  /** `String(err?.message || err)`: the message when it is non-empty, and
      otherwise `Error.prototype.toString`, which is then just the name. */
  function ErrorText(e: JsError): (r: string)
    ensures r == "" <==> e.message == "" && e.name == ""
    ensures r == e.message || r == e.name
    ensures e.message != "" ==> r == e.message
    ensures e.message == "" ==> r == e.name
  {
    if e.message != "" then e.message else e.name
  }
}

=== FILE: jstext.dfy ===
/** The pieces of JavaScript's string library that the chat client and the
    proxy lean on: the `\s` character class (which is also the set that
    `String.prototype.trim` removes), `trim`, `split` on one character,
    `join`, and substring tests. Strings are `seq<char>` of Unicode scalar
    values. */
module JsText {
  import Seqs

  /** ECMAScript WhiteSpace plus LineTerminator: the characters `\s` matches
      and `trim` removes. */
  predicate IsSpace(c: char) {
    || c == '\t' || c == '\n' || c == '\U{B}' || c == '\U{C}' || c == '\r'
    || c == ' ' || c == '\U{A0}' || c == '\U{1680}'
    || ('\U{2000}' <= c <= '\U{200A}')
    || c == '\U{2028}' || c == '\U{2029}' || c == '\U{202F}' || c == '\U{205F}'
    || c == '\U{3000}' || c == '\U{FEFF}'
  }

  /** The characters after which `^` matches in a regex with the `m` flag. */
  predicate IsLineTerminator(c: char) {
    c == '\n' || c == '\r' || c == '\U{2028}' || c == '\U{2029}'
  }

  predicate AllSpace(s: string) {
    forall i :: 0 <= i < |s| ==> IsSpace(s[i])
  }

  predicate StartsWith(s: string, prefix: string) {
    |prefix| <= |s| && s[..|prefix|] == prefix
  }

  predicate EndsWith(s: string, suffix: string) {
    |suffix| <= |s| && s[|s| - |suffix|..] == suffix
  }

  /** `s.includes(p)`: `p` occurs in `s` at some position. */
  predicate Contains(s: string, p: string)
    decreases |s|
  {
    StartsWith(s, p) || (|s| > 0 && Contains(s[1..], p))
  }

  /** Number of leading `\s` characters of `s`. */
  function LeadingSpace(s: string): (n: nat)
    ensures n <= |s|
    ensures AllSpace(s[..n])
    ensures n < |s| ==> !IsSpace(s[n])
  {
    if |s| == 0 || !IsSpace(s[0]) then 0
    else
      var n := LeadingSpace(s[1..]);
      Seqs.PrefixCons(s, n);
      n + 1
  }

  /** Number of trailing `\s` characters of `s`. */
  function TrailingSpace(s: string): (n: nat)
    ensures n <= |s|
    ensures AllSpace(s[|s| - n..])
    ensures n < |s| ==> !IsSpace(s[|s| - n - 1])
  {
    if |s| == 0 || !IsSpace(s[|s| - 1]) then 0
    else
      var n := TrailingSpace(s[..|s| - 1]);
      Seqs.SuffixSnoc(s, n);
      n + 1
  }

  /** `s.trim()`: the slice of `s` between its leading and trailing `\s` runs. */
  function Trim(s: string): (r: string)
    ensures |r| <= |s|
    ensures r == [] || (!IsSpace(r[0]) && !IsSpace(r[|r| - 1]))
  {
    var a := LeadingSpace(s);
    var t := s[a..];
    var b := TrailingSpace(t);
    t[..|t| - b]
  }

  /** What `trim` removes is whitespace on both sides: the result is the
      slice of the input that starts after the leading whitespace, and only
      whitespace follows it. */
  lemma TrimIsSlice(s: string)
    ensures var a, r := LeadingSpace(s), Trim(s);
            a + |r| <= |s| && s[a..a + |r|] == r
            && AllSpace(s[..a]) && AllSpace(s[a + |r|..])
  {
    TrimSliceAt(s);
    TrimTailSpace(s);
  }

  lemma TrimSliceAt(s: string)
    ensures var a, r := LeadingSpace(s), Trim(s);
            a + |r| <= |s| && s[a..a + |r|] == r
  {
    var a := LeadingSpace(s);
    var t := s[a..];
    var b := TrailingSpace(t);
    Seqs.SliceOfSlice(s, a, |t| - b);
  }

  lemma TrimTailSpace(s: string)
    ensures var a, r := LeadingSpace(s), Trim(s);
            a + |r| <= |s| && AllSpace(s[a + |r|..])
  {
    var a := LeadingSpace(s);
    var t := s[a..];
    var b := TrailingSpace(t);
    Seqs.SuffixOfSlice(s, a, |t| - b);
  }

  /** A character that is not whitespace survives trimming. */
  lemma TrimKeeps(s: string, i: nat)
    requires i < |s| && !IsSpace(s[i])
    ensures s[i] in Trim(s)
  {
    var a := LeadingSpace(s);
    var t := s[a..];
    var b := TrailingSpace(t);
    assert forall j :: 0 <= j < a ==> IsSpace(s[j]) by {
      forall j | 0 <= j < a
        ensures IsSpace(s[j])
      {
        assert s[..a][j] == s[j];
      }
    }
    assert forall j :: |t| - b <= j < |t| ==> IsSpace(t[j]) by {
      forall j | |t| - b <= j < |t|
        ensures IsSpace(t[j])
      {
        assert t[|t| - b..][j - (|t| - b)] == t[j];
      }
    }
    assert t[i - a] == s[i];
    assert t[..|t| - b][i - a] == s[i];
  }

  /** `trim` yields the empty string exactly on whitespace-only input. */
  lemma TrimEmptyIff(s: string)
    ensures Trim(s) == [] <==> AllSpace(s)
  {
    var a := LeadingSpace(s);
    var t := s[a..];
    var b := TrailingSpace(t);
    if |t| == b {
      assert s[..a] == s;
    } else {
      assert Trim(s)[0] == s[a];
    }
  }

  /** `s.split(sep)` for a one-character separator: the maximal pieces
      between occurrences of `sep`; there is always at least one piece. */
  function Split(s: string, sep: char): (parts: seq<string>)
    ensures |parts| >= 1
    ensures forall k :: 0 <= k < |parts| ==> sep !in parts[k]
  {
    if |s| == 0 then [[]]
    else
      var rest := Split(s[1..], sep);
      if s[0] == sep then [[]] + rest
      else [[s[0]] + rest[0]] + rest[1..]
  }

  /** A text without the separator is one piece. */
  lemma {:induction false} SplitNoSep(s: string, sep: char)
    requires sep !in s
    ensures Split(s, sep) == [s]
  {
    if |s| > 0 {
      SplitNoSep(s[1..], sep);
      assert [s[0]] + s[1..] == s;
    }
  }

  /** Text that neither begins nor ends with whitespace is its own trim. */
  lemma TrimUnchanged(s: string)
    requires s == [] || (!IsSpace(s[0]) && !IsSpace(s[|s| - 1]))
    ensures Trim(s) == s
  {
    if |s| > 0 {
      assert LeadingSpace(s) == 0;
      assert s[0..] == s;
      assert TrailingSpace(s) == 0;
    }
  }

  /** `parts.join(sep)`. */
  function Join(parts: seq<string>, sep: string): string {
    if |parts| == 0 then []
    else if |parts| == 1 then parts[0]
    else parts[0] + sep + Join(parts[1..], sep)
  }

  /** Two parts are joined around one separator. */
  lemma JoinTwo(a: string, b: string, sep: string)
    ensures Join([a, b], sep) == a + sep + b
  {
    assert [a, b][1..] == [b];
  }

  /** Splitting on a character and joining with it again gives back the
      original text. */
  lemma {:induction false} JoinSplit(s: string, sep: char)
    ensures Join(Split(s, sep), [sep]) == s
  {
    if |s| > 0 {
      var rest := Split(s[1..], sep);
      JoinSplit(s[1..], sep);
      if s[0] == sep {
        assert Split(s, sep) == [[]] + rest;
        assert ([[]] + rest)[1..] == rest;
      } else {
        var parts := [[s[0]] + rest[0]] + rest[1..];
        assert Split(s, sep) == parts;
        if |rest| == 1 {
          assert parts == [[s[0]] + rest[0]];
        } else {
          assert parts[1..] == rest[1..];
          assert Join(rest, [sep]) == rest[0] + [sep] + Join(rest[1..], [sep]);
        }
      }
    }
  }

  /** A character of a joined text comes from one of the parts or from the
      separator. */
  lemma {:induction false} JoinChars(parts: seq<string>, sep: string, c: char)
    requires c in Join(parts, sep)
    ensures c in sep || exists k :: 0 <= k < |parts| && c in parts[k]
  {
    if |parts| > 1 {
      var j := Join(parts[1..], sep);
      assert Join(parts, sep) == parts[0] + sep + j;
      if c !in parts[0] && c !in sep {
        assert c in j;
        JoinChars(parts[1..], sep, c);
        var k :| 0 <= k < |parts[1..]| && c in parts[1..][k];
        assert c in parts[k + 1];
      }
    }
  }

  /** `p` occurs in `s` starting at index `i`. */
  predicate OccursAt(s: string, p: string, i: int) {
    0 <= i && i + |p| <= |s| && s[i..i + |p|] == p
  }

  /** `Contains` means an occurrence at some index. */
  lemma {:induction false} ContainsIff(s: string, p: string)
    ensures Contains(s, p) <==> exists i :: OccursAt(s, p, i)
  {
    if StartsWith(s, p) {
      assert OccursAt(s, p, 0);
    }
    if |s| > 0 {
      ContainsIff(s[1..], p);
      if Contains(s[1..], p) {
        var i :| OccursAt(s[1..], p, i);
        assert s[i + 1..i + 1 + |p|] == p;
        assert OccursAt(s, p, i + 1);
      }
      if i :| OccursAt(s, p, i) {
        if i > 0 {
          assert s[1..][i - 1..i - 1 + |p|] == p;
          assert OccursAt(s[1..], p, i - 1);
        } else {
          assert StartsWith(s, p);
        }
      }
    } else {
      if i :| OccursAt(s, p, i) {
        assert StartsWith(s, p);
      }
    }
  }

  /** A text that contains `p` contains every character of `p`. */
  lemma ContainsChars(s: string, p: string, c: char)
    requires Contains(s, p) && c in p
    ensures c in s
  {
    ContainsIff(s, p);
    var i :| OccursAt(s, p, i);
    var k :| 0 <= k < |p| && p[k] == c;
    assert s[i..i + |p|][k] == c;
  }
}

=== FILE: latex.dfy ===
/** `cleanVariablesLatex` (chat.js): a line of a model reply that begins
    (after optional whitespace) with a single symbol in inline math, as in
    `$vm$` or `$\Delta$`, has that math replaced by the bold symbol, with the
    spelled-out Greek letter names turned into their glyphs.

    The source is one global, multi-line `String.prototype.replace`; here it
    is a scanner over the text that at every index where `^` holds tries the
    pattern and either emits the replacement and resumes after the match, or
    copies one character. */
module LatexClean {
  import opened Wrappers
  import JsText
  import Pattern
  import Seqs

  /** `[a-zA-Z_0-9]`. */
  predicate IsWordChar(c: char) {
    ('a' <= c <= 'z') || ('A' <= c <= 'Z') || ('0' <= c <= '9') || c == '_'
  }

  /** Length of the run of word characters starting at `i`. */
  function WordRun(s: string, i: nat): (n: nat)
    requires i <= |s|
    ensures i + n <= |s|
    decreases |s| - i
  {
    if i == |s| || !IsWordChar(s[i]) then 0 else 1 + WordRun(s, i + 1)
  }

  /** Length of the run of `\s` characters starting at `i`. */
  function SpaceRun(s: string, i: nat): (n: nat)
    requires i <= |s|
    ensures i + n <= |s|
    decreases |s| - i
  {
    if i == |s| || !JsText.IsSpace(s[i]) then 0 else 1 + SpaceRun(s, i + 1)
  }

  /** `[a-zA-Z_0-9]+` is greedy: the run holds only word characters and
      stops at a non-word character or at the end. */
  lemma {:induction false} WordRunMaximal(s: string, i: nat)
    requires i <= |s|
    ensures forall k :: i <= k < i + WordRun(s, i) ==> IsWordChar(s[k])
    ensures i + WordRun(s, i) < |s| ==> !IsWordChar(s[i + WordRun(s, i)])
    decreases |s| - i
  {
    if i < |s| && IsWordChar(s[i]) {
      WordRunMaximal(s, i + 1);
    }
  }

  /** `\s*` is greedy in the same way. */
  lemma {:induction false} SpaceRunMaximal(s: string, i: nat)
    requires i <= |s|
    ensures forall k :: i <= k < i + SpaceRun(s, i) ==> JsText.IsSpace(s[k])
    ensures i + SpaceRun(s, i) < |s| ==> !JsText.IsSpace(s[i + SpaceRun(s, i)])
    decreases |s| - i
  {
    if i < |s| && JsText.IsSpace(s[i]) {
      SpaceRunMaximal(s, i + 1);
    }
  }

  /** `^` under the `m` flag. */
  predicate AtLineStart(s: string, p: nat)
    requires p <= |s|
  {
    p == 0 || JsText.IsLineTerminator(s[p - 1])
  }

  /** A match: the captured leading whitespace, the captured symbol (with its
      backslash, if any, but without the optional `?`), and the index just
      after the match. */
  datatype Legend = Legend(lead: string, token: string, end: nat)

  /** The pattern `(\s*)\$\??(\\?(?:[a-zA-Z_0-9]+|Delta|...|gamma))\$\s?`
      tried at index `p`. Backtracking never finds another match: each greedy
      run is followed by a character its class excludes, the optional `\??`
      and `\\?` (both greedy) are only skipped when the next character is not
      a `?` or a backslash, and the Greek names are all words of the class. */
  function MatchAt(s: string, p: nat): (r: Option<Legend>)
    requires p <= |s|
    ensures r.Some? ==> p < r.value.end <= |s|
  {
    var i := p + SpaceRun(s, p);
    if i == |s| || s[i] != '$' then None
    else
      var j := if i + 1 < |s| && s[i + 1] == '?' then i + 2 else i + 1;
      var b := if j < |s| && s[j] == '\\' then j + 1 else j;
      var n := WordRun(s, b);
      var k := b + n;
      if n == 0 || k == |s| || s[k] != '$' then None
      else
        Some(Legend(s[p..i], s[j..k], EndAfter(s, k)))
  }

  /** `v.replace(/^\\?<name>$/i, glyph)`: the whole symbol, without its
      optional backslash, is `name` up to ASCII case. */
  predicate NamesGreek(v: string, name: string) {
    var w := if |v| > 0 && v[0] == '\\' then v[1..] else v;
    |w| == |name| && forall i :: 0 <= i < |w| ==> Pattern.Canon(w[i]) == Pattern.Canon(name[i])
  }

  function ReplaceName(v: string, name: string, glyph: char): string {
    if NamesGreek(v, name) then [glyph] else v
  }

  /** The Greek names the source recognises and their glyphs. */
  const GreekNames: seq<(string, char)> := [
    ("Delta", '\U{394}'), ("theta", '\U{3B8}'), ("phi", '\U{3C6}'), ("pi", '\U{3C0}'),
    ("lambda", '\U{3BB}'), ("mu", '\U{3BC}'), ("sigma", '\U{3C3}'), ("alpha", '\U{3B1}'),
    ("beta", '\U{3B2}'), ("gamma", '\U{3B3}')
  ]

  /** The ten chained replacements applied to the captured symbol. */
  function Greek(v: string): string {
    ReplaceChain(v, GreekNames)
  }

  function ReplaceChain(v: string, names: seq<(string, char)>): string
    decreases |names|
  {
    if |names| == 0 then v
    else ReplaceChain(ReplaceName(v, names[0].0, names[0].1), names[1..])
  }

  /** A one-character glyph survives the rest of the chain: no Greek name is
      that short. */
  lemma {:induction false} ChainKeepsGlyph(g: char, names: seq<(string, char)>)
    requires forall k :: 0 <= k < |names| ==> |names[k].0| >= 2
    ensures ReplaceChain([g], names) == [g]
  {
    if |names| > 0 {
      assert !NamesGreek([g], names[0].0);
      ChainKeepsGlyph(g, names[1..]);
    }
  }

  /** The chain of replacements is a lookup: a symbol naming one of the
      Greek letters becomes that glyph, and any other symbol (backslash
      included) is kept as it is. */
  lemma {:induction false} ChainIsLookup(v: string, names: seq<(string, char)>)
    requires forall k :: 0 <= k < |names| ==> |names[k].0| >= 2
    ensures (exists k :: 0 <= k < |names| && NamesGreek(v, names[k].0))
            || ReplaceChain(v, names) == v
    ensures forall k :: 0 <= k < |names| && NamesGreek(v, names[k].0)
                        && (forall m :: 0 <= m < k ==> !NamesGreek(v, names[m].0))
                        ==> ReplaceChain(v, names) == [names[k].1]
  {
    if |names| > 0 {
      if NamesGreek(v, names[0].0) {
        ChainKeepsGlyph(names[0].1, names[1..]);
      } else {
        ChainIsLookup(v, names[1..]);
        forall k | 0 <= k < |names| && NamesGreek(v, names[k].0)
                   && (forall m :: 0 <= m < k ==> !NamesGreek(v, names[m].0))
          ensures ReplaceChain(v, names) == [names[k].1]
        {
          assert k > 0;
          assert names[1..][k - 1] == names[k];
          forall m | 0 <= m < k - 1
            ensures !NamesGreek(v, names[1..][m].0)
          {
            assert names[1..][m] == names[m + 1];
          }
        }
        if ReplaceChain(v, names[1..]) != v {
          var k :| 0 <= k < |names[1..]| && NamesGreek(v, names[1..][k].0);
          assert names[1..][k] == names[k + 1];
        }
      }
    }
  }

  /** `Greek(v)` on the ten names of the source. */
  lemma GreekLookup(v: string)
    ensures (exists k :: 0 <= k < |GreekNames| && NamesGreek(v, GreekNames[k].0)) || Greek(v) == v
    ensures forall k :: 0 <= k < |GreekNames| && NamesGreek(v, GreekNames[k].0)
                        && (forall m :: 0 <= m < k ==> !NamesGreek(v, GreekNames[m].0))
                        ==> Greek(v) == [GreekNames[k].1]
  {
    ChainIsLookup(v, GreekNames);
  }

  /** The replacement of one match: `${s}**${v}**`. */
  function Replacement(m: Legend): string {
    m.lead + "**" + Greek(m.token) + "**"
  }

  /** What the global replace does at one step: copy a character, or
      substitute a match. */
  datatype Piece = Copy(c: char) | Sub(m: Legend)

  /** The steps of the global replace from index `p` on: at an index where
      `^` holds and the pattern matches, the match, resuming after it;
      otherwise the character, resuming at the next index. */
  function Scan(s: string, p: nat): seq<Piece>
    requires p <= |s|
    decreases |s| - p
  {
    if p == |s| then []
    else
      var m := MatchAt(s, p);
      if AtLineStart(s, p) && m.Some? then [Sub(m.value)] + Scan(s, m.value.end)
      else [Copy(s[p])] + Scan(s, p + 1)
  }

  function Render(ps: seq<Piece>): string {
    if |ps| == 0 then []
    else (match ps[0] case Copy(c) => [c] case Sub(m) => Replacement(m)) + Render(ps[1..])
  }

  /** `cleanVariablesLatex(text)`. */
  function Clean(s: string): string {
    Render(Scan(s, 0))
  }

  lemma {:induction false} RenderConcat(a: seq<Piece>, b: seq<Piece>)
    ensures Render(a + b) == Render(a) + Render(b)
  {
    if |a| == 0 {
      assert a + b == b;
    } else {
      assert (a + b)[1..] == a[1..] + b;
      RenderConcat(a[1..], b);
    }
  }

  function Copies(t: string): (ps: seq<Piece>)
    ensures |ps| == |t|
  {
    if |t| == 0 then [] else [Copy(t[0])] + Copies(t[1..])
  }

  lemma {:induction false} RenderCopies(t: string)
    ensures Render(Copies(t)) == t
  {
    if |t| > 0 {
      RenderCopies(t[1..]);
      assert Copies(t)[1..] == Copies(t[1..]);
    }
  }

  /** No match starts at index `i`. */
  predicate NoLegendAt(s: string, i: nat)
    requires i <= |s|
  {
    !AtLineStart(s, i) || MatchAt(s, i).None?
  }

  lemma ScanCopyStep(s: string, p: nat)
    requires p < |s| && NoLegendAt(s, p)
    ensures Scan(s, p) == [Copy(s[p])] + Scan(s, p + 1)
  {
  }

  /** Where no match can start, the scanner copies the text. */
  lemma {:induction false} CopyRun(s: string, p: nat, q: nat)
    requires p <= q <= |s|
    requires forall i :: p <= i < q ==> NoLegendAt(s, i)
    ensures Scan(s, p) == Copies(s[p..q]) + Scan(s, q)
    decreases q - p
  {
    if p < q {
      CopyRun(s, p + 1, q);
      ScanCopyStep(s, p);
      Seqs.RangeTail(s, p, q);
      assert Copies(s[p..q]) == [Copy(s[p])] + Copies(s[p + 1..q]);
      Seqs.Assoc([Copy(s[p])], Copies(s[p + 1..q]), Scan(s, q));
    }
  }

  /** Text without a `$` is returned unchanged. */
  lemma NoDollarUnchanged(s: string)
    requires '$' !in s
    ensures Clean(s) == s
  {
    forall i | 0 <= i < |s|
      ensures MatchAt(s, i).None?
    {
      var k := i + SpaceRun(s, i);
      assert k < |s| ==> s[k] != '$';
    }
    CopyRun(s, 0, |s|);
    assert s[0..|s|] == s;
    RenderConcat(Copies(s), []);
    RenderCopies(s);
  }

  /** A single line (no line terminator) that is not a legend line is
      returned unchanged, whatever math it contains further on: `$$` blocks
      and mid-line formulas are left alone. */
  lemma OtherLineUnchanged(s: string)
    requires forall i :: 0 <= i < |s| ==> !JsText.IsLineTerminator(s[i])
    requires forall lead, question, backslash, word, rest ::
               JsText.AllSpace(lead) && IsWord(word) ==> s != LegendLine(lead, question, backslash, word, rest)
    ensures Clean(s) == s
  {
    assert s[0..] == s;
    NotLegendNoMatch(s, 0);
    CopyRun(s, 0, |s|);
    assert s[0..|s|] == s;
    RenderConcat(Copies(s), []);
    RenderCopies(s);
  }

  /** The symbol as captured: an optional backslash and a word. */
  function Symbol(backslash: bool, word: string): string {
    (if backslash then "\\" else "") + word
  }

  function QuestionMark(question: bool): string {
    if question then "?" else ""
  }

  /** A line that starts with a legend: leading whitespace, `$`, an optional
      `?`, the symbol, the closing `$`, and the rest of the text. */
  function LegendLine(lead: string, question: bool, backslash: bool, word: string, rest: string): string {
    lead + ("$" + (QuestionMark(question) + (Symbol(backslash, word) + ("$" + rest))))
  }

  predicate IsWord(w: string) {
    |w| > 0 && forall i :: 0 <= i < |w| ==> IsWordChar(w[i])
  }

  /** What `\s?` leaves of the text after the closing `$`. */
  function AfterOptionalSpace(rest: string): string {
    if |rest| > 0 && JsText.IsSpace(rest[0]) then rest[1..] else rest
  }

  /** The text from `p` on begins with `a` and continues with `x`. */
  lemma Peel(s: string, p: nat, a: string, x: string)
    requires p <= |s| && s[p..] == a + x
    ensures p + |a| <= |s|
    ensures forall m :: p <= m < p + |a| ==> s[m] == a[m - p]
    ensures s[p..p + |a|] == a && s[p + |a|..] == x
  {
    assert forall m :: p <= m < p + |a| ==> s[m] == s[p..][m - p];
  }

  /** Where the opening of a legend line sits: the leading whitespace at
      `p`, the opening `$` at `i`, and what follows the optional `?` at `j`. */
  lemma OpenLayout(s: string, p: nat, lead: string, question: bool, tail: string)
    returns (i: nat, j: nat)
    requires p <= |s| && s[p..] == lead + ("$" + (QuestionMark(question) + tail))
    ensures i == p + |lead| && j == i + 1 + |QuestionMark(question)| && j <= |s|
    ensures s[p..i] == lead && s[i] == '$' && (question ==> s[i + 1] == '?')
    ensures s[j..] == tail
  {
    var qs := QuestionMark(question);
    i := p + |lead|;
    Peel(s, p, lead, "$" + (qs + tail));
    Peel(s, i, "$", qs + tail);
    j := i + 1 + |qs|;
    Peel(s, i + 1, qs, tail);
  }

  /** Where the symbol sits: its word at `b`, the closing `$` at `k`. */
  lemma SymbolLayout(s: string, j: nat, backslash: bool, word: string, rest: string)
    returns (b: nat, k: nat)
    requires j <= |s| && s[j..] == Symbol(backslash, word) + ("$" + rest)
    ensures b == j + (if backslash then 1 else 0) && k == b + |word| && k < |s|
    ensures s[j..k] == Symbol(backslash, word) && s[b..k] == word
    ensures backslash ==> s[j] == '\\'
    ensures s[k] == '$' && s[k + 1..] == rest
  {
    var sym := Symbol(backslash, word);
    Peel(s, j, sym, "$" + rest);
    k := j + |sym|;
    Peel(s, k, "$", rest);
    if backslash {
      b := j + 1;
      var bs: string := "\\";
      assert |bs| == 1 && sym == bs + word;
      assert s[j..] == bs + (word + ("$" + rest));
      Peel(s, j, bs, word + ("$" + rest));
      assert s[b..] == word + ("$" + rest);
      Peel(s, b, word, "$" + rest);
    } else {
      b := j;
      assert sym == word;
    }
  }

  /** The index just after `\s?` following the closing `$` at `k`. */
  function EndAfter(s: string, k: nat): nat
    requires k < |s|
  {
    if k + 1 < |s| && JsText.IsSpace(s[k + 1]) then k + 2 else k + 1
  }

  lemma EndAfterRest(s: string, k: nat, rest: string)
    requires k < |s| && s[k + 1..] == rest
    ensures EndAfter(s, k) == |s| - |AfterOptionalSpace(rest)|
  {
    if |rest| > 0 {
      assert s[k + 1] == rest[0];
    }
  }

  /** The parts of a match sit at these positions: the leading whitespace
      from `p` to `i`, the opening `$` at `i`, the symbol from `j` (its word
      from `b`) to the closing `$` at `k`. */
  predicate MatchParts(s: string, p: nat, i: nat, j: nat, b: nat, k: nat) {
    && p <= i < |s| && i == p + SpaceRun(s, p) && s[i] == '$'
    && j == (if i + 1 < |s| && s[i + 1] == '?' then i + 2 else i + 1)
    && b == (if j < |s| && s[j] == '\\' then j + 1 else j)
    && b < k < |s| && k == b + WordRun(s, b) && s[k] == '$'
  }

  /** `MatchAt` once the positions of its parts are known. */
  lemma MatchAtShape(s: string, p: nat, i: nat, j: nat, b: nat, k: nat)
    requires MatchParts(s, p, i, j, b, k)
    ensures MatchAt(s, p) == Some(Legend(s[p..i], s[j..k], EndAfter(s, k)))
  {
  }

  /** The same, with the captures and the end named. */
  lemma MatchAtParts(s: string, p: nat, i: nat, j: nat, b: nat, k: nat, lead: string, token: string, e: nat)
    requires MatchParts(s, p, i, j, b, k)
    requires s[p..i] == lead && s[j..k] == token && EndAfter(s, k) == e
    ensures MatchAt(s, p) == Some(Legend(lead, token, e))
  {
    MatchAtShape(s, p, i, j, b, k);
  }

  lemma SpaceRunIs(s: string, p: nat, i: nat, lead: string)
    requires p <= i < |s| && s[p..i] == lead && JsText.AllSpace(lead) && !JsText.IsSpace(s[i])
    ensures SpaceRun(s, p) == |lead|
    decreases i - p
  {
    if p < i {
      assert s[p] == lead[0];
      assert s[p + 1..i] == lead[1..];
      SpaceRunIs(s, p + 1, i, lead[1..]);
    }
  }

  lemma WordRunIs(s: string, b: nat, k: nat, word: string)
    requires b <= k < |s| && s[b..k] == word && IsWord(word) && !IsWordChar(s[k])
    ensures WordRun(s, b) == |word|
    decreases k - b
  {
    if b < k {
      assert s[b] == word[0];
      assert s[b + 1..k] == word[1..];
      if b + 1 < k {
        WordRunIs(s, b + 1, k, word[1..]);
      }
    }
  }

  /** The pattern matches a legend prefix at a line start, capturing the
      leading whitespace and the symbol, and ends after one optional
      whitespace character. */
  lemma MatchLegend(s: string, p: nat, lead: string, question: bool, backslash: bool, word: string, rest: string)
    requires JsText.AllSpace(lead) && IsWord(word)
    requires p <= |s| && s[p..] == LegendLine(lead, question, backslash, word, rest)
    ensures MatchAt(s, p) == Some(Legend(lead, Symbol(backslash, word),
                                         |s| - |AfterOptionalSpace(rest)|))
  {
    var i, j, b, k, e := LegendPositions(s, p, lead, question, backslash, word, rest);
    MatchAtParts(s, p, i, j, b, k, lead, Symbol(backslash, word), e);
  }

  /** Where the parts of a legend line sit, in the terms `MatchAt` uses. */
  lemma LegendPositions(s: string, p: nat, lead: string, question: bool, backslash: bool, word: string, rest: string)
    returns (i: nat, j: nat, b: nat, k: nat, e: nat)
    requires JsText.AllSpace(lead) && IsWord(word)
    requires p <= |s| && s[p..] == LegendLine(lead, question, backslash, word, rest)
    ensures MatchParts(s, p, i, j, b, k)
    ensures s[p..i] == lead && s[j..k] == Symbol(backslash, word)
    ensures e == |s| - |AfterOptionalSpace(rest)| && EndAfter(s, k) == e
  {
    i, j := OpenLayout(s, p, lead, question, Symbol(backslash, word) + ("$" + rest));
    b, k := SymbolLayout(s, j, backslash, word, rest);
    SpaceRunIs(s, p, i, lead);
    assert !question ==> s[i + 1] != '?' by {
      if !question && !backslash {
        assert s[i + 1] == s[b..k][0];
      }
    }
    assert !backslash ==> s[j] != '\\' by {
      if !backslash {
        assert s[j] == s[b..k][0];
      }
    }
    WordRunIs(s, b, k, word);
    EndAfterRest(s, k, rest);
    e := EndAfter(s, k);
  }

  /** Conversely, whatever the pattern matches is a legend line: leading
      whitespace, `$`, an optional `?`, the symbol, `$` and the rest, and
      the match captures exactly those parts. */
  lemma MatchIsLegend(s: string, p: nat) returns (lead: string, question: bool, backslash: bool, word: string, rest: string)
    requires p <= |s| && MatchAt(s, p).Some?
    ensures JsText.AllSpace(lead) && IsWord(word)
    ensures s[p..] == LegendLine(lead, question, backslash, word, rest)
    ensures MatchAt(s, p).value == Legend(lead, Symbol(backslash, word), |s| - |AfterOptionalSpace(rest)|)
  {
    var i, j, b, k := MatchPositions(s, p);
    MatchAtShape(s, p, i, j, b, k);
    lead, question, backslash, word, rest := s[p..i], j == i + 2, b == j + 1, s[b..k], s[k + 1..];
    LeadIsSpace(s, p, i);
    WordIsWord(s, b, k);
    EndAfterRest(s, k, rest);
    SymbolSlice(s, j, b, k, backslash);
    LegendCut(s, p, i, j, b, k, question, backslash);
  }

  /** The positions `MatchAt` computes, when it matches. */
  lemma MatchPositions(s: string, p: nat) returns (i: nat, j: nat, b: nat, k: nat)
    requires p <= |s| && MatchAt(s, p).Some?
    ensures MatchParts(s, p, i, j, b, k)
  {
    i := p + SpaceRun(s, p);
    j := if i + 1 < |s| && s[i + 1] == '?' then i + 2 else i + 1;
    b := if j < |s| && s[j] == '\\' then j + 1 else j;
    k := b + WordRun(s, b);
  }

  lemma LeadIsSpace(s: string, p: nat, i: nat)
    requires p <= i <= |s| && i == p + SpaceRun(s, p)
    ensures JsText.AllSpace(s[p..i])
  {
    SpaceRunMaximal(s, p);
    assert forall m :: 0 <= m < i - p ==> s[p..i][m] == s[p + m];
  }

  lemma WordIsWord(s: string, b: nat, k: nat)
    requires b < k <= |s| && k == b + WordRun(s, b)
    ensures IsWord(s[b..k])
  {
    WordRunMaximal(s, b);
    assert forall m :: 0 <= m < k - b ==> s[b..k][m] == s[b + m];
  }

  /** The six slices of a match put back together. */
  lemma LegendCut(s: string, p: nat, i: nat, j: nat, b: nat, k: nat, question: bool, backslash: bool)
    requires p <= i < j <= b < k < |s| && s[i] == '$' && s[k] == '$'
    requires j == i + 1 + |QuestionMark(question)| && (question ==> s[i + 1] == '?')
    requires b == j + (if backslash then 1 else 0) && (backslash ==> s[j] == '\\')
    ensures s[p..] == LegendLine(s[p..i], question, backslash, s[b..k], s[k + 1..])
  {
    var rest, sym, qm, lead := s[k + 1..], s[j..k], s[i + 1..j], s[p..i];
    DollarAt(s, k);
    Seqs.SplitAt(s, j, k);
    Seqs.SplitAt(s, i + 1, j);
    DollarAt(s, i);
    Seqs.SplitAt(s, p, i);
    QuestionSlice(s, i, j, question);
    SymbolSlice(s, j, b, k, backslash);
  }

  lemma DollarAt(s: string, k: nat)
    requires k < |s| && s[k] == '$'
    ensures s[k..] == "$" + s[k + 1..]
  {
    Seqs.SplitAt(s, k, k + 1);
    assert s[k..k + 1] == "$";
  }

  lemma QuestionSlice(s: string, i: nat, j: nat, question: bool)
    requires i + 1 <= j <= |s| && j == i + 1 + |QuestionMark(question)| && (question ==> s[i + 1] == '?')
    ensures s[i + 1..j] == QuestionMark(question)
  {
  }

  lemma SymbolSlice(s: string, j: nat, b: nat, k: nat, backslash: bool)
    requires j <= b <= k <= |s| && b == j + (if backslash then 1 else 0) && (backslash ==> s[j] == '\\')
    ensures s[j..k] == Symbol(backslash, s[b..k])
  {
    if backslash {
      assert s[j..k] == s[j..b] + s[b..k];
      assert s[j..b] == "\\";
    }
  }

  /** Text from `p` on that is no legend line has no match at `p`. */
  lemma NotLegendNoMatch(s: string, p: nat)
    requires p <= |s|
    requires forall lead, question, backslash, word, rest ::
               JsText.AllSpace(lead) && IsWord(word) ==> s[p..] != LegendLine(lead, question, backslash, word, rest)
    ensures MatchAt(s, p).None?
  {
    if MatchAt(s, p).Some? {
      var lead, question, backslash, word, rest := MatchIsLegend(s, p);
      assert false;
    }
  }

  /** One legend at a line start: its replacement, then the scan resumes
      after the optional whitespace that follows the closing `$`. Legends on
      consecutive lines chain through this step. */
  lemma LegendStep(s: string, p: nat, lead: string, question: bool, backslash: bool, word: string, rest: string)
    returns (e: nat)
    requires JsText.AllSpace(lead) && IsWord(word)
    requires p <= |s| && AtLineStart(s, p) && s[p..] == LegendLine(lead, question, backslash, word, rest)
    ensures e == |s| - |AfterOptionalSpace(rest)| && s[e..] == AfterOptionalSpace(rest)
    ensures Render(Scan(s, p)) == lead + "**" + Greek(Symbol(backslash, word)) + "**" + Render(Scan(s, e))
  {
    var m := LegendMatchAt(s, p, lead, question, backslash, word, rest);
    ScanSubStep(s, p, m);
    e := m.end;
  }

  /** A legend line at a line start, after text in which no match starts:
      the text before it is copied, the legend becomes the bold symbol, and
      the global replace goes on after it, whatever follows. */
  lemma CleanLegendFrom(s: string, p: nat, lead: string, question: bool, backslash: bool, word: string, rest: string)
    returns (e: nat)
    requires JsText.AllSpace(lead) && IsWord(word)
    requires p <= |s| && AtLineStart(s, p) && s[p..] == LegendLine(lead, question, backslash, word, rest)
    requires forall i :: 0 <= i < p ==> NoLegendAt(s, i)
    ensures e == |s| - |AfterOptionalSpace(rest)| && s[e..] == AfterOptionalSpace(rest)
    ensures Clean(s) == s[..p] + lead + "**" + Greek(Symbol(backslash, word)) + "**" + Render(Scan(s, e))
  {
    CleanPrefixCopied(s, p);
    e := LegendStep(s, p, lead, question, backslash, word, rest);
    PrefixBold(s[..p], lead, Greek(Symbol(backslash, word)), Render(Scan(s, e)));
  }

  /** Two legend lines, one under the other, both become bold symbols: the
      line break after the first closing `$` is the whitespace `\s?` takes. */
  lemma CleanTwoLegends(s: string, w1: string, w2: string)
    requires IsWord(w1) && IsWord(w2)
    requires s == LegendLine("", false, false, w1, "\n" + LegendLine("", false, false, w2, ""))
    ensures Clean(s) == "**" + Greek(w1) + "**" + "**" + Greek(w2) + "**"
  {
    var e := FirstOfTwo(s, w1, LegendLine("", false, false, w2, ""));
    LastLegend(s, e, w2);
    Seqs.Assoc("**" + Greek(w1) + "**", "**" + Greek(w2), "**");
    Seqs.Assoc("**" + Greek(w1) + "**", "**", Greek(w2));
  }

  /** The first of two legend lines: its bold symbol, then the scan from
      the start of the second line. */
  lemma FirstOfTwo(s: string, w1: string, second: string) returns (e: nat)
    requires IsWord(w1)
    requires s == LegendLine("", false, false, w1, "\n" + second)
    ensures 0 < e <= |s| && s[e - 1] == '\n' && s[e..] == second
    ensures Clean(s) == "**" + Greek(w1) + "**" + Render(Scan(s, e))
  {
    e := CleanFirstLegend(s, w1, "\n" + second);
    BreakTaken(second);
    BreakBefore(s, w1, second);
  }

  /** A text that starts with a plain legend `$word$`: its bold symbol, then
      the scan after the optional whitespace. */
  lemma CleanFirstLegend(s: string, word: string, rest: string) returns (e: nat)
    requires IsWord(word) && s == LegendLine("", false, false, word, rest)
    ensures e == |s| - |AfterOptionalSpace(rest)| && s[e..] == AfterOptionalSpace(rest)
    ensures Clean(s) == "**" + Greek(word) + "**" + Render(Scan(s, e))
  {
    assert s[0..] == s;
    e := CleanLegendFrom(s, 0, "", false, false, word, rest);
    assert Symbol(false, word) == word;
    LeadBold(Clean(s), s[..0], Greek(word), Render(Scan(s, e)));
  }

  lemma LeadBold(c: string, pre: string, g: string, r: string)
    requires pre == [] && c == pre + "" + "**" + g + "**" + r
    ensures c == "**" + g + "**" + r
  {
  }

  lemma BreakTaken(second: string)
    ensures AfterOptionalSpace("\n" + second) == second
  {
    assert ("\n" + second)[0] == '\n' && ("\n" + second)[1..] == second;
  }

  /** The line break that ends the first line sits just before the second. */
  lemma BreakBefore(s: string, w1: string, second: string)
    requires s == LegendLine("", false, false, w1, "\n" + second)
    ensures |second| < |s| && s[|s| - |second| - 1] == '\n'
  {
    LegendLineTail(s, "", false, false, w1, "\n" + second);
    var e := |s| - |second| - 1;
    assert s[e..] == "\n" + second;
    assert s[e] == s[e..][0];
  }

  /** A legend line that ends the text, at a line start. */
  lemma LastLegend(s: string, e: nat, w: string)
    requires IsWord(w) && e <= |s| && AtLineStart(s, e) && s[e..] == LegendLine("", false, false, w, "")
    ensures Render(Scan(s, e)) == "**" + Greek(w) + "**"
  {
    var f := LegendStep(s, e, "", false, false, w, "");
    assert f == |s| && Scan(s, f) == [];
    assert Symbol(false, w) == w && "" + "**" == "**";
  }

  /** From a point on which the text has no `$`, the scanner copies it. */
  lemma TailCopied(s: string, e: nat)
    requires e <= |s| && '$' !in s[e..]
    ensures Scan(s, e) == Copies(s[e..])
  {
    forall i | e <= i < |s|
      ensures NoLegendAt(s, i)
    {
      var k := i + SpaceRun(s, i);
      if k < |s| {
        assert s[k] == s[e..][k - e];
      }
    }
    CopyRun(s, e, |s|);
    assert s[e..|s|] == s[e..];
    assert Scan(s, |s|) == [];
  }

  /** A match at a line start is replaced and the scan resumes after it. */
  lemma ScanSubStep(s: string, p: nat, m: Legend)
    requires p < |s| && AtLineStart(s, p) && MatchAt(s, p) == Some(m)
    ensures Render(Scan(s, p)) == Replacement(m) + Render(Scan(s, m.end))
  {
    assert Scan(s, p) == [Sub(m)] + Scan(s, m.end);
    RenderConcat([Sub(m)], Scan(s, m.end));
  }

  /** A line that consists of a legend, with no other `$` after it, is the
      bold symbol followed by the rest of the line, minus one whitespace
      character right after the closing `$`. */
  lemma CleanLegendLine(s: string, lead: string, question: bool, backslash: bool, word: string, rest: string)
    requires JsText.AllSpace(lead) && IsWord(word) && '$' !in rest
    requires s == LegendLine(lead, question, backslash, word, rest)
    ensures Clean(s) == lead + "**" + Greek(Symbol(backslash, word)) + "**" + AfterOptionalSpace(rest)
  {
    var m := LegendLineMatch(s, lead, question, backslash, word, rest);
    CleanAfterMatch(s, m, AfterOptionalSpace(rest));
  }

  /** The match at the start of a legend line, and what follows it. */
  lemma LegendLineMatch(s: string, lead: string, question: bool, backslash: bool, word: string, rest: string)
    returns (m: Legend)
    requires JsText.AllSpace(lead) && IsWord(word) && '$' !in rest
    requires s == LegendLine(lead, question, backslash, word, rest)
    ensures m.lead == lead && m.token == Symbol(backslash, word)
    ensures 0 < |s| && MatchAt(s, 0) == Some(m)
    ensures m.end <= |s| && s[m.end..] == AfterOptionalSpace(rest) && '$' !in AfterOptionalSpace(rest)
  {
    assert s[0..] == s;
    var i, j, b, k, e := LegendPositions(s, 0, lead, question, backslash, word, rest);
    MatchAtParts(s, 0, i, j, b, k, lead, Symbol(backslash, word), e);
    LegendLineTail(s, lead, question, backslash, word, rest);
    m := Legend(lead, Symbol(backslash, word), e);
  }

  /** A match at the start of a text whose remainder has no `$`: the
      replacement followed by the remainder. */
  lemma CleanAfterMatch(s: string, m: Legend, t: string)
    requires 0 < |s| && MatchAt(s, 0) == Some(m)
    requires m.end <= |s| && s[m.end..] == t && '$' !in t
    ensures Clean(s) == m.lead + "**" + Greek(m.token) + "**" + t
  {
    ScanSubStep(s, 0, m);
    TailCopied(s, m.end);
    RenderCopies(t);
  }

  /** A legend line that starts at a line start `p` after text in which no
      match starts, with no other `$` after it: the text before `p` is
      copied, the legend becomes the bold symbol, and the rest follows minus
      one whitespace character right after the closing `$`. */
  lemma CleanLegendAt(s: string, p: nat, lead: string, question: bool, backslash: bool, word: string, rest: string)
    requires JsText.AllSpace(lead) && IsWord(word) && '$' !in rest
    requires p <= |s| && AtLineStart(s, p) && s[p..] == LegendLine(lead, question, backslash, word, rest)
    requires forall i :: 0 <= i < p ==> NoLegendAt(s, i)
    ensures Clean(s) == s[..p] + lead + "**" + Greek(Symbol(backslash, word)) + "**" + AfterOptionalSpace(rest)
  {
    CleanPrefixCopied(s, p);
    var m := LegendMatchAt(s, p, lead, question, backslash, word, rest);
    var g, t := Greek(Symbol(backslash, word)), AfterOptionalSpace(rest);
    MatchThenTail(s, p, m, t);
    PrefixBold(s[..p], lead, g, t);
  }

  lemma PrefixBold(a: string, lead: string, g: string, t: string)
    ensures a + (lead + "**" + g + "**" + t) == a + lead + "**" + g + "**" + t
  {
    Seqs.Assoc(a, lead + "**" + g + "**", t);
    Seqs.Assoc(a, lead + "**" + g, "**");
    Seqs.Assoc(a, lead + "**", g);
    Seqs.Assoc(a, lead, "**");
  }

  /** Up to the first index where a match may start, the text is copied. */
  lemma CleanPrefixCopied(s: string, p: nat)
    requires p <= |s| && forall i :: 0 <= i < p ==> NoLegendAt(s, i)
    ensures Clean(s) == s[..p] + Render(Scan(s, p))
  {
    CopyRun(s, 0, p);
    assert s[0..p] == s[..p];
    RenderConcat(Copies(s[..p]), Scan(s, p));
    RenderCopies(s[..p]);
  }

  /** The match at a line start `p` where a legend line begins. */
  lemma LegendMatchAt(s: string, p: nat, lead: string, question: bool, backslash: bool, word: string, rest: string)
    returns (m: Legend)
    requires JsText.AllSpace(lead) && IsWord(word)
    requires p <= |s| && s[p..] == LegendLine(lead, question, backslash, word, rest)
    ensures m.lead == lead && m.token == Symbol(backslash, word)
    ensures p < |s| && MatchAt(s, p) == Some(m)
    ensures m.end == |s| - |AfterOptionalSpace(rest)| && s[m.end..] == AfterOptionalSpace(rest)
    ensures '$' !in rest ==> '$' !in AfterOptionalSpace(rest)
  {
    var i, j, b, k, e := LegendPositions(s, p, lead, question, backslash, word, rest);
    MatchAtParts(s, p, i, j, b, k, lead, Symbol(backslash, word), e);
    LegendLineTail(s[p..], lead, question, backslash, word, rest);
    SuffixOfSuffix(s, p, AfterOptionalSpace(rest));
    m := Legend(lead, Symbol(backslash, word), e);
  }

  /** A suffix of the text from `p` on is a suffix of the text. */
  lemma SuffixOfSuffix(s: string, p: nat, t: string)
    requires p <= |s| && |t| <= |s[p..]| && s[p..][|s[p..]| - |t|..] == t
    ensures s[|s| - |t|..] == t
  {
    Seqs.SuffixOfSlice(s, p, |s[p..]| - |t|);
  }

  /** A match at a line start followed by text without `$`. */
  lemma MatchThenTail(s: string, p: nat, m: Legend, t: string)
    requires p < |s| && AtLineStart(s, p) && MatchAt(s, p) == Some(m)
    requires m.end <= |s| && s[m.end..] == t && '$' !in t
    ensures Render(Scan(s, p)) == m.lead + "**" + Greek(m.token) + "**" + t
  {
    ScanSubStep(s, p, m);
    TailCopied(s, m.end);
    RenderCopies(t);
  }

  /** The text after the optional whitespace is the end of the line. */
  lemma LegendLineTail(s: string, lead: string, question: bool, backslash: bool, word: string, rest: string)
    requires s == LegendLine(lead, question, backslash, word, rest)
    ensures var t := AfterOptionalSpace(rest);
            |t| <= |s| && s[|s| - |t|..] == t && ('$' !in rest ==> '$' !in t)
  {
    var t := AfterOptionalSpace(rest);
    assert s[|s| - |rest|..] == rest;
    if t != rest {
      assert t == rest[1..];
      assert s[|s| - |t|..] == s[|s| - |rest|..][1..];
      assert forall c :: c in t ==> c in rest;
    }
  }

  /** A symbol that names no Greek letter is kept as it is. */
  lemma GreekPlain(v: string)
    requires forall k :: 0 <= k < |GreekNames| ==> !NamesGreek(v, GreekNames[k].0)
    ensures Greek(v) == v
  {
    GreekLookup(v);
  }

  /** `vm` names none of the Greek letters. */
  lemma NotGreekVm(v: string)
    requires v == "vm"
    ensures forall k :: 0 <= k < |GreekNames| ==> !NamesGreek(v, GreekNames[k].0)
  {
    assert v[0] == 'v' && Pattern.Canon('v') == 'V';
    forall k | 0 <= k < |GreekNames|
      ensures !NamesGreek(v, GreekNames[k].0)
    {
      var name := GreekNames[k].0;
      if |name| == 2 {
        assert k == 3 || k == 5;
        assert Pattern.Canon(name[0]) != 'V';
      }
    }
  }

  /** `\Delta` becomes its glyph. */
  lemma GreekDelta(v: string)
    requires v == "\\Delta"
    ensures Greek(v) == "\U{394}"
  {
    GreekLookup(v);
    assert NamesGreek(v, GreekNames[0].0);
  }

  /** A legend line at the start of the text, with the symbol's rendering
      and the tail after `\s?` given by name. */
  lemma CleanLegendAtStart(s: string, backslash: bool, word: string, rest: string, g: string, t: string)
    requires IsWord(word) && '$' !in rest
    requires Greek(Symbol(backslash, word)) == g && AfterOptionalSpace(rest) == t
    requires s == LegendLine("", false, backslash, word, rest)
    ensures Clean(s) == "**" + g + "**" + t
  {
    CleanLegendLine(s, "", false, backslash, word, rest);
    assert "" + "**" == "**";
  }

  // The examples below take their literals as parameters fixed by
  // `requires`: the literals then stay out of the solver's eager
  // evaluation of the scanner, which is what keeps these proofs cheap.

  /** "$vm$ es la velocidad" becomes "**vm**es la velocidad": the `\s?`
      after the closing `$` swallows the space. */
  lemma CleanVelocity(s: string, word: string, rest: string)
    requires word == "vm" && rest == " es la velocidad"
    requires s == LegendLine("", false, false, word, rest)
    ensures Clean(s) == "**" + word + "**" + rest[1..]
  {
    VelocityParts(word, rest);
    CleanLegendAtStart(s, false, word, rest, word, rest[1..]);
  }

  lemma VelocityParts(word: string, rest: string)
    requires word == "vm" && rest == " es la velocidad"
    ensures IsWord(word) && Greek(Symbol(false, word)) == word
    ensures '$' !in rest && AfterOptionalSpace(rest) == rest[1..]
  {
    VelocityWord(word);
    VelocityTail(rest);
  }

  lemma VelocityWord(word: string)
    requires word == "vm"
    ensures IsWord(word) && Greek(Symbol(false, word)) == word
  {
    assert Symbol(false, word) == word;
    NotGreekVm(word);
    GreekPlain(word);
  }

  lemma VelocityTail(rest: string)
    requires rest == " es la velocidad"
    ensures '$' !in rest && AfterOptionalSpace(rest) == rest[1..]
  {
  }

  /** "$\Delta$" becomes the bold glyph. */
  lemma CleanDelta(s: string, word: string, glyph: char)
    requires word == "Delta" && glyph == '\U{394}'
    requires s == LegendLine("", false, true, word, "")
    ensures Clean(s) == "**" + [glyph] + "**"
  {
    DeltaParts(word, glyph);
    CleanLegendAtStart(s, true, word, "", [glyph], "");
    Seqs.AppendEmpty("**" + [glyph] + "**");
  }

  lemma DeltaParts(word: string, glyph: char)
    requires word == "Delta" && glyph == '\U{394}'
    ensures IsWord(word) && Greek(Symbol(true, word)) == [glyph] && AfterOptionalSpace("") == ""
  {
    DeltaWord(word);
    GreekDelta(Symbol(true, word));
  }

  lemma DeltaWord(word: string)
    requires word == "Delta"
    ensures IsWord(word) && Symbol(true, word) == "\\Delta"
  {
  }
}

=== FILE: normalize.dfy ===
/** `normalizeES` and `WHOAMI_RE` (chat.js): the fast path that recognises
    "who are you / what can you do" questions without calling the model.

    `normalizeES` lower-cases, applies canonical decomposition (NFD) and
    deletes the combining diacritical marks U+0300..U+036F. Full Unicode case
    mapping and decomposition are tables far larger than this core; they are
    modelled here on ASCII and on the letters Spanish writes with diacritics
    (á é í ó ú ü ñ and their capitals). Every other character is left as it
    is by both tables. */
module Normalize {
  import JsText
  import Pattern

  predicate IsCombining(c: char) {
    '\U{300}' <= c <= '\U{36F}'
  }

  /** The precomposed Spanish letters that NFD splits into a base letter and
      a combining mark. */
  predicate IsAccented(c: char) {
    || c == '\U{E1}' || c == '\U{E9}' || c == '\U{ED}' || c == '\U{F3}'
    || c == '\U{FA}' || c == '\U{FC}' || c == '\U{F1}'
    || c == '\U{C1}' || c == '\U{C9}' || c == '\U{CD}' || c == '\U{D3}'
    || c == '\U{DA}' || c == '\U{DC}' || c == '\U{D1}'
  }

  predicate IsUpperAscii(c: char) {
    'A' <= c <= 'Z'
  }

  /** `toLowerCase` on one character (table: ASCII and the Spanish capitals). */
  function LowerChar(c: char): char {
    if IsUpperAscii(c) then (c as int + 32) as char
    else if c == '\U{C1}' then '\U{E1}'
    else if c == '\U{C9}' then '\U{E9}'
    else if c == '\U{CD}' then '\U{ED}'
    else if c == '\U{D3}' then '\U{F3}'
    else if c == '\U{DA}' then '\U{FA}'
    else if c == '\U{DC}' then '\U{FC}'
    else if c == '\U{D1}' then '\U{F1}'
    else c
  }

  function Lower(s: string): (r: string)
    ensures |r| == |s|
  {
    if |s| == 0 then [] else [LowerChar(s[0])] + Lower(s[1..])
  }

  /** NFD of one character (table: the precomposed Spanish letters). */
  function DecomposeChar(c: char): (r: string)
    ensures forall i :: 0 <= i < |r| ==> !IsAccented(r[i])
    ensures !IsAccented(c) ==> r == [c]
  {
    if c == '\U{E1}' || c == '\U{C1}' then [if c == '\U{E1}' then 'a' else 'A', '\U{301}']
    else if c == '\U{E9}' || c == '\U{C9}' then [if c == '\U{E9}' then 'e' else 'E', '\U{301}']
    else if c == '\U{ED}' || c == '\U{CD}' then [if c == '\U{ED}' then 'i' else 'I', '\U{301}']
    else if c == '\U{F3}' || c == '\U{D3}' then [if c == '\U{F3}' then 'o' else 'O', '\U{301}']
    else if c == '\U{FA}' || c == '\U{DA}' then [if c == '\U{FA}' then 'u' else 'U', '\U{301}']
    else if c == '\U{FC}' || c == '\U{DC}' then [if c == '\U{FC}' then 'u' else 'U', '\U{308}']
    else if c == '\U{F1}' || c == '\U{D1}' then [if c == '\U{F1}' then 'n' else 'N', '\U{303}']
    else [c]
  }

  /** `normalize("NFD")`. */
  function Decompose(s: string): (r: string)
    ensures forall i :: 0 <= i < |r| ==> !IsAccented(r[i])
  {
    if |s| == 0 then [] else DecomposeChar(s[0]) + Decompose(s[1..])
  }

  /** `replace(/[̀-ͯ]/g, "")`. */
  function StripMarks(s: string): (r: string)
    ensures forall i :: 0 <= i < |r| ==> !IsCombining(r[i]) && r[i] in s
  {
    if |s| == 0 then []
    else if IsCombining(s[0]) then StripMarks(s[1..])
    else [s[0]] + StripMarks(s[1..])
  }

  /** `normalizeES(s)`. */
  function NormalizeES(s: string): (r: string)
    ensures forall i :: 0 <= i < |r| ==> !IsCombining(r[i]) && !IsAccented(r[i])
  {
    StripMarks(Decompose(Lower(s)))
  }

  /** The base letter of a lower-case Spanish letter with a diacritic. */
  function BaseLetter(c: char): char {
    if c == '\U{E1}' then 'a'
    else if c == '\U{E9}' then 'e'
    else if c == '\U{ED}' then 'i'
    else if c == '\U{F3}' then 'o'
    else if c == '\U{FA}' || c == '\U{FC}' then 'u'
    else if c == '\U{F1}' then 'n'
    else c
  }

  /** The intended folding of one character, stated directly: drop stray
      combining marks, lower-case, and replace a letter with a diacritic by
      its base letter. */
  function Fold(c: char): string {
    if IsCombining(c) then [] else [BaseLetter(LowerChar(c))]
  }

  function FoldAll(s: string): string {
    if |s| == 0 then [] else Fold(s[0]) + FoldAll(s[1..])
  }

  lemma {:induction false} StripMarksConcat(a: string, b: string)
    ensures StripMarks(a + b) == StripMarks(a) + StripMarks(b)
  {
    if |a| == 0 {
      assert a + b == b;
    } else {
      assert (a + b)[1..] == a[1..] + b;
      StripMarksConcat(a[1..], b);
    }
  }

  lemma FoldChar(c: char)
    ensures StripMarks(DecomposeChar(LowerChar(c))) == Fold(c)
  {
    var d := DecomposeChar(LowerChar(c));
    if |d| == 2 {
      assert StripMarks(d) == [d[0]] + StripMarks(d[1..]);
      assert StripMarks(d[1..]) == [];
    } else {
      assert d == [LowerChar(c)];
      assert StripMarks(d) == (if IsCombining(c) then [] else [LowerChar(c)]);
    }
  }

  /** The three passes of `normalizeES` fold the text character by
      character. */
  lemma {:induction false} NormalizeIsFold(s: string)
    ensures NormalizeES(s) == FoldAll(s)
  {
    if |s| > 0 {
      NormalizeIsFold(s[1..]);
      assert Lower(s)[1..] == Lower(s[1..]);
      assert Decompose(Lower(s)) == DecomposeChar(LowerChar(s[0])) + Decompose(Lower(s[1..]));
      StripMarksConcat(DecomposeChar(LowerChar(s[0])), Decompose(Lower(s[1..])));
      FoldChar(s[0]);
    }
  }

  /** The alternatives of `WHOAMI_RE`, in the order the source lists them. */
  const WhoAmIPhrases: seq<string> := [
    "quien eres", "qui\U{E9}n eres", "quien es mira", "qui\U{E9}n es mira",
    "presentate", "pres\U{E9}ntate", "que puedes hacer", "qu\U{E9} puedes hacer",
    "quien eres tu", "qui\U{E9}n eres t\U{FA}", "quien sos", "quien sos vos",
    "que haces", "qu\U{E9} haces", "que funcion tienes", "qu\U{E9} funci\U{F3}n tienes"
  ]

  predicate NoDiacritics(p: string) {
    forall i :: 0 <= i < |p| ==> !IsAccented(p[i])
  }

  /** `WHOAMI_RE.test(s)` (no flags, so case-sensitive). */
  predicate WhoAmI(s: string) {
    Pattern.Test(s, Pattern.LitsAll(WhoAmIPhrases), false)
  }

  /** On a normalized question the fast path fires exactly when an
      alternative written without diacritics occurs in it: the accented
      alternatives of `WHOAMI_RE` can never match after `normalizeES`. */
  lemma WhoAmINormalized(x: string)
    ensures WhoAmI(NormalizeES(x))
            <==> exists k :: 0 <= k < |WhoAmIPhrases| && NoDiacritics(WhoAmIPhrases[k])
                             && JsText.Contains(NormalizeES(x), WhoAmIPhrases[k])
  {
    var n := NormalizeES(x);
    Pattern.LiteralTestIff(n, WhoAmIPhrases);
    if k :| 0 <= k < |WhoAmIPhrases| && JsText.Contains(n, WhoAmIPhrases[k]) {
      var p := WhoAmIPhrases[k];
      forall i | 0 <= i < |p|
        ensures !IsAccented(p[i])
      {
        JsText.ContainsChars(n, p, p[i]);
      }
    }
  }

  /** Folding works character by character, so it distributes over
      concatenation. */
  lemma {:induction false} FoldAllConcat(a: string, b: string)
    ensures FoldAll(a + b) == FoldAll(a) + FoldAll(b)
  {
    if |a| == 0 {
      assert a + b == b;
    } else {
      assert (a + b)[0] == a[0] && (a + b)[1..] == a[1..] + b;
      FoldAllConcat(a[1..], b);
    }
  }

  /** The fast path fires whenever the question contains an alternative
      written without diacritics up to case and accents: "\U{BF}Qui\U{E9}n
      eres?" takes it through "quien eres". */
  lemma WhoAmIUpToAccents(x: string, k: nat, i: nat, j: nat)
    requires k < |WhoAmIPhrases| && NoDiacritics(WhoAmIPhrases[k])
    requires i <= j <= |x| && FoldAll(x[i..j]) == WhoAmIPhrases[k]
    ensures WhoAmI(NormalizeES(x))
  {
    var p := WhoAmIPhrases[k];
    assert x == x[..i] + x[i..j] + x[j..];
    FoldAllConcat(x[..i] + x[i..j], x[j..]);
    FoldAllConcat(x[..i], x[i..j]);
    NormalizeIsFold(x);
    var n := NormalizeES(x);
    var a := FoldAll(x[..i]);
    assert n == a + p + FoldAll(x[j..]);
    assert n[|a|..|a| + |p|] == p;
    assert JsText.OccursAt(n, p, |a|);
    JsText.ContainsIff(n, p);
    WhoAmINormalized(x);
  }
}

=== FILE: pattern.dfy ===
/** The three regular expressions of the core that are only ever used with
    `RegExp.prototype.test` are alternations of sequences of literal
    characters and `\s+`. This module gives such patterns a small syntax and
    the backtracking search `test` performs: does some alternative match
    starting at some index? (With `test` the leftmost-match order does not
    matter, only existence.) */
module Pattern {
  import JsText

  /** One element of an alternative: a literal character, or `\s+`. */
  datatype Tok = Lit(c: char) | Spaces

  /** Case folding of the `i` flag (non-Unicode mode) for the characters the
      patterns of this core contain: ASCII letters and `é`. A character whose
      upper case is ASCII but which is not itself ASCII is not folded by that
      flag, so on ASCII letters and `é` this table is exact. */
  function Canon(c: char): char {
    if 'a' <= c <= 'z' then (c as int - 32) as char
    else if c == '\U{E9}' then '\U{C9}'
    else c
  }

  predicate CharMatch(x: char, p: char, ignoreCase: bool) {
    if ignoreCase then Canon(x) == Canon(p) else x == p
  }

  /** Does `alt` match `s` starting at index `i`? `\s+` tries every run
      length, as backtracking does. */
  predicate MatchFrom(s: string, i: nat, alt: seq<Tok>, ignoreCase: bool)
    requires i <= |s|
    decreases |alt|, |s| - i
  {
    if |alt| == 0 then true
    else if i == |s| then false
    else match alt[0]
      case Lit(c) => CharMatch(s[i], c, ignoreCase) && MatchFrom(s, i + 1, alt[1..], ignoreCase)
      case Spaces =>
        JsText.IsSpace(s[i])
        && (MatchFrom(s, i + 1, alt[1..], ignoreCase) || MatchFrom(s, i + 1, alt, ignoreCase))
  }

  /** Some alternative matches at index `i`. */
  predicate AnyAltAt(s: string, i: nat, alts: seq<seq<Tok>>, ignoreCase: bool)
    requires i <= |s|
  {
    exists k :: 0 <= k < |alts| && MatchFrom(s, i, alts[k], ignoreCase)
  }

  /** Search from index `i` onwards. */
  predicate SearchFrom(s: string, i: nat, alts: seq<seq<Tok>>, ignoreCase: bool)
    requires i <= |s|
    decreases |s| - i
  {
    AnyAltAt(s, i, alts, ignoreCase) || (i < |s| && SearchFrom(s, i + 1, alts, ignoreCase))
  }

  /** `re.test(s)`. */
  predicate Test(s: string, alts: seq<seq<Tok>>, ignoreCase: bool) {
    SearchFrom(s, 0, alts, ignoreCase)
  }

  /** `test` succeeds exactly when some alternative matches at some index. */
  lemma {:induction false} SearchFromIff(s: string, i: nat, alts: seq<seq<Tok>>, ignoreCase: bool)
    requires i <= |s|
    ensures SearchFrom(s, i, alts, ignoreCase)
            <==> exists j :: i <= j <= |s| && AnyAltAt(s, j, alts, ignoreCase)
    decreases |s| - i
  {
    if i < |s| {
      SearchFromIff(s, i + 1, alts, ignoreCase);
    }
  }

  /** The literal-only alternative spelling out `p`. */
  function Lits(p: string): (alt: seq<Tok>)
    ensures |alt| == |p|
    ensures forall k :: 0 <= k < |p| ==> alt[k] == Lit(p[k])
  {
    if |p| == 0 then [] else [Lit(p[0])] + Lits(p[1..])
  }

  /** A case-sensitive literal alternative matches exactly where its text
      occurs. */
  lemma {:induction false} LitsMatchIff(s: string, i: nat, p: string)
    requires i <= |s|
    ensures MatchFrom(s, i, Lits(p), false) <==> JsText.OccursAt(s, p, i)
    decreases |p|
  {
    if |p| > 0 && i < |s| {
      assert Lits(p)[1..] == Lits(p[1..]);
      LitsMatchIff(s, i + 1, p[1..]);
      if JsText.OccursAt(s, p, i) {
        assert s[i] == p[0];
        assert s[i + 1..i + 1 + |p[1..]|] == s[i..i + |p|][1..];
      }
      if s[i] == p[0] && JsText.OccursAt(s, p[1..], i + 1) {
        assert s[i..i + |p|] == [s[i]] + s[i + 1..i + 1 + |p[1..]|];
      }
    }
  }

  /** `/alt1|alt2|.../.test(s)` for literal alternatives without flags:
      some alternative is a substring of `s`. */
  lemma LiteralTestIff(s: string, ps: seq<string>)
    ensures Test(s, LitsAll(ps), false)
            <==> exists k :: 0 <= k < |ps| && JsText.Contains(s, ps[k])
  {
    SearchFromIff(s, 0, LitsAll(ps), false);
    if Test(s, LitsAll(ps), false) {
      var j :| 0 <= j <= |s| && AnyAltAt(s, j, LitsAll(ps), false);
      var k :| 0 <= k < |ps| && MatchFrom(s, j, LitsAll(ps)[k], false);
      LitsMatchIff(s, j, ps[k]);
      JsText.ContainsIff(s, ps[k]);
    }
    if k :| 0 <= k < |ps| && JsText.Contains(s, ps[k]) {
      JsText.ContainsIff(s, ps[k]);
      var j :| JsText.OccursAt(s, ps[k], j);
      LitsMatchIff(s, j, ps[k]);
      assert AnyAltAt(s, j, LitsAll(ps), false);
    }
  }

  function LitsAll(ps: seq<string>): (alts: seq<seq<Tok>>)
    ensures |alts| == |ps|
    ensures forall k :: 0 <= k < |ps| ==> alts[k] == Lits(ps[k])
  {
    seq(|ps|, k requires 0 <= k < |ps| => Lits(ps[k]))
  }

  /** `p` occurs at index `i` of `s` up to the case folding of the `i` flag. */
  predicate OccursAtFolded(s: string, p: string, i: nat) {
    i + |p| <= |s| && forall k :: 0 <= k < |p| ==> Canon(s[i + k]) == Canon(p[k])
  }

  /** A literal alternative under the `i` flag matches exactly where its
      text occurs up to case. */
  lemma {:induction false} LitsMatchFoldedIff(s: string, i: nat, p: string)
    requires i <= |s|
    ensures MatchFrom(s, i, Lits(p), true) <==> OccursAtFolded(s, p, i)
    decreases |p|
  {
    if |p| > 0 && i < |s| {
      assert Lits(p)[1..] == Lits(p[1..]);
      LitsMatchFoldedIff(s, i + 1, p[1..]);
      if OccursAtFolded(s, p, i) {
        forall k | 0 <= k < |p[1..]|
          ensures Canon(s[i + 1 + k]) == Canon(p[1..][k])
        {
          assert Canon(s[i + (k + 1)]) == Canon(p[k + 1]);
        }
      }
      if Canon(s[i]) == Canon(p[0]) && OccursAtFolded(s, p[1..], i + 1) {
        forall k | 0 <= k < |p|
          ensures Canon(s[i + k]) == Canon(p[k])
        {
          if k > 0 {
            assert Canon(s[i + 1 + (k - 1)]) == Canon(p[1..][k - 1]);
          }
        }
      }
    }
  }

  /** `/alt1|alt2|.../i.test(s)` for literal alternatives: some alternative
      occurs in `s` up to case. */
  lemma FoldedTestIff(s: string, ps: seq<string>)
    ensures Test(s, LitsAll(ps), true)
            <==> exists k, j :: 0 <= k < |ps| && 0 <= j <= |s| && OccursAtFolded(s, ps[k], j)
  {
    SearchFromIff(s, 0, LitsAll(ps), true);
    if Test(s, LitsAll(ps), true) {
      var j :| 0 <= j <= |s| && AnyAltAt(s, j, LitsAll(ps), true);
      var k :| 0 <= k < |ps| && MatchFrom(s, j, LitsAll(ps)[k], true);
      LitsMatchFoldedIff(s, j, ps[k]);
    }
    if k, j :| 0 <= k < |ps| && 0 <= j <= |s| && OccursAtFolded(s, ps[k], j) {
      LitsMatchFoldedIff(s, j, ps[k]);
      assert AnyAltAt(s, j, LitsAll(ps), true);
    }
  }

  /** Under the `i` flag, a literal prefix that occurs up to case can be
      stepped over. */
  lemma {:induction false} LitsThen(s: string, i: nat, p: string, rest: seq<Tok>)
    requires OccursAtFolded(s, p, i) && MatchFrom(s, i + |p|, rest, true)
    ensures MatchFrom(s, i, Lits(p) + rest, true)
    decreases |p|
  {
    if |p| == 0 {
      assert Lits(p) + rest == rest;
    } else {
      assert (Lits(p) + rest)[1..] == Lits(p[1..]) + rest;
      assert Canon(s[i + 0]) == Canon(p[0]);
      forall k | 0 <= k < |p[1..]|
        ensures Canon(s[i + 1 + k]) == Canon(p[1..][k])
      {
        assert Canon(s[i + (k + 1)]) == Canon(p[k + 1]);
      }
      LitsThen(s, i + 1, p[1..], rest);
    }
  }

  /** One whitespace character is a run for `\s+`. */
  lemma SpaceThen(s: string, i: nat, rest: seq<Tok>, ignoreCase: bool)
    requires i < |s| && JsText.IsSpace(s[i]) && MatchFrom(s, i + 1, rest, ignoreCase)
    ensures MatchFrom(s, i, [Spaces] + rest, ignoreCase)
  {
    assert ([Spaces] + rest)[1..] == rest;
  }

  /** An occurrence up to case of `a + b` is one of `a` followed by one of
      `b`. */
  lemma FoldedSplit(s: string, a: string, b: string, i: nat)
    requires OccursAtFolded(s, a + b, i)
    ensures OccursAtFolded(s, a, i) && OccursAtFolded(s, b, i + |a|)
  {
    forall k | 0 <= k < |b|
      ensures Canon(s[i + |a| + k]) == Canon(b[k])
    {
      assert (a + b)[|a| + k] == b[k];
    }
    forall k | 0 <= k < |a|
      ensures Canon(s[i + k]) == Canon(a[k])
    {
      assert (a + b)[k] == a[k];
    }
  }

  /** Only a space matches a space up to case. */
  lemma FoldedSpace(s: string, i: nat, sp: string)
    requires sp == " " && OccursAtFolded(s, sp, i)
    ensures i < |s| && JsText.IsSpace(s[i])
  {
    assert Canon(s[i + 0]) == Canon(sp[0]);
  }

  /** A match of the single alternative at some index makes `test` succeed. */
  lemma TestAt(s: string, j: nat, alt: seq<Tok>, ignoreCase: bool)
    requires j <= |s| && MatchFrom(s, j, alt, ignoreCase)
    ensures Test(s, [alt], ignoreCase)
  {
    assert AnyAltAt(s, j, [alt], ignoreCase) by {
      assert [alt][0] == alt;
    }
    SearchFromIff(s, 0, [alt], ignoreCase);
  }

  /** A word followed by one space, up to case, matches the word's literals
      followed by `\s+` and whatever matches after the space. */
  lemma WordSpace(s: string, i: nat, w: string, sp: string, rest: seq<Tok>)
    requires sp == " " && OccursAtFolded(s, w, i) && OccursAtFolded(s, sp, i + |w|)
    requires MatchFrom(s, i + |w| + 1, rest, true)
    ensures MatchFrom(s, i, Lits(w) + ([Spaces] + rest), true)
  {
    FoldedSpace(s, i + |w|, sp);
    SpaceThen(s, i + |w|, rest, true);
    LitsThen(s, i, w, [Spaces] + rest);
  }

  /** A last word, up to case, matches its literals. */
  lemma LastWord(s: string, i: nat, w: string)
    requires OccursAtFolded(s, w, i)
    ensures MatchFrom(s, i, Lits(w), true)
  {
    assert MatchFrom(s, i + |w|, [], true);
    assert Lits(w) == Lits(w) + [];
    LitsThen(s, i, w, []);
  }
}

=== FILE: proxy.dfy ===
/** The serverless proxy (netlify/functions/chat.js): `handler` forwards the
    client's chat request to the OpenAI-compatible completion endpoint with
    the secret key, retries once with the leading system message turned into
    a user message when the endpoint rejects system messages, and relays the
    answer. The request event, the presence of the key and the outcomes of
    the (at most two) upstream calls are inputs; the result is the response
    together with the upstream requests that were made. */
module Proxy {
  import opened Wrappers
  import opened Json
  import JsText
  import Pattern

  // ---------------------------------------------------------------------
  // Responses

  type Headers = seq<(string, string)>

  /** The CORS preflight headers. */
  const PreflightHeaders: Headers := [
    ("Access-Control-Allow-Origin", "*"),
    ("Access-Control-Allow-Methods", "POST, OPTIONS"),
    ("Access-Control-Allow-Headers", "Content-Type, Authorization")
  ]

  /** The headers of every JSON response. */
  const JsonHeaders: Headers := [
    ("Content-Type", "application/json"),
    ("Access-Control-Allow-Origin", "*")
  ]

  datatype Response = Response(statusCode: nat, headers: Headers, body: string)

  /** The `json(obj, statusCode)` helper. */
  function JsonResponse(obj: Json, statusCode: nat): (r: Response)
    ensures r.statusCode == statusCode && r.headers == JsonHeaders
    ensures obj.Obj? ==> JsText.StartsWith(r.body, "{")
  {
    Response(statusCode, JsonHeaders, Stringify(obj))
  }

  /** `{ error: message }`. */
  function ErrorBody(message: string): (j: Json)
    ensures Prop(j, "error") == Some(Str(message))
  {
    Obj([("error", Str(message))])
  }

  /** An error response spells out the message as a JSON string, from which
      the message is read back exactly. */
  lemma ErrorResponseReadable(message: string, statusCode: nat)
    ensures JsonResponse(ErrorBody(message), statusCode).body == "{\"error\":" + Quote(message) + "}"
    ensures UnescapeString(EscapeString(message)) == Some(message)
  {
    ErrorBodyText(message, statusCode);
    UnescapeEscape(message);
  }

  lemma ErrorBodyText(message: string, statusCode: nat)
    ensures JsonResponse(ErrorBody(message), statusCode).body == "{\"error\":" + Quote(message) + "}"
  {
    var k := "error";
    StringifyOneMember(k, Str(message));
    ErrorKeyText(k);
    var q := Quote(message);
    assert "{" + Quote(k) + ":" + q + "}" == ("{" + Quote(k) + ":") + q + "}";
  }

  lemma ErrorKeyText(k: string)
    requires k == "error"
    ensures "{" + Quote(k) + ":" == "{\"error\":"
  {
    QuotePlain(k);
  }

  /** What the `catch` of the handler answers for a thrown error. */
  function Thrown(e: JsError): (r: Response)
    ensures r.statusCode == 500 && r.headers == JsonHeaders
    ensures r.body == "{\"error\":" + Quote(ErrorText(e)) + "}"
  {
    ErrorBodyText(ErrorText(e), 500);
    JsonResponse(ErrorBody(ErrorText(e)), 500)
  }

  // ---------------------------------------------------------------------
  // The request

  /** The body of the event: absent (or empty), text that is not JSON
      (`JSON.parse` throws this error), or a parsed JSON value. */
  datatype RequestBody = Absent | Malformed(error: JsError) | Parsed(value: Json)

  datatype Event = Event(httpMethod: string, body: RequestBody)

  /** The three fields the handler destructures from the body; `temperature`
      already carries its default. */
  datatype Fields = Fields(model: Option<Json>, messages: Option<Json>, temperature: Json)

  /** The temperature used when the request has none (0.7, as JSON text). */
  const DefaultTemperature: Json := Num("0.7")

  /** The model used when the request names none. */
  const DefaultModel: string := "meta-llama/llama-4-scout-17b-16e-instruct"

  /** Destructuring `null` throws (the wording is the engine's). */
  const NullBody: JsError := JsError("TypeError", "Cannot destructure property 'model' of 'JSON.parse(...)' as it is null.")

  datatype Destructured = Unreadable(error: JsError) | Read(fields: Fields)

  /** `const { model, messages, temperature = 0.7 } = JSON.parse(event.body || "{}")`.
      The default applies only when `temperature` is absent, not when it is
      `null`. */
  function Destructure(b: RequestBody): (d: Destructured)
    ensures b.Absent? ==> d == Read(Fields(None, None, DefaultTemperature))
    ensures b.Malformed? ==> d == Unreadable(b.error)
    ensures b.Parsed? && b.value.Null? ==> d.Unreadable?
    ensures b.Parsed? && !b.value.Null? ==>
              d.Read? && d.fields.messages == Prop(b.value, "messages")
              && d.fields.model == Prop(b.value, "model")
              && (Prop(b.value, "temperature").Some? ==> d.fields.temperature == Prop(b.value, "temperature").value)
              && (Prop(b.value, "temperature").None? ==> d.fields.temperature == DefaultTemperature)
  {
    match b
    case Absent => Read(Fields(None, None, DefaultTemperature))
    case Malformed(e) => Unreadable(e)
    case Parsed(v) =>
      if v.Null? then Unreadable(NullBody)
      else Read(Fields(Prop(v, "model"), Prop(v, "messages"), Prop(v, "temperature").GetOr(DefaultTemperature)))
  }

  /** `Array.isArray(messages) && messages.length > 0`. */
  predicate ValidMessages(m: Option<Json>) {
    m.Some? && m.value.Arr? && |m.value.items| > 0
  }

  /** The key from the environment is set and non-empty. */
  predicate KeyPresent(apiKey: Option<string>) {
    apiKey.Some? && apiKey.value != ""
  }

  // ---------------------------------------------------------------------
  // The system-to-user rewrite

  predicate IsSystem(m: Json) {
    Prop(m, "role") == Some(Str("system"))
  }

  /** `{ role: "user", content: m.content }`; a missing content is left out
      when the object is serialised. */
  function AsUser(m: Json): (u: Json)
    ensures Prop(u, "role") == Some(Str("user"))
    ensures Prop(u, "content") == Prop(m, "content")
    ensures u.Obj? && forall k :: k != "role" && k != "content" ==> Prop(u, k).None?
  {
    match Prop(m, "content")
    case None => Obj([("role", Str("user"))])
    case Some(c) =>
      var ms := [("role", Str("user")), ("content", c)];
      assert ms[1..] == [("content", c)];
      assert Lookup(ms[1..], "content") == Some(c);
      assert ms[0].0 != "content";
      Obj(ms)
  }

  /** What `JSON.stringify` sends for the rewritten message: the role, then
      the content when there is one, and nothing else. */
  lemma AsUserText(m: Json)
    ensures Prop(m, "content").None? ==> Stringify(AsUser(m)) == "{\"role\":\"user\"}"
    ensures Prop(m, "content").Some? ==>
              Stringify(AsUser(m)) == "{\"role\":\"user\",\"content\":" + Stringify(Prop(m, "content").value) + "}"
  {
    var role, user, content := "role", "user", "content";
    var head, tail := RoleUserText(role, user, content);
    match Prop(m, "content")
    case None =>
      assert AsUser(m) == Obj([(role, Str(user))]);
      StringifyOneMember(role, Str(user));
    case Some(c) =>
      assert AsUser(m) == Obj([(role, Str(user)), (content, c)]);
      StringifyTwoMembers(role, Str(user), content, c);
      MemberAfterHead(head, Quote(content), Stringify(c));
  }

  lemma MemberAfterHead(head: string, key: string, value: string)
    ensures head + "," + key + ":" + value + "}" == head + ("," + key + ":") + value + "}"
  {
  }

  /** The literal pieces `AsUserText` is assembled from. */
  lemma RoleUserText(role: string, user: string, content: string) returns (head: string, tail: string)
    requires role == "role" && user == "user" && content == "content"
    ensures head == "{" + Quote(role) + ":" + Stringify(Str(user)) && tail == "," + Quote(content) + ":"
    ensures head + "}" == "{\"role\":\"user\"}"
    ensures head + tail == "{\"role\":\"user\",\"content\":"
  {
    var qr := QuotedWord(role);
    var qu := QuotedWord(user);
    var qc := QuotedWord(content);
    head := "{" + Quote(role) + ":" + Stringify(Str(user));
    tail := "," + Quote(content) + ":";
    HeadText(qr, qu, qc, head, tail);
  }

  lemma QuotedWord(k: string) returns (q: string)
    requires k == "role" || k == "user" || k == "content"
    ensures q == Quote(k) && q == "\"" + k + "\""
  {
    QuoteLower(k);
    q := Quote(k);
  }

  lemma HeadText(qr: string, qu: string, qc: string, head: string, tail: string)
    requires qr == "\"role\"" && qu == "\"user\"" && qc == "\"content\""
    requires head == "{" + qr + ":" + qu && tail == "," + qc + ":"
    ensures head + "}" == "{\"role\":\"user\"}"
    ensures head + tail == "{\"role\":\"user\",\"content\":"
  {
  }

  /** The retry's `messages.map(...)`: a leading system message becomes a
      user message with the same content; everything else is kept. */
  function RewriteSystem(ms: seq<Json>): (r: seq<Json>)
    ensures |r| == |ms|
    ensures forall i :: 1 <= i < |ms| ==> r[i] == ms[i]
    ensures |ms| > 0 ==> (r[0] != ms[0] <==> IsSystem(ms[0]))
    ensures |ms| > 0 && IsSystem(ms[0]) ==>
              Prop(r[0], "role") == Some(Str("user")) && Prop(r[0], "content") == Prop(ms[0], "content")
    ensures |ms| > 0 && IsSystem(ms[0]) ==>
              r[0].Obj? && forall k :: k != "role" && k != "content" ==> Prop(r[0], k).None?
  {
    seq(|ms|, i requires 0 <= i < |ms| => if i == 0 && IsSystem(ms[i]) then AsUser(ms[i]) else ms[i])
  }

  /** After the rewrite nothing is left to rewrite. */
  lemma RewriteIdempotent(ms: seq<Json>)
    ensures RewriteSystem(RewriteSystem(ms)) == RewriteSystem(ms)
  {
    var r := RewriteSystem(ms);
    if |ms| > 0 {
      assert !IsSystem(r[0]);
    }
  }

  // ---------------------------------------------------------------------
  // Upstream calls

  /** What one upstream request is made with. */
  datatype UpstreamRequest = UpstreamRequest(authorization: string, model: Json, messages: seq<Json>, temperature: Json)

  /** The JSON body sent upstream. */
  function Payload(q: UpstreamRequest): string {
    Stringify(Obj([("model", q.model), ("messages", Arr(q.messages)), ("temperature", q.temperature)]))
  }

  /** `callGroq(msgs)`'s request: bearer key, the request's model or the
      default, the messages, the temperature. */
  function Upstream(apiKey: string, f: Fields, msgs: seq<Json>): (q: UpstreamRequest)
    ensures q.authorization == "Bearer " + apiKey && q.messages == msgs && q.temperature == f.temperature
    ensures TruthyOpt(f.model) ==> q.model == f.model.value
    ensures !TruthyOpt(f.model) ==> q.model == Str(DefaultModel)
  {
    UpstreamRequest("Bearer " + apiKey, Or(f.model, Str(DefaultModel)), msgs, f.temperature)
  }

  /** The text of an upstream answer: JSON, or something else. */
  datatype AnswerBody = JsonText(value: Json) | OtherText(text: string)

  /** How an upstream call ended: the request or the reading of its text
      threw, or an answer came back. */
  datatype Outcome = Threw(error: JsError) | Answered(ok: bool, status: nat, body: AnswerBody)

  /** `try { data = JSON.parse(text) } catch { data = { raw: text } }`. */
  function Data(b: AnswerBody): (d: Json)
    ensures b.JsonText? ==> d == b.value
    ensures b.OtherText? ==> Prop(d, "raw") == Some(Str(b.text))
  {
    match b
    case JsonText(v) => v
    case OtherText(t) => Obj([("raw", Str(t))])
  }

  /** `/property\s+'system'\s+is\s+unsupported/i`. */
  const UnsupportedSystem: seq<Pattern.Tok> :=
    Pattern.Lits("property") + ([Pattern.Spaces] + (Pattern.Lits("'system'") + ([Pattern.Spaces]
    + (Pattern.Lits("is") + ([Pattern.Spaces] + Pattern.Lits("unsupported"))))))

  /** The retry condition on the data of a failed answer, tested on its JSON
      text. */
  predicate SystemUnsupported(data: Json) {
    Pattern.Test(Stringify(data), [UnsupportedSystem], true)
  }

  /** The endpoint's complaint, written with single spaces: anywhere in a
      text and in any case, the retry pattern finds it. The four words are
      parameters fixed by `requires`, which keeps the literals out of the
      solver's eager evaluation of the matcher. */
  lemma ComplaintMatches(s: string, j: nat, w1: string, w2: string, w3: string, w4: string)
    requires w1 == "property" && w2 == "'system'" && w3 == "is" && w4 == "unsupported"
    requires Pattern.OccursAtFolded(s, w1 + " " + w2 + " " + w3 + " " + w4, j)
    ensures Pattern.Test(s, [UnsupportedSystem], true)
  {
    var sp := " ";
    ComplaintWords(s, j, w1, w2, w3, w4, sp);
    var t4 := Pattern.Lits(w4);
    var t3 := Pattern.Lits(w3) + ([Pattern.Spaces] + t4);
    var t2 := Pattern.Lits(w2) + ([Pattern.Spaces] + t3);
    var t1 := Pattern.Lits(w1) + ([Pattern.Spaces] + t2);
    Pattern.LastWord(s, j + 21, w4);
    Pattern.WordSpace(s, j + 18, w3, sp, t4);
    Pattern.WordSpace(s, j + 9, w2, sp, t3);
    Pattern.WordSpace(s, j, w1, sp, t2);
    assert t1 == UnsupportedSystem;
    Pattern.TestAt(s, j, t1, true);
  }

  /** Where the words and spaces of the complaint sit. */
  lemma ComplaintWords(s: string, j: nat, w1: string, w2: string, w3: string, w4: string, sp: string)
    requires w1 == "property" && w2 == "'system'" && w3 == "is" && w4 == "unsupported" && sp == " "
    requires Pattern.OccursAtFolded(s, w1 + sp + w2 + sp + w3 + sp + w4, j)
    ensures Pattern.OccursAtFolded(s, w1, j) && Pattern.OccursAtFolded(s, sp, j + 8)
    ensures Pattern.OccursAtFolded(s, w2, j + 9) && Pattern.OccursAtFolded(s, sp, j + 17)
    ensures Pattern.OccursAtFolded(s, w3, j + 18) && Pattern.OccursAtFolded(s, sp, j + 20)
    ensures Pattern.OccursAtFolded(s, w4, j + 21)
  {
    var p2 := w1 + sp;
    var p3 := p2 + w2;
    var p4 := p3 + sp;
    var p5 := p4 + w3;
    var p6 := p5 + sp;
    Pattern.FoldedSplit(s, p6, w4, j);
    Pattern.FoldedSplit(s, p5, sp, j);
    Pattern.FoldedSplit(s, p4, w3, j);
    Pattern.FoldedSplit(s, p3, sp, j);
    Pattern.FoldedSplit(s, p2, w2, j);
    Pattern.FoldedSplit(s, w1, sp, j);
  }

  /** So the complaint anywhere in the data's JSON text triggers the retry. */
  lemma ComplaintTriggersRetry(data: Json, j: nat, w1: string, w2: string, w3: string, w4: string)
    requires w1 == "property" && w2 == "'system'" && w3 == "is" && w4 == "unsupported"
    requires Pattern.OccursAtFolded(Stringify(data), w1 + " " + w2 + " " + w3 + " " + w4, j)
    ensures SystemUnsupported(data)
  {
    ComplaintMatches(Stringify(data), j, w1, w2, w3, w4);
  }

  /** The response for the answer the handler ends with: 200 and the data
      relayed as JSON, or the error with the upstream status (500 when that
      is 0). */
  function Final(ok: bool, status: nat, data: Json): (r: Response)
    ensures r.headers == JsonHeaders
    ensures ok ==> r.statusCode == 200 && r.body == Stringify(data)
    ensures !ok ==> r.statusCode == (if status == 0 then 500 else status)
    ensures !ok && TruthyOpt(Prop(data, "error")) ==> r == JsonResponse(Obj([("error", Prop(data, "error").value)]), r.statusCode)
    ensures !ok && !TruthyOpt(Prop(data, "error")) ==> r == JsonResponse(Obj([("error", data)]), r.statusCode)
  {
    if ok then Response(200, JsonHeaders, Stringify(data))
    else JsonResponse(Obj([("error", Or(Prop(data, "error"), data))]), if status == 0 then 500 else status)
  }

  // ---------------------------------------------------------------------
  // The handler

  /** The response and the upstream requests made, in order. */
  datatype Run = Run(response: Response, calls: seq<UpstreamRequest>)

  /** `handler(event)` with the key from the environment and the outcomes of
      the first upstream call and of the retry (used only if the retry
      happens). */
  function Handle(event: Event, apiKey: Option<string>, first: Outcome, retry: Outcome): Run {
    if event.httpMethod == "OPTIONS" then Run(Response(204, PreflightHeaders, ""), [])
    else if event.httpMethod != "POST" then Run(JsonResponse(ErrorBody("Method Not Allowed"), 405), [])
    else match Destructure(event.body)
      case Unreadable(e) => Run(Thrown(e), [])
      case Read(f) => Post(f, apiKey, first, retry)
  }

  const MissingMessages: string := "messages[] requerido"
  const MissingKey: string := "Falta GROQ_API_KEY en variables de entorno"

  /** The body of the `try` once the request is destructured. */
  function Post(f: Fields, apiKey: Option<string>, first: Outcome, retry: Outcome): Run {
    if !ValidMessages(f.messages) then Run(JsonResponse(ErrorBody(MissingMessages), 400), [])
    else if !KeyPresent(apiKey) then Run(JsonResponse(ErrorBody(MissingKey), 500), [])
    else
      var ms := f.messages.value.items;
      var q1 := Upstream(apiKey.value, f, ms);
      match first
      case Threw(e) => Run(Thrown(e), [q1])
      case Answered(ok, status, body) =>
        if !ok && SystemUnsupported(Data(body)) then
          var q2 := Upstream(apiKey.value, f, RewriteSystem(ms));
          match retry
          case Threw(e) => Run(Thrown(e), [q1, q2])
          case Answered(ok2, status2, body2) => Run(Final(ok2, status2, Data(body2)), [q1, q2])
        else Run(Final(ok, status, Data(body)), [q1])
  }

  // ---------------------------------------------------------------------
  // Properties of the handler

  /** A preflight request is answered 204 with an empty body and the CORS
      headers, whatever else it carries. */
  lemma Preflight(event: Event, apiKey: Option<string>, first: Outcome, retry: Outcome)
    requires event.httpMethod == "OPTIONS"
    ensures Handle(event, apiKey, first, retry) == Run(Response(204, PreflightHeaders, ""), [])
  {
  }

  /** Any method but OPTIONS and POST is refused with 405 and nothing is
      sent upstream. */
  lemma OtherMethods(event: Event, apiKey: Option<string>, first: Outcome, retry: Outcome)
    requires event.httpMethod != "OPTIONS" && event.httpMethod != "POST"
    ensures var run := Handle(event, apiKey, first, retry);
            run.response.statusCode == 405 && run.calls == []
            && run.response.body == Stringify(ErrorBody("Method Not Allowed"))
  {
  }

  /** A POST whose messages are missing, not an array or empty is refused
      with 400 before the key is looked at: with or without a key the answer
      is the same, and nothing is sent upstream. */
  lemma InvalidMessages(body: RequestBody, apiKey: Option<string>, first: Outcome, retry: Outcome)
    requires Destructure(body).Read? && !ValidMessages(Destructure(body).fields.messages)
    ensures var run := Handle(Event("POST", body), apiKey, first, retry);
            && run == Handle(Event("POST", body), None, first, retry)
            && run.response == JsonResponse(ErrorBody(MissingMessages), 400)
            && run.calls == []
  {
  }

  /** An absent body has no messages. */
  lemma AbsentBodyRefused(apiKey: Option<string>, first: Outcome, retry: Outcome)
    ensures Handle(Event("POST", Absent), apiKey, first, retry).response.statusCode == 400
  {
    InvalidMessages(Absent, apiKey, first, retry);
  }

  /** With valid messages and no key the answer is 500 and nothing is sent
      upstream. */
  lemma KeyMissing(body: RequestBody, apiKey: Option<string>, first: Outcome, retry: Outcome)
    requires Destructure(body).Read? && ValidMessages(Destructure(body).fields.messages)
    requires !KeyPresent(apiKey)
    ensures var run := Handle(Event("POST", body), apiKey, first, retry);
            run.response == JsonResponse(ErrorBody(MissingKey), 500) && run.calls == []
  {
  }

  /** A body that is not JSON, or is `null`, ends in the `catch`: 500 with
      the error's text, and nothing is sent upstream. */
  lemma UnreadableBody(body: RequestBody, apiKey: Option<string>, first: Outcome, retry: Outcome)
    requires Destructure(body).Unreadable?
    ensures var run := Handle(Event("POST", body), apiKey, first, retry);
            && run.response == JsonResponse(ErrorBody(ErrorText(Destructure(body).error)), 500)
            && run.calls == []
  {
  }

  /** At most two upstream calls are made. The first carries the request's
      messages unchanged; a second happens exactly when the first answered
      not ok with data that says system messages are unsupported, and it
      carries the rewritten messages with everything else equal. */
  lemma RetryBound(f: Fields, apiKey: Option<string>, first: Outcome, retry: Outcome)
    ensures var run := Post(f, apiKey, first, retry);
            && |run.calls| <= 2
            && (|run.calls| >= 1 ==> ValidMessages(f.messages) && KeyPresent(apiKey)
                                     && run.calls[0] == Upstream(apiKey.value, f, f.messages.value.items))
            && (|run.calls| == 2 <==>
                  ValidMessages(f.messages) && KeyPresent(apiKey) && first.Answered?
                  && !first.ok && SystemUnsupported(Data(first.body)))
            && (|run.calls| == 2 ==>
                  run.calls[1] == run.calls[0].(messages := RewriteSystem(run.calls[0].messages)))
  {
    if ValidMessages(f.messages) && KeyPresent(apiKey) && first.Answered? {
      if !first.ok && SystemUnsupported(Data(first.body)) {
        assert |Post(f, apiKey, first, retry).calls| == 2;
      } else {
        assert |Post(f, apiKey, first, retry).calls| == 1;
      }
    }
  }

  /** The handler as a whole makes at most two calls, and none unless the
      method is POST. */
  lemma CallsBound(event: Event, apiKey: Option<string>, first: Outcome, retry: Outcome)
    ensures var run := Handle(event, apiKey, first, retry);
            |run.calls| <= 2 && (run.calls != [] ==> event.httpMethod == "POST")
  {
    if event.httpMethod == "POST" && Destructure(event.body).Read? {
      RetryBound(Destructure(event.body).fields, apiKey, first, retry);
    }
  }

  /** The answer relayed is the last call's: when it is ok the client gets
      200 and its data re-serialised; when it is not, the upstream status
      (500 for 0) and its `error` or, lacking one, the whole data. */
  lemma RelaysLastAnswer(f: Fields, apiKey: Option<string>, first: Outcome, retry: Outcome)
    requires ValidMessages(f.messages) && KeyPresent(apiKey)
    ensures var run := Post(f, apiKey, first, retry);
            var last := if |run.calls| == 2 then retry else first;
            && (last.Threw? ==> run.response == Thrown(last.error))
            && (last.Answered? ==> run.response == Final(last.ok, last.status, Data(last.body)))
  {
    RetryBound(f, apiKey, first, retry);
  }

  /** Every status the handler answers with is one of its own or the
      upstream's. */
  lemma StatusOrigin(event: Event, apiKey: Option<string>, first: Outcome, retry: Outcome)
    ensures var s := Handle(event, apiKey, first, retry).response.statusCode;
            s in {200, 204, 400, 405, 500}
            || (first.Answered? && s == first.status) || (retry.Answered? && s == retry.status)
  {
    if event.httpMethod == "POST" && Destructure(event.body).Read? {
      var f := Destructure(event.body).fields;
      if ValidMessages(f.messages) && KeyPresent(apiKey) {
        RelaysLastAnswer(f, apiKey, first, retry);
      }
    }
  }

  /** Every response but the preflight carries the JSON headers. */
  lemma JsonHeadersEverywhere(event: Event, apiKey: Option<string>, first: Outcome, retry: Outcome)
    requires event.httpMethod != "OPTIONS"
    ensures Handle(event, apiKey, first, retry).response.headers == JsonHeaders
  {
  }

  /** An answer that is not JSON is relayed as `{ raw: text }`, inside
      `error` when it failed. */
  lemma NonJsonWrapped(status: nat, text: string)
    ensures Final(true, status, Data(OtherText(text))) == Response(200, JsonHeaders, Stringify(Obj([("raw", Str(text))])))
    ensures Final(false, status, Data(OtherText(text))).body
            == Stringify(Obj([("error", Obj([("raw", Str(text))]))]))
  {
  }

  /** The first request carries the defaults for what the client left out. */
  lemma Defaults(request: Json, messages: seq<Json>, key: string, first: Outcome, retry: Outcome)
    requires !request.Null? && Prop(request, "messages") == Some(Arr(messages)) && |messages| > 0
    requires Prop(request, "model").None? && Prop(request, "temperature").None?
    requires key != ""
    ensures var run := Handle(Event("POST", Parsed(request)), Some(key), first, retry);
            && |run.calls| >= 1
            && run.calls[0] == UpstreamRequest("Bearer " + key, Str(DefaultModel), messages, DefaultTemperature)
  {
    var f := Destructure(Parsed(request)).fields;
    assert f == Fields(None, Some(Arr(messages)), DefaultTemperature);
    RetryBound(f, Some(key), first, retry);
  }
}

=== FILE: seqs.dfy ===
/** Identities about slices and concatenation, stated once and proved in a
    context free of the string functions that use them. */
module Seqs {

  lemma SliceOfSlice<T>(s: seq<T>, a: nat, k: nat)
    requires a + k <= |s|
    ensures s[a..][..k] == s[a..a + k]
  {
  }

  lemma SuffixOfSlice<T>(s: seq<T>, a: nat, k: nat)
    requires a + k <= |s|
    ensures s[a..][k..] == s[a + k..]
  {
  }

  lemma PrefixCons<T>(s: seq<T>, n: nat)
    requires n < |s|
    ensures s[..n + 1] == [s[0]] + s[1..][..n]
  {
  }

  lemma SuffixSnoc<T>(s: seq<T>, n: nat)
    requires n < |s|
    ensures s[|s| - (n + 1)..] == s[..|s| - 1][|s| - 1 - n..] + [s[|s| - 1]]
  {
  }

  lemma ConcatParts<T>(a: seq<T>, b: seq<T>)
    ensures (a + b)[..|a|] == a && (a + b)[|a|..] == b
  {
  }

  lemma ConsParts<T>(a: seq<T>, b: seq<T>)
    requires |a| > 0
    ensures (a + b)[0] == a[0] && (a + b)[1..] == a[1..] + b
  {
  }

  lemma RangeTail<T>(s: seq<T>, p: nat, q: nat)
    requires p < q <= |s|
    ensures s[p..q][0] == s[p] && s[p..q][1..] == s[p + 1..q]
  {
  }

  lemma Assoc<T>(x: seq<T>, y: seq<T>, z: seq<T>)
    ensures x + (y + z) == (x + y) + z
  {
  }

  lemma SplitAt<T>(s: seq<T>, a: nat, m: nat)
    requires a <= m <= |s|
    ensures s[a..] == s[a..m] + s[m..]
  {
  }

  lemma AppendEmpty<T>(s: seq<T>)
    ensures s + [] == s
  {
  }
}

=== FILE: turn.dfy ===
/** One turn of the chat client (chat.js, `sendMessage` with `callAI` and
    `wikiFallback`), as a step function. The conversation history is the
    value of `chatHistory` before the turn; the network is replaced by the
    outcomes of the two requests; the page is replaced by the list of what
    the turn shows. The system prompt is an opaque text: it is simply the
    first message of the history. */
module Turn {
  import opened Wrappers
  import JsText
  import opened Json
  import Pattern
  import HtmlEscape
  import Normalize
  import LatexClean
  import Voice

  datatype Role = System | User | Assistant

  /** An entry of `chatHistory`. */
  datatype Message = Message(role: Role, content: string)

  /** `chatHistory` when the page loads: the system prompt alone. */
  function InitialHistory(prompt: string): (h: seq<Message>)
    ensures |h| == 1 && h[0].role == System && h[0].content == prompt
  {
    [Message(System, prompt)]
  }

  /** What the turn puts on the page: the escaped echo of the user's text, an
      assistant reply (rendered as Markdown and spoken), or an error line. */
  datatype Shown = UserEcho(html: string) | Reply(text: string) | ErrorLine(html: string)

  // ---------------------------------------------------------------------
  // History bound

  /** `a.splice(start, count)` seen through the array it leaves behind. */
  function Splice<T>(a: seq<T>, start: nat, count: nat): (r: seq<T>)
    requires start + count <= |a|
    ensures |r| == |a| - count
    ensures r[..start] == a[..start] && r[start..] == a[start + count..]
  {
    a[..start] + a[start + count..]
  }

  /** `if (chatHistory.length > 9) chatHistory.splice(1, chatHistory.length - 8)`. */
  function Bound(g: seq<Message>): seq<Message> {
    if |g| > 9 then Splice(g, 1, |g| - 8) else g
  }

  /** A history of more than nine entries is cut to exactly eight: the first
      entry, then the last seven in their order. Shorter histories are
      untouched. */
  lemma BoundShape(g: seq<Message>)
    ensures |g| > 9 ==> |Bound(g)| == 8 && Bound(g)[0] == g[0]
                        && (forall k :: 1 <= k < 8 ==> Bound(g)[k] == g[|g| - 8 + k])
    ensures |g| <= 9 ==> Bound(g) == g
    ensures |Bound(g)| <= 9
  {
    if |g| > 9 {
      var r := Bound(g);
      assert r[..1] == g[..1];
      forall k | 1 <= k < 8
        ensures r[k] == g[|g| - 8 + k]
      {
        assert r[k] == r[1..][k - 1];
      }
    }
  }

  /** Cutting twice is cutting once. */
  lemma BoundIdempotent(g: seq<Message>)
    ensures Bound(Bound(g)) == Bound(g)
  {
    BoundShape(g);
  }

  // ---------------------------------------------------------------------
  // callAI

  /** How the request to the proxy ended: it threw (network failure), or an
      answer came back with its `ok` flag, its status and its body as
      `JSON.parse` read it (`None` when the body was not JSON). */
  datatype CallOutcome =
    | CallThrew(error: JsError)
    | CallAnswered(ok: bool, status: nat, body: Option<Json>)

  /** What `callAI` resolves to, or what it throws. */
  datatype CallResult = Data(data: Json) | Failed(error: JsError)

  /** The message `callAI` throws with on a non-ok answer: the body's `error`
      when it is truthy, written as JSON unless it is a string, and
      otherwise `HTTP <status>`. */
  function HttpErrorMessage(data: Json, status: nat): (m: string)
    ensures Prop(data, "error").Some? && Prop(data, "error").value.Str? && Truthy(Prop(data, "error").value)
            ==> m == Prop(data, "error").value.str
    ensures TruthyOpt(Prop(data, "error")) && !Prop(data, "error").value.Str?
            ==> m == Stringify(Prop(data, "error").value)
    ensures !TruthyOpt(Prop(data, "error")) ==> m == "HTTP " + NatToString(status)
  {
    var e := Or(Prop(data, "error"), Str("HTTP " + NatToString(status)));
    if e.Str? then e.str else Stringify(e)
  }

  function CallAI(o: CallOutcome): (r: CallResult)
    ensures r.Failed? <==> o.CallThrew? || !o.ok
    ensures o.CallAnswered? && !o.ok ==> r.error.name == "Error"
    ensures o.CallThrew? ==> r == Failed(o.error)
    ensures o.CallAnswered? && o.ok ==> r == Data(o.body.GetOr(Obj([])))
    ensures o.CallAnswered? && !o.ok
            ==> r == Failed(JsError("Error", HttpErrorMessage(o.body.GetOr(Obj([])), o.status)))
  {
    match o
    case CallThrew(e) => Failed(e)
    case CallAnswered(ok, status, body) =>
      var data := body.GetOr(Obj([]));
      if ok then Data(data)
      else Failed(JsError("Error", HttpErrorMessage(data, status)))
  }

  /** An answer whose body is not JSON is read as `{}`: a failed one is
      reported with its status. */
  lemma UnparsableFailure(status: nat)
    ensures CallAI(CallAnswered(false, status, None)) == Failed(JsError("Error", "HTTP " + NatToString(status)))
  {
  }

  // ---------------------------------------------------------------------
  // wikiFallback

  /** How the encyclopedia request ended: it threw, or an answer came back
      with its `ok` flag and its body as parsed (`None` when not JSON). */
  datatype WikiOutcome = WikiThrew | WikiAnswered(ok: bool, body: Option<Json>)

  /** `wikiFallback(query)`: the summary's `extract`, or `""` when the
      request threw, failed, or the summary has none. */
  function WikiFallback(w: WikiOutcome): (r: Json)
    ensures w.WikiThrew? || (w.WikiAnswered? && !w.ok) ==> r == Str("")
    ensures w.WikiAnswered? && w.body.None? ==> r == Str("")
    ensures w.WikiAnswered? && w.ok && w.body.Some? && TruthyOpt(Prop(w.body.value, "extract"))
            ==> r == Prop(w.body.value, "extract").value
    ensures w.WikiAnswered? && w.body.Some? && !TruthyOpt(Prop(w.body.value, "extract")) ==> r == Str("")
    ensures r == Str("") || Truthy(r)
  {
    match w
    case WikiThrew => Str("")
    case WikiAnswered(ok, body) =>
      if !ok then Str("")
      else Or(Prop(body.GetOr(Obj([])), "extract"), Str(""))
  }

  // ---------------------------------------------------------------------
  // Reply selection

  /** `/no encontr[ée] una respuesta|no se pudo/i`, with the class written
      out as two alternatives. */
  const NoAnswerPhrases: seq<string> :=
    ["no encontre una respuesta", "no encontr\U{E9} una respuesta", "no se pudo"]

  predicate NoAnswer(s: string) {
    Pattern.Test(s, Pattern.LitsAll(NoAnswerPhrases), true)
  }

  /** The fallback fires on exactly the replies in which one of the three
      phrases occurs, in any mix of upper and lower case. */
  lemma NoAnswerIff(s: string)
    ensures NoAnswer(s)
            <==> exists k, j :: 0 <= k < |NoAnswerPhrases| && 0 <= j <= |s|
                                && Pattern.OccursAtFolded(s, NoAnswerPhrases[k], j)
  {
    Pattern.FoldedTestIff(s, NoAnswerPhrases);
  }

  const Apology: string := "Lo siento, " + "no encontr\U{E9} " + "una respuesta " + "adecuada."

  /** The reply `callAI`'s data carries: `data?.choices?.[0]?.message?.content || ""`. */
  function ModelReply(data: Json): (r: Json)
    ensures r == Str("") || Truthy(r)
  {
    Or(PropOpt(PropOpt(Index0(Prop(data, "choices")), "message"), "content"), Str(""))
  }

  /** The reply of an answer `{choices: [{message: {content: c}}, ...]}`
      whose content is truthy is that content. */
  lemma ModelReplyContent(c: Json, others: seq<Json>)
    requires Truthy(c)
    ensures ModelReply(Obj([("choices", Arr([Obj([("message", Obj([("content", c)]))])] + others))])) == c
  {
    var msg := Obj([("content", c)]);
    var choice := Obj([("message", msg)]);
    var items := [choice] + others;
    assert Prop(Obj([("choices", Arr(items))]), "choices") == Some(Arr(items));
    assert Index0(Some(Arr(items))) == Some(choice);
    assert Prop(choice, "message") == Some(msg);
    assert Prop(msg, "content") == Some(c);
  }

  /** Without choices there is no reply: it is `""`. */
  lemma ModelReplyMissing(data: Json)
    requires Prop(data, "choices").None? || Prop(data, "choices") == Some(Arr([]))
    ensures ModelReply(data) == Str("")
  {
  }

  /** Whether the model's reply is replaced: it is empty, or it says that no
      answer was found (`test` reads a non-string through `String`). */
  predicate NeedsFallback(reply: Json) {
    !Truthy(reply) || NoAnswer(ToStr(reply))
  }

  /** The reply before LaTeX cleaning: the model's, or the encyclopedia
      text, or the apology. */
  function ChooseReply(reply: Json, wiki: Json): (r: Json)
    ensures !NeedsFallback(reply) ==> r == reply
    ensures NeedsFallback(reply) && Truthy(wiki) ==> r == wiki
    ensures NeedsFallback(reply) && !Truthy(wiki) ==> r == Str(Apology)
  {
    if NeedsFallback(reply) then Or(Some(wiki), Str(Apology)) else reply
  }

  /** `cleanVariablesLatex` only accepts a string: on anything else
      `text.replace` is not a function. */
  const NotAString: JsError := JsError("TypeError", "text.replace is not a function")

  // ---------------------------------------------------------------------
  // sendMessage

  /** The canned self-introduction of the fast path. */
  const Introduction: string :=
    "Soy **MIRA**, una asistente virtual creada por **Innova Space**. Estoy dise\U{F1}ada para ayudarte "
    + "a aprender y resolver tus dudas en todas las materias. Puedo explicarte conceptos, f\U{F3}rmulas "
    + "(mostrando LaTeX), resolver ejercicios paso a paso, hacer res\U{FA}menes y darte ejemplos "
    + "pr\U{E1}cticos. \U{BF}Con qu\U{E9} te ayudo hoy?"

  const ErrorPrefix: string := "Error al conectar con la IA: "

  /** The model the client asks the proxy for. */
  const Model: string := "meta-llama/llama-4-scout-17b-16e-instruct"

  /** The body `sendMessage` hands to `callAI`: the model, the history as it
      stands after the user's message, and the temperature 0.7 (written as
      its JSON text). */
  datatype ChatRequest = ChatRequest(model: string, messages: seq<Message>, temperature: string)

  function RequestFor(sent: seq<Message>): (q: ChatRequest)
    ensures q.messages == sent && q.model == Model && q.temperature == "0.7"
  {
    ChatRequest(Model, sent, "0.7")
  }

  /** The result of one turn: the history after it, what was shown, the
      messages sent to the proxy (if a request was made), the text sent to
      the encyclopedia (if it was asked), and what was spoken. */
  datatype TurnResult = TurnResult(
    history: seq<Message>,
    shown: seq<Shown>,
    request: Option<ChatRequest>,
    wikiQuery: Option<string>,
    spoken: Option<string>)

  /** `sendMessage()` with `input.value == inputValue`. */
  function SendMessage(h: seq<Message>, inputValue: string, call: CallOutcome, wiki: WikiOutcome): TurnResult {
    var userMessage := JsText.Trim(inputValue);
    if userMessage == [] then TurnResult(h, [], None, None, None)
    else
      var echo := UserEcho(HtmlEscape.Escape(userMessage));
      if Normalize.WhoAmI(Normalize.NormalizeES(userMessage)) then
        TurnResult(h + [Message(User, userMessage), Message(Assistant, Introduction)],
                   [echo, Reply(Introduction)], None, None, Voice.Speak(Introduction))
      else AskModel(Bound(h + [Message(User, userMessage)]), echo, userMessage, call, wiki)
  }

  /** The `try` block of `sendMessage`, once the user's message is pushed and
      the history cut to `sent`: the request always carries `sent`, and the
      history gains at most the assistant's message. */
  function AskModel(sent: seq<Message>, echo: Shown, userMessage: string, call: CallOutcome, wiki: WikiOutcome): TurnResult {
    match CallAI(call)
    case Failed(e) => Failure(sent, echo, e, None)
    case Data(data) =>
      var reply := ModelReply(data);
      var query := if NeedsFallback(reply) then Some(userMessage) else None;
      var chosen := ChooseReply(reply, WikiFallback(wiki));
      if !chosen.Str? then Failure(sent, echo, NotAString, query)
      else
        var text := LatexClean.Clean(chosen.str);
        TurnResult(sent + [Message(Assistant, text)], [echo, Reply(text)], Some(RequestFor(sent)), query,
                   Voice.Speak(text))
  }

  /** Whatever the model answers, the request carries `sent`, the echo is
      shown first, and the history gains at most the assistant's message. */
  lemma AskModelShape(sent: seq<Message>, echo: Shown, userMessage: string, call: CallOutcome, wiki: WikiOutcome)
    ensures var r := AskModel(sent, echo, userMessage, call, wiki);
            && r.request == Some(RequestFor(sent)) && |r.shown| == 2 && r.shown[0] == echo
            && |sent| <= |r.history| <= |sent| + 1 && r.history[..|sent|] == sent
  {
    match CallAI(call)
    case Failed(e) =>
    case Data(data) =>
      var chosen := ChooseReply(ModelReply(data), WikiFallback(wiki));
      if chosen.Str? {
        var text := LatexClean.Clean(chosen.str);
        assert (sent + [Message(Assistant, text)])[..|sent|] == sent;
      }
  }

  /** Input that is neither blank nor a "who are you" question goes to the
      model. */
  lemma OffFastPath(h: seq<Message>, inputValue: string, call: CallOutcome, wiki: WikiOutcome)
    requires !JsText.AllSpace(inputValue)
    requires !Normalize.WhoAmI(Normalize.NormalizeES(JsText.Trim(inputValue)))
    ensures var u := JsText.Trim(inputValue);
            SendMessage(h, inputValue, call, wiki)
            == AskModel(Bound(h + [Message(User, u)]), UserEcho(HtmlEscape.Escape(u)), u, call, wiki)
  {
    JsText.TrimEmptyIff(inputValue);
  }

  /** The `catch` of `sendMessage`: the history keeps the user's message and
      an error line is shown. */
  function Failure(sent: seq<Message>, echo: Shown, e: JsError, query: Option<string>): (r: TurnResult)
    ensures r.history == sent && r.request == Some(RequestFor(sent)) && r.spoken.None?
    ensures r.shown == [echo, ErrorLine(ErrorPrefix + HtmlEscape.Escape(ErrorText(e)))]
  {
    TurnResult(sent, [echo, ErrorLine(ErrorPrefix + HtmlEscape.Escape(ErrorText(e)))], Some(RequestFor(sent)), query, None)
  }

  /** The error line of a failed turn is the fixed prefix followed by the
      error text escaped: it holds no markup, and a browser shows the error
      text exactly. */
  lemma FailureShowsError(sent: seq<Message>, echo: Shown, e: JsError, query: Option<string>)
    ensures var r := Failure(sent, echo, e, query);
            && |r.shown| == 2 && r.shown[1].ErrorLine?
            && |ErrorPrefix| <= |r.shown[1].html| && r.shown[1].html[..|ErrorPrefix|] == ErrorPrefix
            && HtmlEscape.Unescape(r.shown[1].html[|ErrorPrefix|..]) == ErrorText(e)
            && forall i :: 0 <= i < |r.shown[1].html| ==> !HtmlEscape.Markup(r.shown[1].html[i])
  {
    var x := HtmlEscape.Escape(ErrorText(e));
    var line := ErrorPrefix + x;
    assert line[..|ErrorPrefix|] == ErrorPrefix && line[|ErrorPrefix|..] == x;
    HtmlEscape.UnescapeEscape(ErrorText(e));
    PrefixPlain();
    assert forall i :: 0 <= i < |line| ==> line[i] == (if i < |ErrorPrefix| then ErrorPrefix[i] else x[i - |ErrorPrefix|]);
  }

  lemma PrefixPlain()
    ensures forall i :: 0 <= i < |ErrorPrefix| ==> !HtmlEscape.Markup(ErrorPrefix[i])
  {
  }

  // ---------------------------------------------------------------------
  // Properties of a turn

  /** Whitespace-only input changes nothing and shows nothing. */
  lemma BlankInputIgnored(h: seq<Message>, inputValue: string, call: CallOutcome, wiki: WikiOutcome)
    requires JsText.AllSpace(inputValue)
    ensures SendMessage(h, inputValue, call, wiki) == TurnResult(h, [], None, None, None)
  {
    JsText.TrimEmptyIff(inputValue);
  }

  /** Off the fast path, the history after the turn begins with what was
      sent: the old history (or what the bound keeps of it) and the user's
      message. */
  lemma SentIsPrefix(h: seq<Message>, inputValue: string, call: CallOutcome, wiki: WikiOutcome)
    requires !JsText.AllSpace(inputValue)
    requires !Normalize.WhoAmI(Normalize.NormalizeES(JsText.Trim(inputValue)))
    ensures var r := SendMessage(h, inputValue, call, wiki);
            var sent := Bound(h + [Message(User, JsText.Trim(inputValue))]);
            && |sent| <= |r.history| && r.history[..|sent|] == sent
            && |r.history| <= |sent| + 1
            && |r.shown| == 2 && r.shown[0] == UserEcho(HtmlEscape.Escape(JsText.Trim(inputValue)))
  {
    var u := JsText.Trim(inputValue);
    OffFastPath(h, inputValue, call, wiki);
    AskModelShape(Bound(h + [Message(User, u)]), UserEcho(HtmlEscape.Escape(u)), u, call, wiki);
  }

  /** The user's message is the last entry of what is sent. */
  lemma SentEndsWithUser(h: seq<Message>, m: Message)
    ensures |Bound(h + [m])| >= 1 && Bound(h + [m])[|Bound(h + [m])| - 1] == m
  {
    var g := h + [m];
    BoundShape(g);
    if |g| > 9 {
      assert Bound(g)[7] == g[|g| - 1];
    }
  }

  /** Any input that is not blank is echoed escaped, and its trimmed text is
      stored in the history as the user's message. */
  lemma UserMessageStored(h: seq<Message>, inputValue: string, call: CallOutcome, wiki: WikiOutcome)
    requires !JsText.AllSpace(inputValue)
    ensures var r := SendMessage(h, inputValue, call, wiki);
            && |r.shown| == 2 && r.shown[0] == UserEcho(HtmlEscape.Escape(JsText.Trim(inputValue)))
            && Message(User, JsText.Trim(inputValue)) in r.history
  {
    var m := Message(User, JsText.Trim(inputValue));
    var r := SendMessage(h, inputValue, call, wiki);
    if Normalize.WhoAmI(Normalize.NormalizeES(JsText.Trim(inputValue))) {
      WhoAmIFastPath(h, inputValue, call, wiki);
      assert r.history[|h|] == m;
    } else {
      SentIsPrefix(h, inputValue, call, wiki);
      SentEndsWithUser(h, m);
      var sent := Bound(h + [m]);
      assert r.history[..|sent|][|sent| - 1] == m;
    }
  }

  /** The fast path: a question about who the assistant is adds exactly the
      user's message and the introduction, without a request and without
      cutting the history. */
  lemma WhoAmIFastPath(h: seq<Message>, inputValue: string, call: CallOutcome, wiki: WikiOutcome)
    requires !JsText.AllSpace(inputValue)
    requires Normalize.WhoAmI(Normalize.NormalizeES(JsText.Trim(inputValue)))
    ensures var r := SendMessage(h, inputValue, call, wiki);
            && r.history == h + [Message(User, JsText.Trim(inputValue)), Message(Assistant, Introduction)]
            && |r.history| == |h| + 2
            && r.request.None? && r.wikiQuery.None?
            && |r.shown| == 2 && r.shown[1] == Reply(Introduction)
  {
    JsText.TrimEmptyIff(inputValue);
  }

  /** Every request carries at most nine messages and starts with the first
      message of the history (the system prompt). */
  lemma RequestBounded(h: seq<Message>, inputValue: string, call: CallOutcome, wiki: WikiOutcome)
    requires |h| >= 1
    ensures var r := SendMessage(h, inputValue, call, wiki);
            r.request.Some? ==> |r.request.value.messages| <= 9 && r.request.value.messages[0] == h[0]
  {
    var r := SendMessage(h, inputValue, call, wiki);
    if r.request.Some? {
      var g := h + [Message(User, JsText.Trim(inputValue))];
      BoundShape(g);
    }
  }

  /** The first message of the history survives every turn. */
  lemma FirstMessageKept(h: seq<Message>, inputValue: string, call: CallOutcome, wiki: WikiOutcome)
    requires |h| >= 1
    ensures var r := SendMessage(h, inputValue, call, wiki);
            |r.history| >= 1 && r.history[0] == h[0]
  {
    var g := h + [Message(User, JsText.Trim(inputValue))];
    BoundShape(g);
  }

  /** After a turn that reached the proxy the history has at most ten
      entries, whatever its length before; only the fast path lets it grow
      beyond that. */
  lemma HistoryAfterRequest(h: seq<Message>, inputValue: string, call: CallOutcome, wiki: WikiOutcome)
    ensures var r := SendMessage(h, inputValue, call, wiki);
            r.request.Some? ==> |r.history| <= 10
  {
    var g := h + [Message(User, JsText.Trim(inputValue))];
    BoundShape(g);
  }

  /** A request that throws keeps the user's message, adds no assistant
      message, and shows the error text escaped (`FailedCall` covers a
      non-ok answer as well). */
  lemma ErrorPath(h: seq<Message>, inputValue: string, e: JsError, wiki: WikiOutcome)
    requires !JsText.AllSpace(inputValue)
    requires !Normalize.WhoAmI(Normalize.NormalizeES(JsText.Trim(inputValue)))
    ensures var r := SendMessage(h, inputValue, CallThrew(e), wiki);
            var sent := Bound(h + [Message(User, JsText.Trim(inputValue))]);
            && r.history == sent
            && |r.shown| == 2 && r.shown[1] == ErrorLine(ErrorPrefix + HtmlEscape.Escape(ErrorText(e)))
            && r.spoken.None?
            && (forall k :: |h| <= k < |r.history| ==> r.history[k].role == User)
  {
    FailedCall(h, inputValue, CallThrew(e), wiki);
    var g := h + [Message(User, JsText.Trim(inputValue))];
    BoundShape(g);
  }

  /** A failing `callAI` — the request threw, or the answer was not ok —
      ends the turn the same way; the encyclopedia is not asked. */
  lemma FailedCall(h: seq<Message>, inputValue: string, call: CallOutcome, wiki: WikiOutcome)
    requires !JsText.AllSpace(inputValue)
    requires !Normalize.WhoAmI(Normalize.NormalizeES(JsText.Trim(inputValue)))
    requires CallAI(call).Failed?
    ensures var r := SendMessage(h, inputValue, call, wiki);
            && r.history == Bound(h + [Message(User, JsText.Trim(inputValue))])
            && |r.shown| == 2 && r.shown[1] == ErrorLine(ErrorPrefix + HtmlEscape.Escape(ErrorText(CallAI(call).error)))
            && r.wikiQuery.None? && r.spoken.None?
  {
    var u := JsText.Trim(inputValue);
    OffFastPath(h, inputValue, call, wiki);
    AskModelFailed(Bound(h + [Message(User, u)]), UserEcho(HtmlEscape.Escape(u)), u, call, wiki);
  }

  /** A usable string reply from the model is cleaned and appended as exactly
      one assistant message; nothing is asked of the encyclopedia. */
  lemma ModelReplyUsed(h: seq<Message>, inputValue: string, data: Json, wiki: WikiOutcome)
    requires !JsText.AllSpace(inputValue)
    requires !Normalize.WhoAmI(Normalize.NormalizeES(JsText.Trim(inputValue)))
    requires ModelReply(data).Str? && !NeedsFallback(ModelReply(data))
    ensures var r := SendMessage(h, inputValue, CallAnswered(true, 200, Some(data)), wiki);
            var sent := Bound(h + [Message(User, JsText.Trim(inputValue))]);
            var text := LatexClean.Clean(ModelReply(data).str);
            && r.history == sent + [Message(Assistant, text)]
            && r.request == Some(RequestFor(sent))
            && |r.shown| == 2 && r.shown[1] == Reply(text)
            && r.spoken == Voice.Speak(text)
            && r.wikiQuery.None?
  {
    var u := JsText.Trim(inputValue);
    OffFastPath(h, inputValue, CallAnswered(true, 200, Some(data)), wiki);
    AskModelReply(Bound(h + [Message(User, u)]), UserEcho(HtmlEscape.Escape(u)), u, data, wiki);
  }

  /** An empty or "no answer" reply is replaced: by the encyclopedia's text
      for the user's question when there is one, and by the apology
      otherwise; the replacement is cleaned and appended once. */
  lemma FallbackUsed(h: seq<Message>, inputValue: string, data: Json, wiki: WikiOutcome)
    requires !JsText.AllSpace(inputValue)
    requires !Normalize.WhoAmI(Normalize.NormalizeES(JsText.Trim(inputValue)))
    requires NeedsFallback(ModelReply(data))
    requires WikiFallback(wiki).Str?
    ensures var r := SendMessage(h, inputValue, CallAnswered(true, 200, Some(data)), wiki);
            var sent := Bound(h + [Message(User, JsText.Trim(inputValue))]);
            var w := WikiFallback(wiki).str;
            var text := LatexClean.Clean(if w != "" then w else Apology);
            && r.wikiQuery == Some(JsText.Trim(inputValue))
            && r.history == sent + [Message(Assistant, text)]
            && |r.shown| == 2 && r.shown[1] == Reply(text)
  {
    var u := JsText.Trim(inputValue);
    OffFastPath(h, inputValue, CallAnswered(true, 200, Some(data)), wiki);
    AskModelFallback(Bound(h + [Message(User, u)]), UserEcho(HtmlEscape.Escape(u)), u, data, wiki);
  }

  lemma AskModelFailed(sent: seq<Message>, echo: Shown, u: string, call: CallOutcome, wiki: WikiOutcome)
    requires CallAI(call).Failed?
    ensures AskModel(sent, echo, u, call, wiki) == Failure(sent, echo, CallAI(call).error, None)
  {
  }

  lemma AskModelReply(sent: seq<Message>, echo: Shown, u: string, data: Json, wiki: WikiOutcome)
    requires ModelReply(data).Str? && !NeedsFallback(ModelReply(data))
    ensures var text := LatexClean.Clean(ModelReply(data).str);
            AskModel(sent, echo, u, CallAnswered(true, 200, Some(data)), wiki)
            == TurnResult(sent + [Message(Assistant, text)], [echo, Reply(text)], Some(RequestFor(sent)), None,
                          Voice.Speak(text))
  {
  }

  lemma AskModelFallback(sent: seq<Message>, echo: Shown, u: string, data: Json, wiki: WikiOutcome)
    requires NeedsFallback(ModelReply(data))
    requires WikiFallback(wiki).Str?
    ensures var w := WikiFallback(wiki).str;
            var text := LatexClean.Clean(if w != "" then w else Apology);
            AskModel(sent, echo, u, CallAnswered(true, 200, Some(data)), wiki)
            == TurnResult(sent + [Message(Assistant, text)], [echo, Reply(text)], Some(RequestFor(sent)), Some(u),
                          Voice.Speak(text))
  {
    assert CallAI(CallAnswered(true, 200, Some(data))) == Data(data);
    var w := WikiFallback(wiki).str;
    assert ChooseReply(ModelReply(data), WikiFallback(wiki)) == Str(if w != "" then w else Apology);
  }

  /** The apology has no math in it, so it is stored exactly as written. */
  lemma ApologyUnchanged()
    ensures LatexClean.Clean(Apology) == Apology
  {
    assert '$' !in "Lo siento, ";
    assert '$' !in "no encontr\U{E9} ";
    assert '$' !in "una respuesta ";
    assert '$' !in "adecuada.";
    LatexClean.NoDollarUnchanged(Apology);
  }
}

=== FILE: voice.dfy ===
/** `plainTextForVoice` and the guard at the top of `speak` (chat.js): the
    text a reply is read aloud from. Lines of code fences and of math are
    dropped, the remaining lines are joined into sentences, Markdown emphasis
    is unwrapped, a space is put after punctuation that lacks one, whitespace
    is collapsed and runs of periods are shortened.

    Each `replace(/.../g, ...)` is a scanner over the text: at each index it
    either substitutes a match and resumes after it, or copies one character
    and moves on, which is how a global replace walks its input. */
module Voice {
  import opened Wrappers
  import JsText

  /** Every character of `r` occurs in `s`. */
  predicate CharsIn(r: string, s: string) {
    forall i :: 0 <= i < |r| ==> r[i] in s
  }

  /** Every character of `r` occurs in `s` or is a space. */
  predicate CharsInOrSpace(r: string, s: string) {
    forall i :: 0 <= i < |r| ==> r[i] in s || r[i] == ' '
  }

  /** The only whitespace is the plain space. */
  predicate SpacesOnly(s: string) {
    forall i :: 0 <= i < |s| ==> JsText.IsSpace(s[i]) ==> s[i] == ' '
  }

  /** No two periods stand next to each other. */
  predicate NoDoubleDot(s: string) {
    forall i :: 0 <= i < |s| - 1 ==> !(s[i] == '.' && s[i + 1] == '.')
  }

  // ---------------------------------------------------------------------
  // Line filter

  /** The line filter: a line is kept unless, once trimmed, it opens a code
      fence, starts or ends with `$$`, or contains a `$` anywhere. */
  predicate KeepLine(line: string) {
    var t := JsText.Trim(line);
    && !JsText.StartsWith(t, "```")
    && !JsText.StartsWith(t, "$$") && !JsText.EndsWith(t, "$$")
    && '$' !in t
  }

  /** `xs.filter(keep)`. */
  function Filter<T(==)>(xs: seq<T>, keep: T -> bool): (ys: seq<T>)
    ensures |ys| <= |xs|
    ensures forall k :: 0 <= k < |ys| ==> keep(ys[k]) && ys[k] in xs
    ensures (forall k :: 0 <= k < |xs| ==> keep(xs[k])) ==> ys == xs
    ensures (forall k :: 0 <= k < |xs| ==> !keep(xs[k])) ==> ys == []
  {
    if |xs| == 0 then []
    else
      var rest := Filter(xs[1..], keep);
      assert forall k :: 0 <= k < |rest| ==> rest[k] in xs by {
        forall k | 0 <= k < |rest|
          ensures rest[k] in xs
        {
          var m :| 0 <= m < |xs[1..]| && xs[1..][m] == rest[k];
          assert xs[m + 1] == rest[k];
        }
      }
      if keep(xs[0]) then [xs[0]] + rest else rest
  }

  /** Filtering a concatenation filters each part; with `FilterOne` this
      pins the result down: every element that passes, in order. */
  lemma {:induction false} FilterConcat<T>(a: seq<T>, b: seq<T>, keep: T -> bool)
    ensures Filter(a + b, keep) == Filter(a, keep) + Filter(b, keep)
  {
    if |a| == 0 {
      assert a + b == b;
    } else {
      assert (a + b)[0] == a[0] && (a + b)[1..] == a[1..] + b;
      FilterConcat(a[1..], b, keep);
    }
  }

  lemma FilterOne<T>(x: T, keep: T -> bool)
    ensures Filter([x], keep) == if keep(x) then [x] else []
  {
    assert [x][1..] == [];
  }

  /** The lines the filter keeps, in order. */
  function KeepLines(lines: seq<string>): (kept: seq<string>)
    ensures |kept| <= |lines|
    ensures forall k :: 0 <= k < |kept| ==> KeepLine(kept[k]) && kept[k] in lines
    ensures (forall k :: 0 <= k < |lines| ==> KeepLine(lines[k])) ==> kept == lines
    ensures (forall k :: 0 <= k < |lines| ==> !KeepLine(lines[k])) ==> kept == []
  {
    Filter(lines, KeepLine)
  }

  /** The filter keeps exactly the lines that pass, in their order. */
  lemma KeepLinesExactly(a: seq<string>, b: seq<string>, line: string)
    ensures KeepLines(a + b) == KeepLines(a) + KeepLines(b)
    ensures KeepLines([line]) == if KeepLine(line) then [line] else []
  {
    FilterConcat(a, b, KeepLine);
    FilterOne(line, KeepLine);
  }

  /** A non-space character of a line survives trimming. */
  lemma InTrim(line: string, c: char)
    requires c in line && !JsText.IsSpace(c)
    ensures c in JsText.Trim(line)
  {
    var i :| 0 <= i < |line| && line[i] == c;
    JsText.TrimKeeps(line, i);
  }

  /** A kept line has no `$` at all. */
  lemma KeptLineNoDollar(line: string)
    requires KeepLine(line)
    ensures '$' !in line
  {
    if '$' in line {
      InTrim(line, '$');
    }
  }

  /** The kept lines joined into one text. */
  function Sentences(markdown: string): string {
    JsText.Join(KeepLines(JsText.Split(markdown, '\n')), ". ")
  }

  /** No `$` survives the line filter. */
  lemma SentencesNoDollar(markdown: string)
    ensures '$' !in Sentences(markdown)
  {
    var kept := KeepLines(JsText.Split(markdown, '\n'));
    if '$' in JsText.Join(kept, ". ") {
      JsText.JoinChars(kept, ". ", '$');
      var k :| 0 <= k < |kept| && '$' in kept[k];
      KeptLineNoDollar(kept[k]);
    }
  }

  // ---------------------------------------------------------------------
  // Emphasis: `\*\*([^*]+)\*\*`, `\*([^*]+)\*`, `__([^_]+)__`, `_([^_]+)_`

  /** The delimiter of an emphasis pattern: the marker once or twice. */
  function Delim(c: char, double: bool): (d: string)
    ensures |d| == (if double then 2 else 1)
    ensures forall i :: 0 <= i < |d| ==> d[i] == c
  {
    if double then [c, c] else [c]
  }

  /** Length of the leading run of characters other than `c`. */
  function RunNot(s: string, c: char): (n: nat)
    ensures n <= |s|
    ensures c !in s[..n]
    ensures n < |s| ==> s[n] == c
  {
    if |s| == 0 || s[0] == c then 0
    else
      var n := 1 + RunNot(s[1..], c);
      assert s[..n] == [s[0]] + s[1..][..n - 1];
      n
  }

  /** The run ends exactly at the first marker. */
  lemma RunNotIs(s: string, c: char, k: nat)
    requires k < |s| && s[k] == c && c !in s[..k]
    ensures RunNot(s, c) == k
  {
  }

  /** The length of the captured run when `DD([^C]+)DD` matches at the
      start of `s`, and 0 when it does not. The greedy class stops at the
      first marker, and a shorter run would be followed by a non-marker, so
      the match, when there is one, is the maximal run between two
      delimiters. */
  function PairAt(s: string, c: char, double: bool): (w: nat)
    ensures w > 0 ==> 2 * |Delim(c, double)| + w <= |s|
  {
    var d := Delim(c, double);
    if !JsText.StartsWith(s, d) then 0
    else
      var t := s[|d|..];
      var w := RunNot(t, c);
      if w > 0 && JsText.StartsWith(t[w..], d) then w else 0
  }

  /** A slice of a text has no character the text lacks. */
  lemma SliceChars(s: string, i: nat, j: nat)
    requires i <= j <= |s|
    ensures CharsIn(s[i..j], s)
  {
    assert forall k :: 0 <= k < j - i ==> s[i..j][k] == s[i + k];
  }

  /** `s.replace(/DD([^C]+)DD/g, "$1")` where `DD` is the delimiter and `C`
      its marker. */
  function StripPair(s: string, c: char, double: bool): (r: string)
    ensures |r| <= |s|
    decreases |s|
  {
    if |s| == 0 then []
    else
      var n := |Delim(c, double)|;
      var w := PairAt(s, c, double);
      if w > 0 then s[n..n + w] + StripPair(s[n + w + n..], c, double)
      else [s[0]] + StripPair(s[1..], c, double)
  }

  lemma {:induction false} StripPairChars(s: string, c: char, double: bool)
    ensures CharsIn(StripPair(s, c, double), s)
    decreases |s|
  {
    if |s| > 0 {
      var n := |Delim(c, double)|;
      var w := PairAt(s, c, double);
      if w > 0 {
        var rest := s[n + w + n..];
        StripPairChars(rest, c, double);
        SliceChars(s, n, n + w);
        SliceChars(s, n + w + n, |s|);
        CharsInTrans(StripPair(rest, c, double), rest, s);
        CharsInConcat(s[n..n + w], StripPair(rest, c, double), s);
      } else {
        StripPairChars(s[1..], c, double);
        SliceChars(s, 1, |s|);
        CharsInTrans(StripPair(s[1..], c, double), s[1..], s);
        CharsInConcat([s[0]], StripPair(s[1..], c, double), s);
      }
    }
  }

  lemma CharsInConcat(x: string, y: string, s: string)
    requires CharsIn(x, s) && CharsIn(y, s)
    ensures CharsIn(x + y, s)
  {
    forall i | 0 <= i < |x + y|
      ensures (x + y)[i] in s
    {
      if i >= |x| {
        assert (x + y)[i] == y[i - |x|];
      }
    }
  }

  /** Text without the marker is left alone. */
  lemma {:induction false} StripPairNoMarker(s: string, c: char, double: bool)
    requires c !in s
    ensures StripPair(s, c, double) == s
    decreases |s|
  {
    if |s| > 0 {
      assert PairAt(s, c, double) == 0;
      StripPairNoMarker(s[1..], c, double);
    }
  }

  /** Where a pair matches, the text is a delimiter, the run, a delimiter
      and the rest. */
  lemma PairAtLayout(s: string, c: char, double: bool)
    requires PairAt(s, c, double) > 0
    ensures var n, w := |Delim(c, double)|, PairAt(s, c, double);
            && n + w + n <= |s|
            && s == s[..n] + (s[n..n + w] + (s[n + w..n + w + n] + s[n + w + n..]))
            && s[..n] == Delim(c, double) && s[n + w..n + w + n] == Delim(c, double)
  {
    var d := Delim(c, double);
    var n, w := |d|, PairAt(s, c, double);
    var u := s[n..];
    assert u[w..][..n] == s[n + w..n + w + n];
    assert s == s[..n] + (s[n..n + w] + (s[n + w..n + w + n] + s[n + w + n..]));
  }

  /** The pass only takes out markers: without the marker (and whatever
      else `cs` names), its result is its input. */
  lemma {:induction false} StripPairOnlyDropsMarker(s: string, c: char, double: bool, cs: set<char>)
    requires c in cs
    ensures Drop(StripPair(s, c, double), cs) == Drop(s, cs)
    decreases |s|
  {
    if |s| > 0 {
      var d := Delim(c, double);
      var n := |d|;
      var w := PairAt(s, c, double);
      if w > 0 {
        var rest := s[n + w + n..];
        StripPairOnlyDropsMarker(rest, c, double, cs);
        PairAtLayout(s, c, double);
        DropAll(d, cs);
        DropConcat(s[..n], s[n..n + w] + (s[n + w..n + w + n] + rest), cs);
        DropConcat(s[n..n + w], s[n + w..n + w + n] + rest, cs);
        DropConcat(s[n + w..n + w + n], rest, cs);
        DropConcat(s[n..n + w], StripPair(rest, c, double), cs);
      } else {
        StripPairOnlyDropsMarker(s[1..], c, double, cs);
        DropConcat([s[0]], StripPair(s[1..], c, double), cs);
        DropConcat([s[0]], s[1..], cs);
        assert s == [s[0]] + s[1..];
      }
    }
  }

  /** A run free of the marker, wrapped in delimiters, is unwrapped. */
  lemma StripPairUnwraps(c: char, double: bool, w: string, rest: string)
    requires |w| > 0 && c !in w
    ensures StripPair(Delim(c, double) + w + Delim(c, double) + rest, c, double)
            == w + StripPair(rest, c, double)
  {
    var d := Delim(c, double);
    var s := d + w + d + rest;
    var t := s[|d|..];
    assert t == w + (d + rest);
    assert JsText.StartsWith(s, d);
    var n := RunNot(t, c);
    RunNotIs(t, c, |w|);
    assert t[n..] == d + rest;
    assert PairAt(s, c, double) == |w|;
    assert s[|d|..|d| + n] == w;
    assert s[|d| + n + |d|..] == rest;
  }

  /** The four emphasis passes, in the source's order. */
  function Unemphasize(s: string): (r: string)
    ensures |r| <= |s|
  {
    var a := StripPair(s, '*', true);
    var b := StripPair(a, '*', false);
    var c := StripPair(b, '_', true);
    StripPair(c, '_', false)
  }

  // ---------------------------------------------------------------------
  // Spacing after punctuation: `([.,;:!?\)])([^\s.])` -> "$1 $2"

  predicate IsPunct(c: char) {
    c == '.' || c == ',' || c == ';' || c == ':' || c == '!' || c == '?' || c == ')'
  }

  /** `s.replace(/([.,;:!?\)])([^\s.])/g, "$1 $2")`. The match is two
      characters long, so its second character is not itself examined as
      punctuation: `",,a"` becomes `", ,a"`. */
  function SpaceAfterPunct(s: string): (r: string)
    ensures |s| <= |r|
    ensures CharsInOrSpace(r, s)
    ensures |s| > 0 ==> |r| > 0 && r[0] == s[0]
    decreases |s|
  {
    if |s| == 0 then []
    else if |s| >= 2 && IsPunct(s[0]) && !JsText.IsSpace(s[1]) && s[1] != '.' then
      [s[0], ' ', s[1]] + SpaceAfterPunct(s[2..])
    else [s[0]] + SpaceAfterPunct(s[1..])
  }

  /** `s` without the characters of `cs`. */
  function Drop(s: string, cs: set<char>): (r: string)
    ensures forall i :: 0 <= i < |r| ==> r[i] !in cs
  {
    if |s| == 0 then []
    else if s[0] in cs then Drop(s[1..], cs)
    else [s[0]] + Drop(s[1..], cs)
  }

  lemma {:induction false} DropConcat(a: string, b: string, cs: set<char>)
    ensures Drop(a + b, cs) == Drop(a, cs) + Drop(b, cs)
  {
    if |a| == 0 {
      assert a + b == b;
    } else {
      assert (a + b)[1..] == a[1..] + b;
      DropConcat(a[1..], b, cs);
    }
  }

  /** A text made only of characters of `cs` vanishes. */
  lemma {:induction false} DropAll(s: string, cs: set<char>)
    requires forall i :: 0 <= i < |s| ==> s[i] in cs
    ensures Drop(s, cs) == []
  {
    if |s| > 0 {
      DropAll(s[1..], cs);
    }
  }

  /** The pass only inserts spaces: taking the plain spaces out of its
      result gives the same text as taking them out of its input. */
  lemma {:induction false} SpaceAfterPunctOnlyAddsSpaces(s: string)
    ensures Drop(SpaceAfterPunct(s), {' '}) == Drop(s, {' '})
    decreases |s|
  {
    if |s| > 0 {
      if |s| >= 2 && IsPunct(s[0]) && !JsText.IsSpace(s[1]) && s[1] != '.' {
        SpaceAfterPunctOnlyAddsSpaces(s[2..]);
        DropConcat([s[0], ' ', s[1]], SpaceAfterPunct(s[2..]), {' '});
        DropConcat([s[0], s[1]], s[2..], {' '});
        assert s == [s[0], s[1]] + s[2..];
        assert Drop([s[0], ' ', s[1]], {' '}) == [s[0], s[1]] by {
          assert [s[0], ' ', s[1]][1..] == [' ', s[1]];
          assert [' ', s[1]][1..] == [s[1]];
          assert [s[0], s[1]][1..] == [s[1]];
        }
      } else {
        SpaceAfterPunctOnlyAddsSpaces(s[1..]);
        DropConcat([s[0]], SpaceAfterPunct(s[1..]), {' '});
        DropConcat([s[0]], s[1..], {' '});
        assert s == [s[0]] + s[1..];
      }
    }
  }

  // ---------------------------------------------------------------------
  // Whitespace: `\s+` -> " "

  /** `s.replace(/\s+/g, " ")`: each maximal run of whitespace becomes one
      space. */
  function CollapseSpace(s: string): (r: string)
    ensures SpacesOnly(r)
    ensures CharsInOrSpace(r, s)
    ensures forall i :: 0 <= i < |r| - 1 ==> !(r[i] == ' ' && r[i + 1] == ' ')
    ensures |r| <= |s| && (|s| > 0 <==> |r| > 0)
    ensures |s| > 0 ==> (JsText.IsSpace(s[0]) <==> r[0] == ' ')
    ensures |s| > 0 && !JsText.IsSpace(s[0]) ==> r[0] == s[0]
    decreases |s|
  {
    if |s| == 0 then []
    else if JsText.IsSpace(s[0]) then
      var n := JsText.LeadingSpace(s);
      var rest := CollapseSpace(s[n..]);
      assert n == |s| || !JsText.IsSpace(s[n..][0]);
      " " + rest
    else [s[0]] + CollapseSpace(s[1..])
  }

  /** `s` without any whitespace. */
  function DropWhite(s: string): (r: string)
    ensures forall i :: 0 <= i < |r| ==> !JsText.IsSpace(r[i])
  {
    if |s| == 0 then []
    else if JsText.IsSpace(s[0]) then DropWhite(s[1..])
    else [s[0]] + DropWhite(s[1..])
  }

  lemma {:induction false} DropWhiteSpaceRun(s: string, n: nat)
    requires n <= |s| && JsText.AllSpace(s[..n])
    ensures DropWhite(s) == DropWhite(s[n..])
    decreases n
  {
    if n > 0 {
      assert JsText.IsSpace(s[..n][0]);
      assert s[1..][..n - 1] == s[..n][1..];
      DropWhiteSpaceRun(s[1..], n - 1);
      assert s[1..][n - 1..] == s[n..];
    }
  }

  /** Collapsing whitespace keeps every other character, in order. */
  lemma {:induction false} CollapseKeepsText(s: string)
    ensures DropWhite(CollapseSpace(s)) == DropWhite(s)
    decreases |s|
  {
    if |s| > 0 {
      if JsText.IsSpace(s[0]) {
        var n := JsText.LeadingSpace(s);
        CollapseKeepsText(s[n..]);
        DropWhiteSpaceRun(s, n);
        assert (" " + CollapseSpace(s[n..]))[1..] == CollapseSpace(s[n..]);
      } else {
        CollapseKeepsText(s[1..]);
        assert ([s[0]] + CollapseSpace(s[1..]))[1..] == CollapseSpace(s[1..]);
      }
    }
  }

  // ---------------------------------------------------------------------
  // Periods: `\.{2,}` -> "." and then `\. \.` -> ". "

  /** Length of the leading run of periods. */
  function DotRun(s: string): (n: nat)
    ensures n <= |s|
    ensures forall i :: 0 <= i < n ==> s[i] == '.'
    ensures n < |s| ==> s[n] != '.'
  {
    if |s| == 0 || s[0] != '.' then 0 else 1 + DotRun(s[1..])
  }

  /** `s.replace(/\.{2,}/g, ".")`. */
  function SquashDots(s: string): (r: string)
    ensures NoDoubleDot(r)
    ensures CharsIn(r, s)
    ensures |r| <= |s|
    ensures |s| > 0 ==> |r| > 0 && r[0] == s[0]
    decreases |s|
  {
    if |s| == 0 then []
    else if |s| >= 2 && s[0] == '.' && s[1] == '.' then
      var n := DotRun(s);
      "." + SquashDots(s[n..])
    else
      var rest := SquashDots(s[1..]);
      assert s[0] == '.' ==> |rest| == 0 || rest[0] != '.';
      [s[0]] + rest
  }

  /** Squashing only takes out periods: every other character is kept, in
      order. */
  lemma {:induction false} SquashDotsOnlyDropsDots(s: string)
    ensures Drop(SquashDots(s), {'.'}) == Drop(s, {'.'})
    decreases |s|
  {
    if |s| > 0 {
      if |s| >= 2 && s[0] == '.' && s[1] == '.' {
        var n := DotRun(s);
        SquashDotsOnlyDropsDots(s[n..]);
        DropAll(s[..n], {'.'});
        DropConcat(s[..n], s[n..], {'.'});
        assert s == s[..n] + s[n..];
        DropConcat(".", SquashDots(s[n..]), {'.'});
        DropAll(".", {'.'});
      } else {
        SquashDotsOnlyDropsDots(s[1..]);
        DropConcat([s[0]], SquashDots(s[1..]), {'.'});
        DropConcat([s[0]], s[1..], {'.'});
        assert s == [s[0]] + s[1..];
      }
    }
  }

  /** A text without adjacent periods is left alone. */
  lemma {:induction false} SquashDotsNoop(s: string)
    requires NoDoubleDot(s)
    ensures SquashDots(s) == s
    decreases |s|
  {
    if |s| > 0 {
      assert !(|s| >= 2 && s[0] == '.' && s[1] == '.');
      SquashDotsNoop(s[1..]);
    }
  }

  /** `s.replace(/\. \./g, ". ")`. */
  function DotSpaceDot(s: string): (r: string)
    ensures CharsIn(r, s)
    ensures |r| <= |s|
    ensures |s| > 0 ==> |r| > 0 && r[0] == s[0]
    ensures NoDoubleDot(s) ==> NoDoubleDot(r)
    decreases |s|
  {
    if |s| == 0 then []
    else if |s| >= 3 && s[0] == '.' && s[1] == ' ' && s[2] == '.' then
      ". " + DotSpaceDot(s[3..])
    else
      [s[0]] + DotSpaceDot(s[1..])
  }

  /** The pass only takes out periods: every other character is kept, in
      order. */
  lemma {:induction false} DotSpaceDotOnlyDropsDots(s: string)
    ensures Drop(DotSpaceDot(s), {'.'}) == Drop(s, {'.'})
    decreases |s|
  {
    if |s| > 0 {
      if |s| >= 3 && s[0] == '.' && s[1] == ' ' && s[2] == '.' {
        DotSpaceDotOnlyDropsDots(s[3..]);
        DropConcat(". ", DotSpaceDot(s[3..]), {'.'});
        DropConcat(s[..3], s[3..], {'.'});
        assert s == s[..3] + s[3..];
        DotSpaceDropped(s[..3]);
      } else {
        DotSpaceDotOnlyDropsDots(s[1..]);
        DropConcat([s[0]], DotSpaceDot(s[1..]), {'.'});
        DropConcat([s[0]], s[1..], {'.'});
        assert s == [s[0]] + s[1..];
      }
    }
  }

  lemma DotSpaceDropped(t: string)
    requires t == ". ."
    ensures Drop(t, {'.'}) == " " && Drop(". ", {'.'}) == " "
  {
    var dot, space := ".", " ";
    assert ' ' !in {'.'} && '.' in {'.'};
    assert Drop(dot, {'.'}) == [];
    assert Drop(space, {'.'}) == space;
    assert t == dot + (space + dot) && ". " == dot + space;
    DropConcat(dot, space + dot, {'.'});
    DropConcat(space, dot, {'.'});
    DropConcat(dot, space, {'.'});
  }

  // ---------------------------------------------------------------------
  // The whole function

  lemma CharsInTrans(a: string, b: string, c: string)
    requires CharsIn(a, b) && CharsIn(b, c)
    ensures CharsIn(a, c)
  {
    forall i | 0 <= i < |a|
      ensures a[i] in c
    {
      var k :| 0 <= k < |b| && b[k] == a[i];
    }
  }

  /** Unwrapping emphasis only takes out `*` and `_`: every other character
      is kept, in order. */
  lemma UnemphasizeOnlyDropsMarkers(s: string)
    ensures Drop(Unemphasize(s), {'*', '_'}) == Drop(s, {'*', '_'})
  {
    var cs := {'*', '_'};
    var a := StripPair(s, '*', true);
    var b := StripPair(a, '*', false);
    var c := StripPair(b, '_', true);
    StripPairOnlyDropsMarker(s, '*', true, cs);
    StripPairOnlyDropsMarker(a, '*', false, cs);
    StripPairOnlyDropsMarker(b, '_', true, cs);
    StripPairOnlyDropsMarker(c, '_', false, cs);
  }

  lemma UnemphasizeChars(s: string)
    ensures CharsIn(Unemphasize(s), s)
  {
    var a := StripPair(s, '*', true);
    var b := StripPair(a, '*', false);
    var c := StripPair(b, '_', true);
    StripPairChars(s, '*', true);
    StripPairChars(a, '*', false);
    StripPairChars(b, '_', true);
    StripPairChars(c, '_', false);
    CharsInTrans(b, a, s);
    CharsInTrans(c, b, s);
    CharsInTrans(Unemphasize(s), c, s);
  }

  /** Emphasis markers that wrap nothing are the only thing the emphasis
      passes touch: text without `*` and `_` is left alone. */
  lemma UnemphasizePlain(s: string)
    requires '*' !in s && '_' !in s
    ensures Unemphasize(s) == s
  {
    StripPairNoMarker(s, '*', true);
    StripPairNoMarker(s, '*', false);
    StripPairNoMarker(s, '_', true);
    StripPairNoMarker(s, '_', false);
  }

  lemma {:induction false} DropWhiteConcat(a: string, b: string)
    ensures DropWhite(a + b) == DropWhite(a) + DropWhite(b)
  {
    if |a| == 0 {
      assert a + b == b;
    } else {
      assert (a + b)[1..] == a[1..] + b;
      DropWhiteConcat(a[1..], b);
    }
  }

  /** Trimming only takes out whitespace. */
  lemma TrimOnlyDropsWhite(s: string)
    ensures DropWhite(JsText.Trim(s)) == DropWhite(s)
  {
    var t := JsText.Trim(s);
    var a := JsText.LeadingSpace(s);
    JsText.TrimIsSlice(s);
    var tail := s[a + |t|..];
    DropWhiteSpaceRun(s, a);
    assert s[a..] == t + tail;
    DropWhiteConcat(t, tail);
    DropWhiteSpaceRun(tail, |tail|);
    assert tail[..|tail|] == tail && tail[|tail|..] == [];
  }

  lemma TrimChars(s: string)
    ensures CharsIn(JsText.Trim(s), s)
  {
    var t := JsText.Trim(s);
    JsText.TrimIsSlice(s);
    var a := JsText.LeadingSpace(s);
    forall i | 0 <= i < |t|
      ensures t[i] in s
    {
      assert s[a + i] == t[i];
    }
  }

  /** The text before the period passes: the kept lines joined, emphasis
      removed, punctuation spaced, whitespace collapsed, and trimmed. */
  function Spoken(markdown: string): string {
    JsText.Trim(CollapseSpace(SpaceAfterPunct(Unemphasize(Sentences(markdown)))))
  }

  lemma SpokenShape(markdown: string)
    ensures var t := Spoken(markdown);
            '$' !in t && SpacesOnly(t) && (t == [] || !JsText.IsSpace(t[0]))
  {
    var j := Sentences(markdown);
    var u := Unemphasize(j);
    var p := SpaceAfterPunct(u);
    var w := CollapseSpace(p);
    var t := JsText.Trim(w);
    assert '$' !in u by {
      SentencesNoDollar(markdown);
      UnemphasizeChars(j);
    }
    assert '$' !in w by {
      assert '$' !in p;
    }
    TrimChars(w);
    assert SpacesOnly(t) by {
      forall i | 0 <= i < |t| && JsText.IsSpace(t[i])
        ensures t[i] == ' '
      {
        var k :| 0 <= k < |w| && w[k] == t[i];
      }
    }
  }

  /** `plainTextForVoice(markdown)`. */
  function PlainTextForVoice(markdown: string): string {
    DotSpaceDot(SquashDots(Spoken(markdown)))
  }

  /** What comes out is one line of speakable text: no `$`, no line break
      or other whitespace than the plain space, no two periods in a row, and
      no whitespace in front. */
  lemma PlainTextShape(markdown: string)
    ensures var r := PlainTextForVoice(markdown);
            && '$' !in r
            && '\n' !in r && SpacesOnly(r)
            && NoDoubleDot(r)
            && (r == [] || !JsText.IsSpace(r[0]))
  {
    var t := Spoken(markdown);
    var q := SquashDots(t);
    var r := DotSpaceDot(q);
    SpokenShape(markdown);
    CharsInTrans(r, q, t);
    assert SpacesOnly(r) by {
      forall i | 0 <= i < |r| && JsText.IsSpace(r[i])
        ensures r[i] == ' '
      {
        var k :| 0 <= k < |t| && t[k] == r[i];
      }
    }
    assert JsText.IsSpace('\n');
  }

  /** The guard at the top of `speak`: nothing is said when the spoken text
      is empty; otherwise that text is what the utterance is made of, and so
      an utterance is never empty, never holds math or a line break, and has
      no two periods in a row. */
  function Speak(text: string): (utterance: Option<string>)
    ensures utterance.None? <==> PlainTextForVoice(text) == []
    ensures utterance.Some? ==> utterance.value == PlainTextForVoice(text)
    ensures utterance.Some? ==> && utterance.value != []
                                && '$' !in utterance.value && '\n' !in utterance.value
                                && NoDoubleDot(utterance.value)
  {
    PlainTextShape(text);
    var plain := PlainTextForVoice(text);
    if plain == [] then None else Some(plain)
  }

  /** When every line is dropped, nothing is left to say. */
  lemma AllLinesDropped(markdown: string)
    requires forall k :: 0 <= k < |JsText.Split(markdown, '\n')| ==> !KeepLine(JsText.Split(markdown, '\n')[k])
    ensures PlainTextForVoice(markdown) == []
    ensures Speak(markdown).None?
  {
  }

  /** In particular a reply made only of math and code-fence lines is not
      spoken at all. */
  lemma MathAndCodeAreSilent(markdown: string)
    requires forall k :: 0 <= k < |JsText.Split(markdown, '\n')| ==>
               var line := JsText.Split(markdown, '\n')[k];
               '$' in line || JsText.StartsWith(JsText.Trim(line), "```")
    ensures Speak(markdown).None?
  {
    var lines := JsText.Split(markdown, '\n');
    forall k | 0 <= k < |lines|
      ensures !KeepLine(lines[k])
    {
      if '$' in lines[k] && KeepLine(lines[k]) {
        KeptLineNoDollar(lines[k]);
      }
    }
    AllLinesDropped(markdown);
  }

  // ---------------------------------------------------------------------
  // Passes that leave their input alone

  /** No two markers stand next to each other. */
  predicate NoAdjacent(s: string, c: char) {
    forall i :: 0 <= i < |s| - 1 ==> !(s[i] == c && s[i + 1] == c)
  }

  /** The doubled-marker pass needs two markers in a row to do anything. */
  lemma {:induction false} StripDoubleNoop(s: string, c: char)
    requires NoAdjacent(s, c)
    ensures StripPair(s, c, true) == s
    decreases |s|
  {
    if |s| > 0 {
      assert PairAt(s, c, true) == 0 by {
        if |s| >= 2 {
          assert !(s[0] == c && s[1] == c);
          assert s[..2] != [c, c];
        }
      }
      StripDoubleNoop(s[1..], c);
    }
  }

  /** Punctuation already followed by whitespace or a period is left as it
      is. */
  lemma {:induction false} SpaceAfterPunctNoop(s: string)
    requires forall i :: 0 <= i < |s| - 1 && IsPunct(s[i]) ==> JsText.IsSpace(s[i + 1]) || s[i + 1] == '.'
    ensures SpaceAfterPunct(s) == s
    decreases |s|
  {
    if |s| > 0 {
      SpaceAfterPunctNoop(s[1..]);
    }
  }

  /** Text whose whitespace is already single plain spaces is left as it
      is; in particular the pass is idempotent. */
  lemma {:induction false} CollapseSpaceNoop(s: string)
    requires SpacesOnly(s)
    requires forall i :: 0 <= i < |s| - 1 ==> !(s[i] == ' ' && s[i + 1] == ' ')
    ensures CollapseSpace(s) == s
    decreases |s|
  {
    if |s| > 0 {
      if JsText.IsSpace(s[0]) {
        assert JsText.LeadingSpace(s) == 1 by {
          if |s| > 1 {
            assert !JsText.IsSpace(s[1]);
          }
        }
      }
      CollapseSpaceNoop(s[1..]);
    }
  }

  lemma CollapseSpaceIdempotent(s: string)
    ensures CollapseSpace(CollapseSpace(s)) == CollapseSpace(s)
  {
    CollapseSpaceNoop(CollapseSpace(s));
  }

  /** Text without a period is left alone by both period passes. */
  lemma {:induction false} DotSpaceDotNoDot(s: string)
    requires '.' !in s
    ensures DotSpaceDot(s) == s
    decreases |s|
  {
    if |s| > 0 {
      DotSpaceDotNoDot(s[1..]);
    }
  }

  // ---------------------------------------------------------------------
  // Two consequences of the code as written

  /** A single kept line is the whole joined text. */
  lemma SentencesOneLine(s: string)
    requires '\n' !in s && KeepLine(s)
    ensures Sentences(s) == s
  {
    JsText.SplitNoSep(s, '\n');
  }

  /** Text of neither whitespace nor punctuation passes the later passes
      untouched. */
  lemma WordsPassThrough(u: string)
    requires forall i :: 0 <= i < |u| ==> !JsText.IsSpace(u[i]) && !IsPunct(u[i])
    ensures DotSpaceDot(SquashDots(JsText.Trim(CollapseSpace(SpaceAfterPunct(u))))) == u
  {
    SpaceAfterPunctNoop(u);
    CollapseSpaceNoop(u);
    JsText.TrimUnchanged(u);
    SquashDotsNoop(u);
    DotSpaceDotNoDot(u);
  }

  lemma StarUnemphasize(s: string, f: string)
    requires s == "*```*" && f == "```"
    ensures Unemphasize(s) == f
  {
    var a := StripPair(s, '*', true);
    assert a == s by {
      assert NoAdjacent(s, '*');
      StripDoubleNoop(s, '*');
    }
    var b := StripPair(a, '*', false);
    assert b == f by {
      assert Delim('*', false) + f + Delim('*', false) + "" == s;
      StripPairUnwraps('*', false, f, "");
    }
    StripPairNoMarker(f, '_', true);
    StripPairNoMarker(f, '_', false);
  }

  /** The text `*```*` is spoken as three backquotes. */
  lemma VoiceStarFence(s: string, f: string)
    requires s == "*```*" && f == "```"
    ensures PlainTextForVoice(s) == f
  {
    StarKept(s);
    StarUnemphasize(s, f);
    FenceIsWords(f);
    OneLineOfWords(s, f);
  }

  lemma StarKept(s: string)
    requires s == "*```*"
    ensures '\n' !in s && KeepLine(s)
  {
    JsText.TrimUnchanged(s);
    assert s[..3] != "```";
  }

  lemma FenceIsWords(f: string)
    requires f == "```"
    ensures forall i :: 0 <= i < |f| ==> !JsText.IsSpace(f[i]) && !IsPunct(f[i])
  {
  }

  /** A single kept line whose unwrapped text is words only is spoken as
      that text. */
  lemma OneLineOfWords(s: string, u: string)
    requires '\n' !in s && KeepLine(s) && Unemphasize(s) == u
    requires forall i :: 0 <= i < |u| ==> !JsText.IsSpace(u[i]) && !IsPunct(u[i])
    ensures PlainTextForVoice(s) == u
  {
    SentencesOneLine(s);
    WordsPassThrough(u);
  }

  /** A line of three backquotes is a code fence, and is dropped. */
  lemma VoiceFence(f: string)
    requires f == "```"
    ensures PlainTextForVoice(f) == ""
  {
    JsText.SplitNoSep(f, '\n');
    JsText.TrimUnchanged(f);
    assert !KeepLine(f);
    AllLinesDropped(f);
  }

  /** So the function is not idempotent: speaking the spoken text of
      `*```*` again gives nothing. */
  lemma NotIdempotent(s: string)
    requires s == "*```*"
    ensures PlainTextForVoice(PlainTextForVoice(s)) != PlainTextForVoice(s)
  {
    VoiceStarFence(s, "```");
    VoiceFence(PlainTextForVoice(s));
  }

  /** A single line that the earlier passes leave alone reaches the last
      pass as it is. */
  predicate Settled(s: string) {
    && '\n' !in s && KeepLine(s) && '*' !in s && '_' !in s
    && (forall i :: 0 <= i < |s| - 1 && IsPunct(s[i]) ==> JsText.IsSpace(s[i + 1]) || s[i + 1] == '.')
    && SpacesOnly(s) && (forall i :: 0 <= i < |s| - 1 ==> !(s[i] == ' ' && s[i + 1] == ' '))
    && (s == [] || (!JsText.IsSpace(s[0]) && !JsText.IsSpace(s[|s| - 1])))
    && NoDoubleDot(s)
  }

  lemma SettledLine(s: string)
    requires Settled(s)
    ensures PlainTextForVoice(s) == DotSpaceDot(s)
  {
    SentencesOneLine(s);
    UnemphasizePlain(s);
    SpaceAfterPunctNoop(s);
    CollapseSpaceNoop(s);
    JsText.TrimUnchanged(s);
    SquashDotsNoop(s);
  }

  lemma SettledExample(s: string)
    requires s == "a. ."
    ensures Settled(s)
  {
    JsText.TrimUnchanged(s);
  }

  /** The last pass can leave a space at the end: `a. .` becomes `a. `. */
  lemma TrailingSpace(s: string)
    requires s == "a. ."
    ensures PlainTextForVoice(s) == "a. "
  {
    SettledExample(s);
    SettledLine(s);
    DotSpaceDotStep(s, ". .");
  }

  lemma DotSpaceDotStep(s: string, t: string)
    requires s == "a. ." && t == ". ."
    ensures DotSpaceDot(s) == "a. "
  {
    assert s[1..] == t;
    assert DotSpaceDot(t) == ". " by {
      assert t[3..] == [];
    }
  }
}

=== FILE: wrappers.dfy ===
/** The optional-value datatype used for JavaScript's `undefined`: a property
    that is absent, a regex that does not match, a speech request that is
    skipped. */
module Wrappers {

  datatype Option<+T> = None | Some(value: T) {

    /** The value in Some, or `default` when None. */
    function GetOr(default: T): T {
      match this
      case Some(v) => v
      case None => default
    }
  }
}
